=== FILE: README.md ===
# Shop rules: a Dafny model of a Django/React storefront

This project models the rule-bearing core of a small online shop. The shop has a Django REST backend (cart, orders, products, accounts) and a React client (session store, request gateway, routes, pages and forms).

Each rule is written as a pure function over immutable values:

- The backend's database is a value `Store.Db`: carts as a user → items map, products as an id → product map, orders as a sequence, and a counter for new row ids.
- A view is a function from the database and the request body (`RequestData.Data`, a string → JSON-value map) to a reply and a new database.
- Browser storage is a string → string map.
- Navigation is an output value.
- Server replies, renewal replies and confirmation dialogs are inputs.

Amounts are integers in minor currency units.

The modules follow the program's structure:

- Backend:
  - `OrderModels`: status, payment-method and payment-status choices, order lines, subtotal.
  - `OrderViews`: checkout, the two order listings, status update.
  - `CartViews`: get, add, update and remove cart items.
  - `Permissions`: the permission classes.
  - `ProductViews`: the product view set's queryset, permission choice and creator recording.
  - `UserSerializers`: registration, token claims and the sign-in body.
- Client:
  - `Session`: the auth context.
  - `PageLoad`: a full page load, the first render's guards and the restored session.
  - `Gateway`: the shared HTTP client's two interceptors.
  - `Routes`: the guards and the route table.
  - `LoginPage`, `Navbar`, `CartPage`, `CheckoutPage`, `MyProductsPage`, `AdminDashboard`, `ManageProducts` and `ProductForm`: one module per page or component.
  - `ProductPayload`: JavaScript field values and `FormData` parts.
  - `ClientData`: the list-body shapes the pages normalise.
- Shared helpers:
  - `Wrappers`, `Decimal` (integer text both ways), `Text` (lower-casing, substring), `Seqs` (filter, subsequence).
  - `JsonIdentity`: `JSON.stringify`/`JSON.parse` of the stored user, proved to be inverse to each other.

Several lemmas connect the two sides, for example:

- The total the cart page shows is the total checkout charges.
- Every quantity change the cart page sends is accepted by the update endpoint.
- A refused checkout is shown to the user with the server's own message.
- Sign-in stores exactly the account's identity and token pair.
- The pending count on the dashboard counts exactly the backend's `PENDING` orders.
- Every navbar link leads to a page the router renders for the same user.

## Model

| member | source | states |
|---|---|---|
| OrderModels.ParseStatus | backend/ecombackend/orders/models.py:6-13 | a text is read as a status only when it is that status's stored code |
| OrderModels.StatusDomain | backend/ecombackend/orders/models.py:6-13 | every status is among the six choices and its code reads back as itself |
| OrderModels.ParseStatusIffCode | backend/ecombackend/orders/models.py:6-13 | a text is accepted exactly when it is the code of one of the declared choices |
| OrderModels.DefaultsAmongChoices | backend/ecombackend/orders/models.py:21-35 | the status default is PENDING and the payment-status default UNPAID, each among its field's choices |
| OrderModels.ParsePaymentMethod | backend/ecombackend/orders/views.py:18-24 | only the exact strings "COD" and "MOCK" name a payment method, and the method's code is the value sent |
| OrderModels.Subtotal | backend/ecombackend/orders/models.py:49-51 | a line of quantity 0 has subtotal 0; a non-negative price gives a non-negative subtotal |
| OrderModels.SubtotalSumConcat | backend/ecombackend/orders/models.py:49-51 | the subtotal sum of two line lists joined is the sum of their sums |
| OrderViews.ItemProblem | backend/ecombackend/orders/views.py:53-57 | an item has no problem exactly when its product exists and is active; a problem always has a non-empty message |
| OrderViews.Validate | backend/ecombackend/orders/views.py:53-63 | the cart validates iff no item has a problem, and then its total is Σ price × quantity; otherwise the message is the first problem item's |
| OrderViews.CartAmount | backend/ecombackend/orders/views.py:58-60 | Σ price × quantity at the products' current prices, the total the validation loop accumulates; Validate and LinesAddUp state it |
| OrderViews.OrderLines | backend/ecombackend/orders/views.py:87-95 | one order line per cart item, with the same product and quantity and the product's current price |
| OrderViews.LinesAddUp | backend/ecombackend/orders/views.py:87-95 | the new order's lines add up by subtotal to the total it was charged |
| OrderViews.OrderInsertMessage | backend/ecombackend/orders/views.py:77-84 | an insert error containing shipping_address or payment_method (exact letter case), or "no such column" in any letter case, gives the migration message; any other error is reported as "Failed to create order: " + the error |
| OrderViews.InitialStatuses | backend/ecombackend/orders/views.py:34-40 | COD starts UNPAID/PENDING and MOCK starts SUCCESS/PAID, both within the model's choices |
| OrderViews.ItemInsertError | backend/ecombackend/orders/views.py:86-100 | a negative cart quantity always fails the item insert with the column check's error; otherwise the database's own failure decides |
| OrderViews.ReadyToPlace | backend/ecombackend/orders/views.py:18-65 | the checks before the order insert: a known payment method, a non-empty cart, every item valid, and a positive total; Checkout and CheckoutSucceeds state it |
| OrderViews.CheckoutAccepted | backend/ecombackend/orders/views.py:67-100 | ready to place, and neither the order insert nor the item inserts fail; Checkout states that this is exactly when 201 is returned |
| OrderViews.Checkout | backend/ecombackend/orders/views.py:16-120 | a bad payment method is refused with 400 before the cart is read. The reply is 201 exactly when every check passes and neither insert fails. A failed order insert gives 500 with the insert message and no change. A refusal never changes orders, carts or products; a 400 changes nothing at all |
| OrderViews.RefusalsCarryMessage | backend/ecombackend/orders/views.py:16-100 | every refusal of checkout carries a non-empty error text |
| OrderViews.CheckoutNeedsItems | backend/ecombackend/orders/views.py:26-32 | no cart gives 400 "Cart is empty", an empty cart 400 "Cart has no items", and the database is unchanged |
| OrderViews.CheckoutRejectsBadItem | backend/ecombackend/orders/views.py:53-57 | the first item with a missing or inactive product stops checkout with 400 and that item's message, creating nothing |
| OrderViews.FirstProblem | backend/ecombackend/orders/views.py:53-57 | validation stops at the first item with a problem |
| OrderViews.CheckoutNeedsPositiveTotal | backend/ecombackend/orders/views.py:64-65 | a cart whose total is not positive is refused with 400, creating nothing |
| OrderViews.CheckoutSucceeds | backend/ecombackend/orders/views.py:67-120 | a checkout that passes every check and whose inserts do not fail answers 201 with one new order appended. The order has one line per cart item at the current price. Its total equals both Σ price × quantity and Σ subtotal and is positive. Its statuses follow the payment method. The cart is emptied unless emptying fails |
| OrderViews.ItemFailureRollsBack | backend/ecombackend/orders/views.py:97-100 | a failed item insert answers 500 and leaves orders and carts as they were |
| OrderViews.UserOrders | backend/ecombackend/orders/views.py:127-130 | exactly the caller's orders, in stored order |
| OrderViews.InsertByTime | backend/ecombackend/orders/views.py:141 | inserting an order into a newest-first list keeps it newest first and adds exactly that order |
| OrderViews.NewestFirst | backend/ecombackend/orders/views.py:141 | the same orders (as a multiset) in non-increasing creation time |
| OrderViews.AdminOrders | backend/ecombackend/orders/views.py:137-143 | a non-admin gets exactly 403 "Admin only"; an admin gets all orders, newest first |
| OrderViews.IndexOfOrder | backend/ecombackend/orders/views.py:154-157 | the position of the order with the given id, absent exactly when no order has it |
| OrderViews.UpdateOrderStatus | backend/ecombackend/orders/views.py:150-173 | 403 for a non-admin, 404 for an unknown order, and 400 for a missing status or for any truthy value that is not a declared status code; no refusal changes anything. A declared code gives 200 and changes only that order's status, to the status it names |
| OrderViews.EveryChoiceAccepted | backend/ecombackend/orders/views.py:164-173 | in any request body whose status field is the code of a declared status, an admin's update of an existing order answers 200 and sets exactly that order's status to it |
| RequestData.Field | backend/ecombackend/cart/views.py:23 | a missing key reads as null |
| RequestData.FieldOr | backend/ecombackend/cart/views.py:24 | the default is used only for a missing key, not for an explicit null |
| RequestData.IntOf | backend/ecombackend/cart/views.py:24 | Python's `int()`: integers as themselves, fractional numbers truncated toward zero, booleans as 0/1, strings by `ParseInt`; null and containers raise |
| RequestData.Truncate | backend/ecombackend/cart/views.py:24 | `int()` of a fractional number drops the fraction toward zero: the result's magnitude is the largest whole number not above the value's magnitude, with the value's sign |
| RequestData.ParseIntText | backend/ecombackend/products/views.py:20-24 | `int()` of an integer's decimal text gives the integer back |
| CartViews.WithCart | backend/ecombackend/cart/views.py:34-44 | replacing one user's cart leaves every other cart, the products and the orders as they were |
| CartViews.GetCart | backend/ecombackend/cart/views.py:14-17 | the caller's items, with an empty cart created when there is none; no other cart changes |
| CartViews.Merge | backend/ecombackend/cart/views.py:36-44 | the product's quantity rises by exactly the amount added, every other product's stays, and one item per product is kept |
| CartViews.QuantityOfBump | backend/ecombackend/cart/views.py:42-44 | raising one item's quantity raises only its product's quantity, by the same amount |
| CartViews.NotDuplicated | backend/ecombackend/cart/views.py:36-40 | in a cart with one item per product, `get_or_create` finds at most one item |
| CartViews.AddToCart | backend/ecombackend/cart/views.py:22-46 | a quantity `int()` cannot read raises. A falsy product_id gives 400 "product_id is required"; an id that is no number or names no product gives 404 "Product not found"; neither changes anything. A known product answers 201 (or the duplicate-row exception) and adds the quantity to that product only |
| CartViews.AddToKnownProductSucceeds | backend/ecombackend/cart/views.py:29-46 | with one item per product, adding a known product answers 201 and raises its quantity by exactly the amount sent, keeping one item per product |
| CartViews.UpdateCartItem | backend/ecombackend/cart/views.py:53-67 | only an item of the caller's cart is found (404 otherwise). A null quantity, or one whose `int()` is below 1, gives 400 "Invalid quantity"; a value `int()` cannot read raises. Any other answers 200 and sets exactly that item's quantity to the value's `int()` |
| CartViews.RemoveCartItem | backend/ecombackend/cart/views.py:74-83 | 404 exactly when the item is not in the caller's cart, and success exactly when it is; the reply is then the cart without that one item |
| CartViews.RemoveKeepsOthers | backend/ecombackend/cart/views.py:74-83 | removal keeps every other item of the cart, and every other cart |
| CartViews.ForeignItemsUntouched | backend/ecombackend/cart/views.py:53-83 | an item id outside the caller's cart is refused with 404 by both update and remove, changing nothing |
| CartViews.GetKeepsOnePerProduct | backend/ecombackend/cart/views.py:14-17 | reading a cart keeps every cart at one item per product |
| CartViews.AddKeepsOnePerProduct | backend/ecombackend/cart/views.py:36-44 | adding keeps every cart at one item per product |
| CartViews.UpdateKeepsOnePerProduct | backend/ecombackend/cart/views.py:64-65 | updating keeps every cart at one item per product |
| CartViews.RemoveKeepsOnePerProduct | backend/ecombackend/cart/views.py:80-81 | removing keeps every cart at one item per product |
| Permissions.ReadsAreOpen | backend/ecombackend/products/permissions.py:10-24 | safe methods are granted to everyone, anonymous callers included, by all three classes |
| Permissions.WritesNeedAdmin | backend/ecombackend/products/permissions.py:10-13 | a non-safe method passes IsAdminOrReadOnly iff the caller is a signed-in admin |
| Permissions.WritesNeedAdminOrCreator | backend/ecombackend/products/permissions.py:22-31 | a non-safe method on a product passes iff the caller is signed in and is admin or its creator |
| Permissions.AnonymousNeverWrites | backend/ecombackend/products/permissions.py:10-31 | no class grants an anonymous caller a non-safe method |
| Permissions.AdminsPassEverything | backend/ecombackend/products/permissions.py:10-31 | a signed-in admin passes both custom classes with every method on every product |
| Permissions.AdminOrReadOnlyIsStricter | backend/ecombackend/products/permissions.py:10-31 | whatever IsAdminOrReadOnly grants, IsAdminOrCreator grants too |
| Permissions.AdminOrReadOnly | backend/ecombackend/products/permissions.py:10-13 | `IsAdminOrReadOnly.has_permission`: a safe method, or a signed-in admin; its properties are ReadsAreOpen and WritesNeedAdmin |
| Permissions.AdminOrCreator | backend/ecombackend/products/permissions.py:22-31 | `IsAdminOrCreator.has_object_permission`: a safe method, or a signed-in caller who is admin or the product's creator; its properties are WritesNeedAdminOrCreator and AdminsPassEverything |
| Permissions.AuthenticatedOrReadOnly | backend/ecombackend/products/views.py:40 | the framework's `IsAuthenticatedOrReadOnly`: a safe method, or any signed-in caller; its properties are ReadsAreOpen and AnonymousNeverWrites |
| ProductViews.Param | backend/ecombackend/products/views.py:20-22 | a parameter counts only when present and non-empty |
| ProductViews.BaseQueryset | backend/ecombackend/products/views.py:18-30 | the listing before the category filter: one creator's products with created_by, all for a signed-in admin, otherwise the active ones; its properties are CreatorListingIsExact, AdminListsEverything and OthersListActive |
| ProductViews.Queryset | backend/ecombackend/products/views.py:18-35 | no listing exactly when a created_by or category_id value is no number. Otherwise the listing is a subsequence of the base listing; with category_id it keeps exactly the base products of that category; without it, it is the base listing |
| ProductViews.CreatorListingIsExact | backend/ecombackend/products/views.py:20-24 | with created_by, the listing is exactly that creator's products, inactive included, whoever asks |
| ProductViews.AdminListsEverything | backend/ecombackend/products/views.py:25-27 | a signed-in admin lists every product |
| ProductViews.OthersListActive | backend/ecombackend/products/views.py:28-30 | anyone else lists exactly the active products |
| ProductViews.PermissionFor | backend/ecombackend/products/views.py:37-40 | create/update/partial_update/destroy use IsAdminOrCreator, every other action IsAuthenticatedOrReadOnly |
| ProductViews.ViewAllows | backend/ecombackend/products/views.py:37-40 | the request-level check of the action's class (IsAdminOrCreator has none); its property is CreatePassesPermissionLayer |
| ProductViews.ObjectAllows | backend/ecombackend/products/views.py:37-40 | the object-level check of the action's class, made when one product is fetched; its property is ChangesNeedAdminOrCreator |
| ProductViews.ChangesNeedAdminOrCreator | backend/ecombackend/products/views.py:37-40 | a change or delete passes both permission checks iff the caller is a signed-in admin or the product's creator |
| ProductViews.ReadingIsOpen | backend/ecombackend/products/views.py:37-40 | listing and retrieving pass for everyone |
| ProductViews.CreatePassesPermissionLayer | backend/ecombackend/products/views.py:37-40 | create's class has no request-level rule, so even an anonymous POST passes it, unlike IsAuthenticatedOrReadOnly |
| ProductViews.PerformCreate | backend/ecombackend/products/views.py:42-43 | a saved product's creator is the caller, and everything else is as validated; an anonymous save fails |
| UserSerializers.Validated | backend/ecombackend/users/serializers.py:6-12 | accepted iff the three declared fields are present strings; nothing else is read |
| UserSerializers.Create | backend/ecombackend/users/serializers.py:14-23 | username and email as given, the password hashed, never an admin |
| UserSerializers.RegisterOutput | backend/ecombackend/users/serializers.py:9-12 | the output holds username and email only |
| UserSerializers.RegistrationNeverAdmin | backend/ecombackend/users/serializers.py:14-23 | an `is_admin` of true in the request neither changes validation nor makes the account an admin |
| UserSerializers.PasswordNeverEchoed | backend/ecombackend/users/serializers.py:10-20 | the stored password is the hash of the given one and the output has no password |
| UserSerializers.TokenClaims | backend/ecombackend/users/serializers.py:27-32 | the token gains username and is_admin claims; other claims are unchanged |
| UserSerializers.Validate | backend/ecombackend/users/serializers.py:34-43 | a sign-in body exists iff the credentials were accepted, and carries the token pair and exactly the account's four identity fields |
| JsonIdentity.DecodeEncode | frontend/ecom/src/context/AuthContext.jsx:10-20 | parsing the stored text of an identity gives that identity back |
| JsonIdentity.DecodeIffEncode | frontend/ecom/src/context/AuthContext.jsx:10-20 | decoding a text gives an identity exactly when the text is that identity's encoding |
| JsonIdentity.EncodeInjective | frontend/ecom/src/context/AuthContext.jsx:10-20 | two identities never share a stored text |
| JsonIdentity.Decode | frontend/ecom/src/context/AuthContext.jsx:12 | a decoded identity is one whose encoding is exactly the stored text |
| JsonIdentity.Encode | frontend/ecom/src/context/AuthContext.jsx:20 | `JSON.stringify` of the identity with its keys in the order the login page builds it; DecodeEncode and EncodeInjective state it |
| JsonIdentity.Parse | frontend/ecom/src/context/AuthContext.jsx:12 | `JSON.parse` of the stored text back into an identity, field by field; DecodeIffEncode states it |
| Session.ReadStored | frontend/ecom/src/context/AuthContext.jsx:9-14 | nothing is stored iff the key is absent or empty; a restored user is one whose encoding is stored; any other text is no identity's encoding |
| Session.Mount | frontend/ecom/src/context/AuthContext.jsx:9-14 | the user stays null iff no user text is stored; otherwise it is the stored identity; a text `login` cannot have written gives no state. This is the state after the mount effect; the first render still sees null (see PageLoad) |
| Session.StoredText | frontend/ecom/src/context/AuthContext.jsx:21-22 | storing an absent value stores the text "undefined" |
| Session.IsAuthenticated | frontend/ecom/src/context/AuthContext.jsx:38 | `!!user`: a user is present; LogoutThenReload states it after sign-out |
| Session.Login | frontend/ecom/src/context/AuthContext.jsx:17-23 | the user is set and all three keys are written together; other keys are kept |
| Session.ClearSession | frontend/ecom/src/context/AuthContext.jsx:28-30 | exactly the three session keys are removed |
| Session.Logout | frontend/ecom/src/context/AuthContext.jsx:26-32 | user null, the three keys gone, other keys kept, navigation to /login |
| Session.LoginThenReload | frontend/ecom/src/context/AuthContext.jsx:9-23 | a login followed by a reload restores the same user, and storage holds all three keys |
| Session.LogoutThenReload | frontend/ecom/src/context/AuthContext.jsx:9-32 | a logout followed by a reload is anonymous and not authenticated |
| Gateway.AttachBearer | frontend/ecom/src/api/axiosClient.js:8-12 | the bearer header is set iff an access token is stored; otherwise the request is unchanged |
| Gateway.Send | frontend/ecom/src/api/axiosClient.js:15-51 | the first call is the request with its bearer header; at most one refresh and two dispatches; a request already marked `_retry` changes no storage |
| Gateway.SuccessPassesThrough | frontend/ecom/src/api/axiosClient.js:16 | a success is returned unchanged after one dispatch, with nothing renewed or stored |
| Gateway.UnhandledErrorRejected | frontend/ecom/src/api/axiosClient.js:17-49 | a non-401, a 401 already retried, or a 401 with no refresh token is rejected with the original error after one dispatch, storage untouched |
| Gateway.RenewalRetriesOnce | frontend/ecom/src/api/axiosClient.js:21-37 | after a renewal only the access token changes. The request is re-sent once, marked `_retry`, with the new bearer header, and its reply is what the caller gets |
| Gateway.RenewalFailureSignsOut | frontend/ecom/src/api/axiosClient.js:39-46 | a failed renewal removes all three keys, navigates to /login and rejects with the renewal's error |
| Gateway.SendKeepsSessionWhole | frontend/ecom/src/api/axiosClient.js:15-51 | storage holding all three session keys or none keeps holding all or none |
| Gateway.AliceScenario | frontend/ecom/src/api/axiosClient.js:15-51 | sign-in with tokens A1/R1, a 401, renewal to A2 and one retry with "Bearer A2" that succeeds |
| Routes.PrivateRoute | frontend/ecom/src/App.jsx:33-36 | the child iff a user is present, else a redirect to /login |
| Routes.AdminRoute | frontend/ecom/src/App.jsx:39-42 | the child iff the user is flagged admin, else a redirect to "/" |
| Routes.AdminAdmitsOnlyWhatPrivateAdmits | frontend/ecom/src/App.jsx:33-42 | whatever the admin guard admits the private guard admits |
| Routes.Guarded | frontend/ecom/src/App.jsx:33-42 | a route's element behind its guard: open, PrivateRoute or AdminRoute; PicksSpelling states it per route |
| Routes.Spelled | frontend/ecom/src/App.jsx:53-132 | a literal pattern's location has the pattern's segment texts |
| Routes.LiteralMatchesItself | frontend/ecom/src/App.jsx:53-132 | a literal pattern matches exactly the location it spells |
| Routes.FindRoute | frontend/ecom/src/App.jsx:51-135 | the route found matches the location, and none is found iff no route matches |
| Routes.FirstMatch | frontend/ecom/src/App.jsx:51-136 | the first matching route is the one found |
| Routes.LiteralPatterns | frontend/ecom/src/App.jsx:53-132 | every pattern but the product one is literal |
| Routes.SpellingsOfTable | frontend/ecom/src/App.jsx:53-132 | the table's literal patterns spell the listed paths |
| Routes.MatchAt | frontend/ecom/src/App.jsx:53-132 | each route matches exactly its own path (the product route, any non-empty id) |
| Routes.PatternsDisjoint | frontend/ecom/src/App.jsx:53-135 | no location matches two routes, so declaration order does not matter |
| Routes.Picks | frontend/ecom/src/App.jsx:51-135 | the router picks a route at every location that route matches |
| Routes.PicksSpelling | frontend/ecom/src/App.jsx:51-135 | at a route's own path the router shows that route's page behind its guard |
| Routes.PublicRoutesOpen | frontend/ecom/src/App.jsx:53-56 | "/", "/login" and "/register" render for everyone |
| Routes.ProductRouteOpen | frontend/ecom/src/App.jsx:54 | a product page renders for everyone |
| Routes.PrivateRoutesGuarded | frontend/ecom/src/App.jsx:59-98 | the five user pages redirect a signed-out visitor to /login and render for any signed-in user |
| Routes.AdminRoutesGuarded | frontend/ecom/src/App.jsx:101-132 | the four admin pages render iff the user is an admin, else redirect to "/" |
| Routes.UnknownPathsGoHome | frontend/ecom/src/App.jsx:135 | every other location redirects to "/" |
| Routes.Resolve | frontend/ecom/src/App.jsx:51-135 | what the router shows: the first matching route's page behind its guard, and a redirect to "/" where nothing matches; PublicRoutesOpen, PrivateRoutesGuarded, AdminRoutesGuarded and UnknownPathsGoHome state it |
| LoginPage.Normalise | frontend/ecom/src/pages/Login.jsx:33-38 | only the four identity fields are kept, and the flag is set iff is_admin is true (null or undefined become false) |
| LoginPage.LandingPath | frontend/ecom/src/pages/Login.jsx:47-51 | /admin iff admin, otherwise / |
| LoginPage.Submit | frontend/ecom/src/pages/Login.jsx:19-57 | navigation happens iff the reply has a user, and then iff no error is shown. A failure shows the generic message and leaves the session alone. A success logs in the normalised user with the reply's tokens as stored |
| LoginPage.SubmitThenReload | frontend/ecom/src/pages/Login.jsx:40-51 | the page load after a successful submit restores the normalised identity |
| LoginPage.Received | backend/ecombackend/users/serializers.py:37-43 | the sign-in body reaches the page with its user and both tokens present |
| LoginPage.SignInEndToEnd | frontend/ecom/src/pages/Login.jsx:25-51 | accepted credentials store the account's identity and the issued tokens, and send an admin to /admin and anyone else to / |
| LoginPage.RefusedSignIn | frontend/ecom/src/pages/Login.jsx:52-54 | a refused sign-in the gateway does not renew (no refresh token stored, or not a first 401) leaves the session exactly as it was, shows the generic message and does not navigate |
| LoginPage.SubmitVia | frontend/ecom/src/pages/Login.jsx:19-57 | the sign-in POST goes through the gateway. A reply the gateway resolves is handled as `Submit` handles it, with the storage the gateway left; a rejection shows the generic message, keeps the user and takes the gateway's navigation |
| LoginPage.SignInThroughGateway | frontend/ecom/src/api/auth.js:3 | a reply the server answers reaches the page unchanged, so the submit ends exactly as for the awaited reply |
| LoginPage.RefusedSignInRenews | frontend/ecom/src/api/axiosClient.js:21-37 | a refused sign-in with a refresh token stored renews: the new access token is stored, and when the re-sent sign-in is refused the generic message shows with no navigation |
| LoginPage.RefusedSignInSignsOut | frontend/ecom/src/api/axiosClient.js:39-46 | a refused sign-in whose renewal fails clears the three session keys and sends the browser to /login, with the generic message |
| PageLoad.RedirectTargets | frontend/ecom/src/App.jsx:33-135 | the guards and the catch-all redirect only to "/" or "/login" |
| PageLoad.Follow | frontend/ecom/src/App.jsx:33-42 | a rendered element stays where it is; a redirect moves to its target, shown with the restored user |
| PageLoad.LoadAsWritten | frontend/ecom/src/context/AuthContext.jsx:6-14 | a page load as the app runs it: no state iff the mount effect throws; the session is the restored one; the location is decided by the guards seeing no user |
| PageLoad.LoadIntended | frontend/ecom/src/context/AuthContext.jsx:6-14 | the same page load with the stored user read before the first render: the location is decided by the guards seeing the restored user |
| PageLoad.SameWhenSignedOut | frontend/ecom/src/context/AuthContext.jsx:6-14 | with no stored user both loads end in the same place |
| PageLoad.AdminSignInEndsHomeAsWritten | frontend/ecom/src/pages/Login.jsx:47-48 | an admin's sign-in sends the browser to /admin, and that page load ends on the home page |
| PageLoad.AdminSignInLandsOnDashboard | frontend/ecom/src/pages/Login.jsx:47-48 | with the user read before the first render, the same sign-in lands on the dashboard with the admin restored |
| PageLoad.SignedInReloadEndsOnLoginAsWritten | frontend/ecom/src/App.jsx:33-36 | reloading any of the five user pages with a user stored ends on the sign-in page |
| PageLoad.AdminReloadEndsHomeAsWritten | frontend/ecom/src/App.jsx:39-42 | reloading any of the four admin pages ends on the home page, whoever is stored |
| PageLoad.SignedInReloadStays | frontend/ecom/src/App.jsx:33-36 | with the user read before the first render, reloading a user page with a user stored stays on it and renders it |
| PageLoad.AdminReloadStaysForAdmins | frontend/ecom/src/App.jsx:39-42 | with the user read before the first render, reloading an admin page stays on it iff the stored user is an admin; anyone else lands on the home page |
| Navbar.AdminLinks | frontend/ecom/src/components/Navbar.jsx:68 | the admin link iff the user is flagged admin |
| Navbar.DesktopLinks | frontend/ecom/src/components/Navbar.jsx:62-69 | [Home] signed out; Home, Orders, Cart, My Products, then Admin Panel for an admin, signed in |
| Navbar.MobileLinks | frontend/ecom/src/components/Navbar.jsx:187-194 | always Home and Cart first; signed in, My Orders and My Products follow, then Admin Panel for an admin |
| Navbar.KnownPathsDiffer | frontend/ecom/src/components/Navbar.jsx:62-69 | the link paths differ from one another |
| Navbar.LinkPathsDistinct | frontend/ecom/src/components/Navbar.jsx:62-72 | no path occurs twice in either list |
| Navbar.AdminLinkOnlyForAdmins | frontend/ecom/src/components/Navbar.jsx:62-69 | the admin link is in either list iff the user is an admin |
| Navbar.ActiveLinks | frontend/ecom/src/components/Navbar.jsx:17 | the highlighted links are exactly those whose path equals the pathname |
| Navbar.IsActive | frontend/ecom/src/components/Navbar.jsx:17 | `isActive`: exact equality of the path with the pathname, no prefix match; ActiveLinks and AtMostOneActive state it |
| Navbar.AtMostOneActive | frontend/ecom/src/components/Navbar.jsx:17-29 | with distinct paths at most one link is highlighted |
| Navbar.AccountControls | frontend/ecom/src/components/Navbar.jsx:87-137 | logout and a greeting iff signed in; Login and Sign Up iff signed out |
| Navbar.Initial | frontend/ecom/src/components/Navbar.jsx:9 | the menu starts closed |
| Navbar.Toggle | frontend/ecom/src/components/Navbar.jsx:145 | the button flips the menu and nothing else |
| Navbar.Navigate | frontend/ecom/src/components/Navbar.jsx:13-15 | every location change closes the menu |
| Navbar.VisibleMobileLinks | frontend/ecom/src/components/Navbar.jsx:178 | mobile links are shown only while the menu is open |
| Navbar.ToggleTwice | frontend/ecom/src/components/Navbar.jsx:145 | two presses restore the bar |
| Navbar.FollowingLinkClosesMenu | frontend/ecom/src/components/Navbar.jsx:13-15 | following a mobile link hides the mobile list |
| Navbar.DesktopLinksRender | frontend/ecom/src/components/Navbar.jsx:62-69 | every desktop link leads to a page the router renders for the same user |
| Navbar.SignedOutCartLinkRedirects | frontend/ecom/src/components/Navbar.jsx:187-189 | a signed-out visitor is offered Cart and following it lands on /login |
| CartPage.Normalise | frontend/ecom/src/pages/Cart.jsx:19 | a null body throws; an object's items win whenever present; a list body is the list; an empty text is the empty list; any other text, or an object without items, is not a list |
| CartPage.Load | frontend/ecom/src/pages/Cart.jsx:16-25 | a failed request or a null body keeps the list shown before; a body that normalises to lines shows exactly those; the page has no list exactly when the body is not a list |
| CartPage.LineTotal | frontend/ecom/src/pages/Cart.jsx:180 | a line with no price counts 0; otherwise price × quantity |
| CartPage.ReduceTotal | frontend/ecom/src/pages/Cart.jsx:48 | the page's left fold of line totals; ReduceTotalFrom states it |
| CartPage.ReduceCount | frontend/ecom/src/pages/Cart.jsx:49 | the page's left fold of quantities; ReduceCountFrom states it |
| CartPage.Total | frontend/ecom/src/pages/Cart.jsx:48 | the summary total, folded from 0; TotalIsSumOfLines and PageTotalIsOrderTotal state it |
| CartPage.ItemCount | frontend/ecom/src/pages/Cart.jsx:49 | the item count, folded from 0; TotalIsSumOfLines states it |
| CartPage.ReduceTotalFrom | frontend/ecom/src/pages/Cart.jsx:48 | the left fold of line totals from an accumulator is that accumulator plus their sum |
| CartPage.SumOfLineTotalsFront | frontend/ecom/src/pages/Cart.jsx:48 | the sum of line totals can also be taken from the front |
| CartPage.ReduceCountFrom | frontend/ecom/src/pages/Cart.jsx:49 | the left fold of quantities from an accumulator is that accumulator plus their sum |
| CartPage.SumOfQuantitiesFront | frontend/ecom/src/pages/Cart.jsx:49 | the sum of quantities can also be taken from the front |
| CartPage.TotalIsSumOfLines | frontend/ecom/src/pages/Cart.jsx:48-49 | the summary total is the sum of the displayed line totals; the count is the sum of quantities |
| CartPage.AppendLine | frontend/ecom/src/pages/Cart.jsx:48-49 | one more line adds its line total and its quantity |
| CartPage.FiguresNonNegative | frontend/ecom/src/pages/Cart.jsx:48-49 | with no negative price or quantity, neither figure is negative |
| CartPage.UpdateRequest | frontend/ecom/src/pages/Cart.jsx:27-35 | a PATCH is sent iff the new quantity is at least 1, for that item and quantity |
| CartPage.Decrease | frontend/ecom/src/pages/Cart.jsx:150 | the minus button asks for quantity − 1 for that item, only when that is at least 1 |
| CartPage.Increase | frontend/ecom/src/pages/Cart.jsx:159 | the plus button asks for quantity + 1 for that item |
| CartPage.RemoveRequest | frontend/ecom/src/pages/Cart.jsx:37-46 | the DELETE goes out iff confirmed |
| CartPage.MinusStopsAtOne | frontend/ecom/src/pages/Cart.jsx:150 | on a line of one, the minus button sends nothing |
| CartPage.SentUpdateAccepted | frontend/ecom/src/pages/Cart.jsx:27-31 | every change the page sends for a line of the caller's cart is applied by the endpoint, setting that quantity |
| CartPage.Serialise | frontend/ecom/src/pages/Cart.jsx:48 | each line keeps its item's id and quantity, and shows its product's price when the product exists |
| CartPage.SerialisedSum | frontend/ecom/src/pages/Cart.jsx:48 | the page's line totals add up to the backend's Σ price × quantity |
| CartPage.PageTotalIsOrderTotal | frontend/ecom/src/pages/Cart.jsx:48 | for a cart checkout accepts, the page's total is the total the order is created with |
| CartPage.ServerCartShown | frontend/ecom/src/pages/Cart.jsx:16-19 | the cart the backend's GET returns is shown as it is, and for a cart checkout accepts its page total is the order total |
| CheckoutPage.InitialForm | frontend/ecom/src/pages/Checkout.jsx:11-14 | the address starts empty and the method COD |
| CheckoutPage.EditAddress | frontend/ecom/src/pages/Checkout.jsx:103-105 | typing replaces the address and keeps the method |
| CheckoutPage.SelectPayment | frontend/ecom/src/pages/Checkout.jsx:114-124 | choosing an option sets the method to its value and keeps the address |
| CheckoutPage.MethodAlwaysOffered | frontend/ecom/src/pages/Checkout.jsx:114-124 | the method is always COD or MOCK |
| CheckoutPage.ScreenFor | frontend/ecom/src/pages/Checkout.jsx:54-80 | the form, with the cart page's total and count, is shown only for a loaded non-empty cart |
| CheckoutPage.Body | frontend/ecom/src/pages/Checkout.jsx:36-39 | the body has exactly the address and method keys |
| CheckoutPage.BodyDeterminesForm | frontend/ecom/src/pages/Checkout.jsx:36-39 | the body carries both form fields unchanged: equal bodies come only from equal forms (Body is injective) |
| CheckoutPage.BodyMethodAccepted | frontend/ecom/src/pages/Checkout.jsx:36-39 | the method sent is always one the endpoint accepts |
| CheckoutPage.OrElse | frontend/ecom/src/pages/Checkout.jsx:43 | a missing or empty text falls through to the next choice |
| CheckoutPage.FailureText | frontend/ecom/src/pages/Checkout.jsx:43 | the first non-empty of error, detail and message, in that order; the default when all three are empty; never empty |
| CheckoutPage.Settle | frontend/ecom/src/pages/Checkout.jsx:31-49 | success alerts and navigates to /orders; failure alerts the failure text and stays |
| CheckoutPage.RefusalShownVerbatim | frontend/ecom/src/pages/Checkout.jsx:42-44 | a refused checkout is alerted with the server's own error text |
| ClientData.ResultsOrData | frontend/ecom/src/pages/MyProducts.jsx:50-51 | `results` when present, else the array, else empty |
| ClientData.ArrayOf | frontend/ecom/src/pages/Admin/Dashboard.jsx:30-46 | an array `results` first, then an array body, else empty; a null body throws |
| ClientData.NormalisationsAgree | frontend/ecom/src/pages/Admin/Dashboard.jsx:30-46 | both normalisations give the same list, a throw standing for the empty list |
| MyProductsPage.FetchTarget | frontend/ecom/src/pages/MyProducts.jsx:33-46 | a request is made only for a stored user with a non-zero id, and for that user's id |
| MyProductsPage.FetchProducts | frontend/ecom/src/pages/MyProducts.jsx:30-62 | no user means no request and an empty list; otherwise the creator's listing, normalised, or empty on failure |
| MyProductsPage.SignedInUserAsksForOwn | frontend/ecom/src/pages/MyProducts.jsx:33-48 | after login the page asks for the signed-in user's own products |
| MyProductsPage.SignedOutAsksNothing | frontend/ecom/src/pages/MyProducts.jsx:33-38 | after logout nothing is asked and the list is empty |
| MyProductsPage.AddProduct | frontend/ecom/src/pages/MyProducts.jsx:73-77 | the new product first, the others after it in order |
| MyProductsPage.ReplaceById | frontend/ecom/src/pages/MyProducts.jsx:79-85 | exactly the products with the saved id are replaced; length and every other product stay |
| MyProductsPage.ReplaceUnlistedIsNoOp | frontend/ecom/src/pages/MyProducts.jsx:80-82 | replacing an unlisted id changes nothing |
| MyProductsPage.WithoutId | frontend/ecom/src/pages/MyProducts.jsx:99 | exactly the products without the id, in order |
| MyProductsPage.ConfirmDelete | frontend/ecom/src/pages/MyProducts.jsx:96-105 | the list loses that id and the dialog closes only when the DELETE succeeds; on failure nothing changes |
| MyProductsPage.ParseIntPrefix | frontend/ecom/src/pages/MyProducts.jsx:116 | `parseInt` reads the leading integer, NaN when there is none |
| MyProductsPage.ParseIntPrefixOfText | frontend/ecom/src/pages/MyProducts.jsx:116 | a category option's value parses back to the category id |
| MyProductsPage.MatchesSearch | frontend/ecom/src/pages/MyProducts.jsx:113-115 | the title or the description includes the term, both lower-cased; Filtered states it |
| MyProductsPage.MatchesCategory | frontend/ecom/src/pages/MyProducts.jsx:116 | no filter, or the product's category id equals `parseInt` of the filter; CategoryFilterIsExact states it |
| MyProductsPage.Filtered | frontend/ecom/src/pages/MyProducts.jsx:112-118 | a subsequence keeping exactly the products matching search and category |
| MyProductsPage.EmptyFilterShowsAll | frontend/ecom/src/pages/MyProducts.jsx:112-118 | no search and no category filter shows every product in order |
| MyProductsPage.CategoryFilterIsExact | frontend/ecom/src/pages/MyProducts.jsx:116 | choosing a category shows exactly the matching products of that category |
| MyProductsPage.FilterCommutesWithDelete | frontend/ecom/src/pages/MyProducts.jsx:96-118 | deleting after filtering equals filtering after deleting |
| AdminDashboard.PendingOrders | frontend/ecom/src/pages/Admin/Dashboard.jsx:54-57 | exactly the orders whose lower-cased status is pending or processing, each as many times as it occurs in the list |
| AdminDashboard.IsPending | frontend/ecom/src/pages/Admin/Dashboard.jsx:55-56 | the lower-cased status, an absent one read as empty, is "pending" or "processing"; MissingStatusNeverPending and PendingMeansBackendPending state it |
| AdminDashboard.MissingStatusNeverPending | frontend/ecom/src/pages/Admin/Dashboard.jsx:55 | a missing or empty status never counts |
| AdminDashboard.LoadStats | frontend/ecom/src/pages/Admin/Dashboard.jsx:21-78 | pending never exceeds total orders. Any failed request or null body resets every figure to 0. Otherwise each figure is its list's length |
| AdminDashboard.PendingMeansBackendPending | frontend/ecom/src/pages/Admin/Dashboard.jsx:54-57 | of the backend's status codes only PENDING counts |
| AdminDashboard.SerialisedAll | frontend/ecom/src/pages/Admin/Dashboard.jsx:36-40 | each listed order carries its backend status code |
| AdminDashboard.PendingCountOfBackend | frontend/ecom/src/pages/Admin/Dashboard.jsx:54-57 | for backend orders the pending figure is the number of PENDING orders |
| ProductPayload.FormText | frontend/ecom/src/pages/Admin/ManageProducts.jsx:61-66 | a text is sent as itself, a flag as "true"/"false", a number as its decimal text |
| ProductPayload.Append | frontend/ecom/src/pages/Admin/ManageProducts.jsx:61-69 | a file stays a file part with its name; any other value becomes a text part holding its string form |
| ProductPayload.SaveCall | frontend/ecom/src/pages/Admin/ManageProducts.jsx:78-84 | PATCH of the edited product's detail URL iff a product is being edited, else POST of the list URL, with the parts as the body |
| ProductPayload.ActionOf | frontend/ecom/src/pages/Admin/ManageProducts.jsx:79-82 | the view-set action a call names under the default router; ChangeCallsNeedAdminOrCreator uses it |
| ProductPayload.DetailUrlIsNotList | frontend/ecom/src/pages/Admin/ManageProducts.jsx:79-82 | no product's detail URL is the list URL, so an edit is never routed as a create |
| ProductPayload.ChangeCallsNeedAdminOrCreator | frontend/ecom/src/pages/Admin/ManageProducts.jsx:119-133 | a PATCH or DELETE the page sends for a product passes the endpoint's permission checks iff the caller is a signed-in admin or its creator |
| ManageProducts.ChooseImage | frontend/ecom/src/pages/Admin/ManageProducts.jsx:28-33 | choosing a file puts that file in the image field and keeps every other field |
| ManageProducts.CategoryField | frontend/ecom/src/pages/Admin/ManageProducts.jsx:110 | a nested category with a non-zero id gives that id; a zero nested id gives the object itself; a plain non-zero id gives that id; anything else gives the empty text |
| ManageProducts.EditForm | frontend/ecom/src/pages/Admin/ManageProducts.jsx:103-117 | the form takes the product's title, description and price and its image URL; is_active defaults to true when undefined |
| ManageProducts.StartEdit | frontend/ecom/src/pages/Admin/ManageProducts.jsx:103-117 | editing shows the form for that product's id, filled from it, with no file chosen |
| ManageProducts.SaveParts | frontend/ecom/src/pages/Admin/ManageProducts.jsx:61-70 | the five fields in order, as their texts; an image part iff a file was chosen, holding that file |
| ManageProducts.SubmitCall | frontend/ecom/src/pages/Admin/ManageProducts.jsx:57-84 | a PATCH of the edited product iff one is being edited, else a POST to the list, with the form's parts as the body |
| ManageProducts.AfterSave | frontend/ecom/src/pages/Admin/ManageProducts.jsx:86-88 | a success empties the form, stops editing and hides it; a failure keeps everything |
| ManageProducts.UnchangedEditResends | frontend/ecom/src/pages/Admin/ManageProducts.jsx:57-117 | saving an edit without changes PATCHes the product with its own title, price and flag, and sends no image part |
| ManageProducts.NestedCategorySendsId | frontend/ecom/src/pages/Admin/ManageProducts.jsx:110 | a nested category is sent as its id's text |
| ManageProducts.SaveAfterResetCreates | frontend/ecom/src/pages/Admin/ManageProducts.jsx:86-88 | after a successful save the next save is a POST to the list URL |
| ManageProducts.ToggleCall | frontend/ecom/src/pages/Admin/ManageProducts.jsx:131-139 | a JSON PATCH of that product whose only field is the negated flag, undefined counting as false |
| ManageProducts.ToggleTwiceRestores | frontend/ecom/src/pages/Admin/ManageProducts.jsx:133 | toggling twice, with the list reloaded between, sends the original flag back |
| ManageProducts.SaveFailureText | frontend/ecom/src/pages/Admin/ManageProducts.jsx:92-95 | detail, then message, then the error body or the error's own message, then the default; never empty |
| ManageProducts.DeleteCall | frontend/ecom/src/pages/Admin/ManageProducts.jsx:119-124 | a DELETE of that product iff the dialog is confirmed |
| ProductForm.Prefill | frontend/ecom/src/components/ProductForm.jsx:24-38 | exactly the six fields: the product's own values, its category's id, and no file |
| ProductForm.Start | frontend/ecom/src/components/ProductForm.jsx:6-38 | the six fields: blank with is_active true for a new product, otherwise the product's pre-fill |
| ProductForm.HandleChange | frontend/ecom/src/components/ProductForm.jsx:49-55 | a checkbox stores its checked state and any other input its text, under the input's name, and every other field stays |
| ProductForm.ChangesKeepFields | frontend/ecom/src/components/ProductForm.jsx:49-55 | changes to the form's own inputs keep exactly the six fields |
| ProductForm.ChooseImage | frontend/ecom/src/components/ProductForm.jsx:57-67 | a chosen file replaces the image field and every other field stays |
| ProductForm.SubmitParts | frontend/ecom/src/components/ProductForm.jsx:75-84 | the five fields in order as JavaScript's `append` turns them to text; a sixth image part iff the image is truthy and not a text |
| ProductForm.ImageOnlyWhenChosen | frontend/ecom/src/components/ProductForm.jsx:82-84 | a chosen file is always sent; the pre-filled or blank image never is |
| ProductForm.SubmitCall | frontend/ecom/src/components/ProductForm.jsx:86-95 | PATCH of the edited product iff one is given, else a POST to the list, with the submit parts as the body |
| ProductForm.UnchangedEditResends | frontend/ecom/src/components/ProductForm.jsx:24-95 | submitting an unchanged edit PATCHes the product with its own values, the category as its id's text, and no image |
| ProductForm.Settle | frontend/ecom/src/components/ProductForm.jsx:97-106 | the data is handed on iff the save succeeded, with errors cleared; a failure shows the error body, or a general message when there is none |

## Left out

- Prices are integers in minor units. The backend's `float()` of the total (orders/views.py:59) is not modelled, and neither are rounding or the framework turning decimals into strings.
- AdminDashboard.LoadStats: the dashboard's revenue figure (Admin/Dashboard.jsx:12, 48-51, 63) is not modelled. It is a floating-point sum of `parseFloat` of each order's total, and the model has no floating point.
- OrderViews.Validate: the "Invalid price" branch (orders/views.py:61-62) is not modelled, because an integer price always converts.
- OrderViews.Checkout: the second "Cart has no items" check (orders/views.py:49-50) cannot be reached after the first one and is not modelled separately.
- RequestData.IntOf: Python's `int()` is modelled without surrounding whitespace, a leading `+` or `_` digit separators. A JSON number is an integer or a finite decimal fraction; exponent notation, NaN and Infinity (where `int()` raises) are not modelled. Only ASCII digits are read, while `int()` also accepts other Unicode decimal digits (`int("٣") == 3`), which the model refuses. A fraction is truncated exactly, while the framework's JSON parser first makes it a binary float: a long fraction such as 12345678901234567.9 rounds to 12345678901234568 before `int()` truncates it.
- MyProductsPage.ParseIntPrefix: JavaScript's `parseInt` is modelled without leading whitespace or a leading `+`.
- Order confirmation e-mails, the background task queue and invoice generation are outside the rule core: they are I/O.
- Timestamps are inputs: `created_at` is a given number and `updated_at` is not kept.
- The product view set's search and ordering filters are not modelled; they are a framework feature. The misspelt search field name is not modelled either.
- Concurrency is not modelled: the dashboard's parallel requests, and two requests renewing the token at once.
- Session.Mount: a stored user text that the login step cannot have written is modelled as no state. `JSON.parse` would throw on it, or accept other JSON.
- PageLoad: a page load is modelled as the first render's redirect followed by one more render. React's effect scheduling is not modelled beyond the order that gives this: a guard's `<Navigate>` effect runs before the provider's mount effect.
- Routes.FindRoute, Routes.Resolve: locations are given as lists of path segments. Splitting the pathname is not modelled, and neither is the router's case-insensitive matching: `["CART"]` shows the Cart page in the app but resolves home in the model.
- OrderViews.UpdateOrderStatus: the invalid-status message is a fixed text, not computed by joining the choices.
- ProductViews.PerformCreate: an anonymous create is modelled as a failed save, not as the exception it raises.
- Navbar.AccountControls: the avatar's initial (the upper-cased first letter of the username) is display only and is not modelled.
- The category lists the forms load, the image preview and file reading, and the exact texts of alerts are display only.
- Pages with no rules beyond fetching and showing are not modelled: Home, Register, product listing and details, category and order management, and the orders page.
- ProductPayload.ActionOf assumes the framework's default router mapping of URL and verb to action.
- UserSerializers.Validated: only the presence and string type of the three fields are modelled. The framework's own field checks are not: blank strings, a username already taken or failing the username validator, a malformed e-mail address, and number values coerced to text. These would refuse or change a body the model accepts as it is.
- MyProductsPage.MatchesSearch, MyProductsPage.Filtered: letter case is folded for ASCII letters only (`Text.Lower`); JavaScript's `toLowerCase` also folds other scripts, so a search term with non-ASCII capitals can match more products than the model shows. The same holds for AdminDashboard.IsPending.
- LoginPage.Normalise: `is_admin` values that are neither booleans, null nor undefined are not modelled.
- ManageProducts.EditForm: an `is_active` of null and an undefined one are treated the same, as absent.
- CheckoutPage.Body: the browser's `required` check on the address field is not modelled.
- Gateway.Send: a renewal reply with no body, where destructuring throws, is not modelled.
- ProductForm.Prefill: a product whose category is null is not modelled.
- The HTTP transport, browser storage, the window location, the confirmation dialog and alerts are inputs and outputs. Server replies and dialog answers are parameters.

## Findings

| source | as written | input that shows it | evidently intended | confidence | as-written member | corrected member |
|---|---|---|---|---|---|---|
| frontend/ecom/src/context/AuthContext.jsx:6-14 | the user state starts null and is restored in a mount effect, after the admin guard's `<Navigate to="/">` has already taken effect | an admin signs in; Login.jsx:47-48 loads /admin; the first render sees no user | the stored user is read before the first render, so the admin lands on the dashboard | not executed | PageLoad.AdminSignInEndsHomeAsWritten | PageLoad.AdminSignInLandsOnDashboard |
| frontend/ecom/src/App.jsx:33-36 | the private guard decides on the first render, before the stored user is restored | a signed-in user reloads /cart | the reload stays on /cart | not executed | PageLoad.SignedInReloadEndsOnLoginAsWritten | PageLoad.SignedInReloadStays |
| frontend/ecom/src/App.jsx:39-42 | the admin guard decides on the first render, before the stored user is restored | a signed-in admin reloads /admin/orders | the reload stays on /admin/orders | not executed | PageLoad.AdminReloadEndsHomeAsWritten | PageLoad.AdminReloadStaysForAdmins |

=== FILE: cart_page.dfy ===
/**
 * The cart page: how the fetched cart is read, the total and item count shown beside
 * it, and which quantity changes reach the server. Prices are integer minor units;
 * a line's price is `None` when the line has no product or the product no price.
 */
module CartPage {

  import opened Wrappers
  import opened RequestData
  import Store
  import OrderViews
  import CartViews

  /** One cart line as the page reads it. */
  datatype Line = Line(id: int, price: Option<int>, quantity: int)

  /** The shapes `res.data` can take. */
  datatype CartBody =
    | Missing                              // null or undefined
    | TextBody(text: string)               // a string, such as the empty text of an empty reply
    | ListBody(lines: seq<Line>)           // an array (which has no `items`)
    | ObjectBody(items: Option<seq<Line>>) // an object, with or without `items`

  /** What `res.data.items || res.data || []` gives the page. */
  datatype Normalised =
    | Throws             // reading `items` of null or undefined throws
    | Lines(lines: seq<Line>)
    | NotAList           // a value the later `reduce` cannot walk

  /**
   * `res.data.items || res.data || []`. Reading `items` of null or undefined throws; a
   * string has no `items`, so the empty text falls through to `[]` and any other text is
   * kept as it is. An array is truthy even when empty, so an object's `items` wins
   * whenever present.
   */
  function Normalise(body: CartBody): (r: Normalised)
    ensures r.Throws? <==> body.Missing?
    ensures body.TextBody? ==> (if body.text == "" then r == Lines([]) else r == NotAList)
    ensures body.ListBody? ==> r == Lines(body.lines)
    ensures body.ObjectBody? && body.items.Some? ==> r == Lines(body.items.value)
    ensures body.ObjectBody? && body.items.None? ==> r == NotAList
  {
    match body
    case Missing => Throws
    case TextBody(text) => if text == "" then Lines([]) else NotAList
    case ListBody(lines) => Lines(lines)
    case ObjectBody(items) =>
      match items
      case Some(lines) => Lines(lines)
      case None => NotAList
  }

  /**
   * `loadCart`: a failed request, or a body whose read throws, is caught and keeps the
   * list shown before; otherwise the normalised lines are shown. `None` when the page
   * is handed something that is not a list, on which its totals throw.
   */
  function Load(shown: seq<Line>, fetched: Option<CartBody>): (r: Option<seq<Line>>)
    ensures (fetched.None? || fetched.value.Missing?) ==> r == Some(shown)
    ensures fetched.Some? && Normalise(fetched.value).Lines? ==> r == Some(Normalise(fetched.value).lines)
    ensures r.None? <==> fetched.Some? && Normalise(fetched.value).NotAList?
  {
    match fetched
    case None => Some(shown)
    case Some(body) =>
      match Normalise(body)
      case Throws => Some(shown)
      case Lines(lines) => Some(lines)
      case NotAList => None
  }

  /** The line total shown beside each line: `(price || 0) * quantity`. */
  function LineTotal(l: Line): (t: int)
    ensures l.price.None? ==> t == 0
    ensures l.price.Some? ==> t == l.price.value * l.quantity
  {
    l.price.GetOr(0) * l.quantity
  }

  /** `cart.reduce((sum, item) => sum + lineTotal, acc)`: a left fold, as the page computes it. */
  function ReduceTotal(lines: seq<Line>, acc: int): int {
    if |lines| == 0 then acc else ReduceTotal(lines[1..], acc + LineTotal(lines[0]))
  }

  function ReduceCount(lines: seq<Line>, acc: int): int {
    if |lines| == 0 then acc else ReduceCount(lines[1..], acc + lines[0].quantity)
  }

  /** `total` and `itemCount`, both starting from 0. */
  function Total(lines: seq<Line>): int {
    ReduceTotal(lines, 0)
  }

  function ItemCount(lines: seq<Line>): int {
    ReduceCount(lines, 0)
  }

  /** The sum of the displayed line totals, last line first. */
  function SumOfLineTotals(lines: seq<Line>): int {
    if |lines| == 0 then 0 else SumOfLineTotals(lines[..|lines| - 1]) + LineTotal(lines[|lines| - 1])
  }

  function SumOfQuantities(lines: seq<Line>): int {
    if |lines| == 0 then 0 else SumOfQuantities(lines[..|lines| - 1]) + lines[|lines| - 1].quantity
  }

  lemma {:induction false} ReduceTotalFrom(lines: seq<Line>, acc: int)
    ensures ReduceTotal(lines, acc) == acc + SumOfLineTotals(lines)
    decreases |lines|
  {
    if |lines| > 0 {
      ReduceTotalFrom(lines[1..], acc + LineTotal(lines[0]));
      SumOfLineTotalsFront(lines);
    }
  }

  /** Peeling the first line off the back-to-front sum. */
  lemma {:induction false} SumOfLineTotalsFront(lines: seq<Line>)
    requires |lines| > 0
    ensures SumOfLineTotals(lines) == LineTotal(lines[0]) + SumOfLineTotals(lines[1..])
    decreases |lines|
  {
    if |lines| > 1 {
      var init := lines[..|lines| - 1];
      SumOfLineTotalsFront(init);
      assert init[1..] == lines[1..][..|lines[1..]| - 1];
      assert init[0] == lines[0];
    } else {
      assert lines[..0] == [];
      assert lines[1..] == [];
    }
  }

  lemma {:induction false} ReduceCountFrom(lines: seq<Line>, acc: int)
    ensures ReduceCount(lines, acc) == acc + SumOfQuantities(lines)
    decreases |lines|
  {
    if |lines| > 0 {
      ReduceCountFrom(lines[1..], acc + lines[0].quantity);
      SumOfQuantitiesFront(lines);
    }
  }

  lemma {:induction false} SumOfQuantitiesFront(lines: seq<Line>)
    requires |lines| > 0
    ensures SumOfQuantities(lines) == lines[0].quantity + SumOfQuantities(lines[1..])
    decreases |lines|
  {
    if |lines| > 1 {
      var init := lines[..|lines| - 1];
      SumOfQuantitiesFront(init);
      assert init[1..] == lines[1..][..|lines[1..]| - 1];
      assert init[0] == lines[0];
    } else {
      assert lines[..0] == [];
      assert lines[1..] == [];
    }
  }

  /** The summary's total is the sum of the line totals displayed above it; likewise the count. */
  lemma TotalIsSumOfLines(lines: seq<Line>)
    ensures Total(lines) == SumOfLineTotals(lines)
    ensures ItemCount(lines) == SumOfQuantities(lines)
  {
    ReduceTotalFrom(lines, 0);
    ReduceCountFrom(lines, 0);
  }

  /** Appending a line adds its line total and its quantity. */
  lemma AppendLine(lines: seq<Line>, l: Line)
    ensures Total(lines + [l]) == Total(lines) + LineTotal(l)
    ensures ItemCount(lines + [l]) == ItemCount(lines) + l.quantity
  {
    TotalIsSumOfLines(lines);
    TotalIsSumOfLines(lines + [l]);
    assert (lines + [l])[..|lines|] == lines;
  }

  /** With no negative prices or quantities, neither figure is negative. */
  lemma {:induction false} FiguresNonNegative(lines: seq<Line>)
    requires forall i :: 0 <= i < |lines| ==> lines[i].quantity >= 0 && lines[i].price.GetOr(0) >= 0
    ensures Total(lines) >= 0 && ItemCount(lines) >= 0
    decreases |lines|
  {
    TotalIsSumOfLines(lines);
    if |lines| > 0 {
      var init := lines[..|lines| - 1];
      FiguresNonNegative(init);
      TotalIsSumOfLines(init);
    }
  }

  /** `handleUpdateQuantity`: the PATCH (item id and `{quantity}`) it sends, if any. */
  function UpdateRequest(itemId: int, newQuantity: int): (r: Option<(int, int)>)
    ensures r.Some? <==> newQuantity >= 1
    ensures r.Some? ==> r.value == (itemId, newQuantity)
  {
    if newQuantity < 1 then None else Some((itemId, newQuantity))
  }

  /** The minus button of line `l`. */
  function Decrease(l: Line): (r: Option<(int, int)>)
    ensures r.Some? <==> l.quantity >= 2
    ensures r.Some? ==> r.value == (l.id, l.quantity - 1)
  {
    UpdateRequest(l.id, l.quantity - 1)
  }

  /** The plus button of line `l`. */
  function Increase(l: Line): (r: Option<(int, int)>)
    ensures r.Some? <==> l.quantity >= 0
    ensures r.Some? ==> r.value == (l.id, l.quantity + 1)
  {
    UpdateRequest(l.id, l.quantity + 1)
  }

  /** `handleRemove`: the DELETE goes out only when confirmed. */
  function RemoveRequest(confirmed: bool, itemId: int): (r: Option<int>)
    ensures r.Some? <==> confirmed
    ensures r.Some? ==> r.value == itemId
  {
    if confirmed then Some(itemId) else None
  }

  /** The minus button on a line of one sends nothing, so a quantity never drops below 1 this way. */
  lemma MinusStopsAtOne(l: Line)
    requires l.quantity == 1
    ensures Decrease(l).None?
  {
  }

  /**
   * Every quantity change the page sends is one the update endpoint accepts for an
   * item of the caller's cart: the item's quantity becomes the value sent.
   */
  lemma SentUpdateAccepted(db: Store.Db, user: int, itemId: int, newQuantity: int)
    requires UpdateRequest(itemId, newQuantity).Some?
    requires Store.IndexOfItem(Store.CartOf(db, user), itemId).Some?
    ensures var r := CartViews.UpdateCartItem(db, user, itemId, map["quantity" := Num(newQuantity)]);
            var k := Store.IndexOfItem(Store.CartOf(db, user), itemId).value;
            r.reply.Ok? && r.reply.value[k].quantity == newQuantity
  {
  }

  /** How the cart endpoint's items reach the page: the product's price, when the product exists. */
  function Serialise(items: seq<Store.CartItem>, products: map<int, Store.Product>): (r: seq<Line>)
    ensures |r| == |items|
    ensures forall i :: 0 <= i < |r| ==> r[i].id == items[i].id && r[i].quantity == items[i].quantity
    ensures forall i :: 0 <= i < |r| && items[i].product in products ==> r[i].price == Some(products[items[i].product].price)
  {
    if |items| == 0 then []
    else
      var item := items[0];
      var price := if item.product in products then Some(products[item.product].price) else None;
      [Line(item.id, price, item.quantity)] + Serialise(items[1..], products)
  }

  lemma {:induction false} SerialisedSum(items: seq<Store.CartItem>, products: map<int, Store.Product>)
    requires OrderViews.AllPriced(items, products)
    ensures SumOfLineTotals(Serialise(items, products)) == OrderViews.CartAmount(items, products)
    decreases |items|
  {
    if |items| > 0 {
      SerialisedSum(items[1..], products);
      var lines := Serialise(items, products);
      SumOfLineTotalsFront(lines);
      assert lines[1..] == Serialise(items[1..], products);
    }
  }

  /**
   * Across both sides: for a cart the checkout accepts, the total the page shows is the
   * total the order is created with.
   */
  lemma PageTotalIsOrderTotal(items: seq<Store.CartItem>, products: map<int, Store.Product>)
    requires OrderViews.Validate(items, products).Valid?
    ensures Total(Serialise(items, products)) == OrderViews.Validate(items, products).total
  {
    TotalIsSumOfLines(Serialise(items, products));
    SerialisedSum(items, products);
  }

  /**
   * Across both sides: the cart endpoint's answer, serialised as `{items: [...]}`, is
   * what the page shows, whatever it showed before, and its total is the one checkout
   * will charge when the cart is valid.
   */
  lemma ServerCartShown(db: Store.Db, user: int, shown: seq<Line>)
    ensures var lines := Serialise(CartViews.GetCart(db, user).reply.value, db.products);
            Load(shown, Some(ObjectBody(Some(lines)))) == Some(lines)
    ensures var items := CartViews.GetCart(db, user).reply.value;
            OrderViews.Validate(items, db.products).Valid? ==>
              Total(Serialise(items, db.products)) == OrderViews.Validate(items, db.products).total
  {
    var items := CartViews.GetCart(db, user).reply.value;
    if OrderViews.Validate(items, db.products).Valid? {
      PageTotalIsOrderTotal(items, db.products);
    }
  }
}

=== FILE: cart_views.dfy ===
/**
 * The cart endpoints: read the caller's cart, add a product, set an item's quantity,
 * remove an item. Each is a function of the database and the request, returning the
 * reply and the new database. The caller is always signed in (the views require it).
 */
module CartViews {

  import opened Wrappers
  import opened RequestData
  import opened Store

  datatype Outcome<T> = Outcome(reply: Reply<T>, db: Db)

  /** The database with `user`'s cart set to `items`, everything else as in `db`. */
  function WithCart(db: Db, user: int, items: seq<CartItem>): (r: Db)
    ensures r.carts.Keys == db.carts.Keys + {user} && r.carts[user] == items
    ensures forall u :: u in db.carts && u != user ==> r.carts[u] == db.carts[u]
    ensures r.products == db.products && r.orders == db.orders && r.nextId == db.nextId
  {
    db.(carts := db.carts[user := items])
  }

  /** GET: the caller's cart, created empty when there is none yet. */
  function GetCart(db: Db, user: int): (r: Outcome<seq<CartItem>>)
    ensures r.reply == Ok(200, CartOf(db, user))
    ensures user in r.db.carts && r.db.carts[user] == CartOf(db, user)
    ensures r.db.carts.Keys == db.carts.Keys + {user}
    ensures forall u :: u in db.carts ==> r.db.carts[u] == db.carts[u]
    ensures r.db.products == db.products && r.db.orders == db.orders && r.db.nextId == db.nextId
  {
    Outcome(Ok(200, CartOf(db, user)), WithCart(db, user, CartOf(db, user)))
  }

  /**
   * `get_or_create` of the item for `product`, then the quantity increase: the item for
   * the product gets `quantity` more, or a new item `newId` is appended with `quantity`.
   */
  function Merge(items: seq<CartItem>, product: int, quantity: int, newId: int): (r: seq<CartItem>)
    ensures QuantityOf(r, product) == QuantityOf(items, product) + quantity
    ensures forall p :: p != product ==> QuantityOf(r, p) == QuantityOf(items, p)
    ensures IndexOfProduct(items, product).Some? ==> |r| == |items|
    ensures IndexOfProduct(items, product).None? ==> r == items + [CartItem(newId, product, quantity)]
    ensures OnePerProduct(items) ==> OnePerProduct(r)
  {
    match IndexOfProduct(items, product)
    case Some(k) =>
      var r := items[k := items[k].(quantity := items[k].quantity + quantity)];
      QuantityOfBump(items, k, quantity);
      r
    case None =>
      var r := items + [CartItem(newId, product, quantity)];
      forall p ensures QuantityOf(r, p) == QuantityOf(items, p) + (if p == product then quantity else 0) {
        QuantityOfConcat(items, [CartItem(newId, product, quantity)], p);
        assert QuantityOf([CartItem(newId, product, quantity)], p)
          == (if p == product then quantity else 0) + QuantityOf([], p);
      }
      r
  }

  /** Raising one item's quantity raises only its product's quantity, by the same amount. */
  lemma QuantityOfBump(items: seq<CartItem>, k: nat, extra: int)
    requires k < |items|
    ensures var r := items[k := items[k].(quantity := items[k].quantity + extra)];
            forall p :: QuantityOf(r, p) == QuantityOf(items, p) + (if p == items[k].product then extra else 0)
  {
    var r := items[k := items[k].(quantity := items[k].quantity + extra)];
    forall p ensures QuantityOf(r, p) == QuantityOf(items, p) + (if p == items[k].product then extra else 0) {
      assert items == items[..k] + [items[k]] + items[k + 1..];
      assert r == items[..k] + [r[k]] + items[k + 1..];
      QuantityOfConcat(items[..k] + [items[k]], items[k + 1..], p);
      QuantityOfConcat(items[..k], [items[k]], p);
      QuantityOfConcat(items[..k] + [r[k]], items[k + 1..], p);
      QuantityOfConcat(items[..k], [r[k]], p);
      assert QuantityOf([items[k]], p) == (if items[k].product == p then items[k].quantity else 0) + QuantityOf([], p);
      assert QuantityOf([r[k]], p) == (if r[k].product == p then r[k].quantity else 0) + QuantityOf([], p);
    }
  }

  /** More than one item of `items` refers to `product` (`get_or_create` then raises). */
  predicate Duplicated(items: seq<CartItem>, product: int) {
    match IndexOfProduct(items, product)
    case None => false
    case Some(k) => IndexOfProduct(items[k + 1..], product).Some?
  }

  lemma NotDuplicated(items: seq<CartItem>, product: int)
    requires OnePerProduct(items)
    ensures !Duplicated(items, product)
  {
    match IndexOfProduct(items, product)
    case None =>
    case Some(k) =>
  }

  /**
   * POST add. `quantity` (default 1) is converted before anything else is checked, and
   * is not checked further; `product_id` must be truthy and name an existing product.
   */
  function AddToCart(db: Db, user: int, data: Data): (r: Outcome<seq<CartItem>>)
    ensures IntOf(FieldOr(data, "quantity", Num(1))).None? ==> r == Outcome(Raised, db)
    ensures (IntOf(FieldOr(data, "quantity", Num(1))).Some? && !Truthy(Field(data, "product_id")))
              ==> r == Outcome(Refused(400, "product_id is required"), db)
    ensures r.reply.Refused? && r.reply.status == 404 ==> r.reply.error == "Product not found" && r.db == db
    ensures (IntOf(FieldOr(data, "quantity", Num(1))).Some? && Truthy(Field(data, "product_id"))
             && (IntOf(Field(data, "product_id")).None? || IntOf(Field(data, "product_id")).value !in db.products))
              ==> r == Outcome(Refused(404, "Product not found"), db)
    ensures (IntOf(FieldOr(data, "quantity", Num(1))).Some? && Truthy(Field(data, "product_id"))
             && IntOf(Field(data, "product_id")).Some? && IntOf(Field(data, "product_id")).value in db.products)
              ==> (if Duplicated(CartOf(db, user), IntOf(Field(data, "product_id")).value) then r == Outcome(Raised, db)
                   else r.reply.Ok?)
    ensures r.reply.Ok? ==>
              && r.reply.status == 201
              && IntOf(FieldOr(data, "quantity", Num(1))).Some?
              && IntOf(Field(data, "product_id")).Some?
              && IntOf(Field(data, "product_id")).value in db.products
              && r.db == WithCart(db, user, r.reply.value).(nextId := r.db.nextId)
              && (var product := IntOf(Field(data, "product_id")).value;
                  var q := IntOf(FieldOr(data, "quantity", Num(1))).value;
                  && QuantityOf(r.reply.value, product) == QuantityOf(CartOf(db, user), product) + q
                  && (forall p :: p != product ==> QuantityOf(r.reply.value, p) == QuantityOf(CartOf(db, user), p)))
    ensures OnePerProduct(CartOf(db, user)) ==> OnePerProduct(CartOf(r.db, user))
  {
    var quantity := IntOf(FieldOr(data, "quantity", Num(1)));
    var productId := Field(data, "product_id");
    if quantity.None? then Outcome(Raised, db)
    else if !Truthy(productId) then Outcome(Refused(400, "product_id is required"), db)
    else
      match IntOf(productId)
      case None => Outcome(Refused(404, "Product not found"), db)
      case Some(product) =>
        if product !in db.products then Outcome(Refused(404, "Product not found"), db)
        else
          var items := CartOf(db, user);
          if Duplicated(items, product) then
            Outcome(Raised, db)
          else
            var merged := Merge(items, product, quantity.value, db.nextId);
            var next := if IndexOfProduct(items, product).Some? then db.nextId else db.nextId + 1;
            Outcome(Ok(201, merged), WithCart(db, user, merged).(nextId := next))
  }

  /**
   * PATCH an item: only an item of the caller's own cart is found; a null or missing
   * quantity, or one below 1, is refused; a quantity `int()` cannot read raises.
   */
  function UpdateCartItem(db: Db, user: int, itemId: int, data: Data): (r: Outcome<seq<CartItem>>)
    ensures IndexOfItem(CartOf(db, user), itemId).None? ==> r == Outcome(Refused(404, "Item not found"), db)
    ensures (IndexOfItem(CartOf(db, user), itemId).Some? && Field(data, "quantity").Null?)
              ==> r == Outcome(Refused(400, "Invalid quantity"), db)
    ensures (IndexOfItem(CartOf(db, user), itemId).Some? && !Field(data, "quantity").Null?
             && IntOf(Field(data, "quantity")).None?) ==> r == Outcome(Raised, db)
    ensures (IndexOfItem(CartOf(db, user), itemId).Some? && !Field(data, "quantity").Null?
             && IntOf(Field(data, "quantity")).Some?)
              ==> (if IntOf(Field(data, "quantity")).value < 1 then r == Outcome(Refused(400, "Invalid quantity"), db)
                   else r.reply.Ok? && r.reply.status == 200)
    ensures !r.reply.Ok? ==> r.db == db
    ensures r.reply.Ok? ==>
              && IndexOfItem(CartOf(db, user), itemId).Some?
              && IntOf(Field(data, "quantity")).Some? && IntOf(Field(data, "quantity")).value >= 1
              && r.db == WithCart(db, user, r.reply.value)
              && (var items := CartOf(db, user);
                  var k := IndexOfItem(items, itemId).value;
                  && |r.reply.value| == |items|
                  && r.reply.value[k] == items[k].(quantity := IntOf(Field(data, "quantity")).value)
                  && (forall j :: 0 <= j < |items| && j != k ==> r.reply.value[j] == items[j]))
  {
    var items := CartOf(db, user);
    match IndexOfItem(items, itemId)
    case None => Outcome(Refused(404, "Item not found"), db)
    case Some(k) =>
      var quantity := Field(data, "quantity");
      if quantity.Null? then Outcome(Refused(400, "Invalid quantity"), db)
      else
        match IntOf(quantity)
        case None => Outcome(Raised, db)
        case Some(n) =>
          if n < 1 then Outcome(Refused(400, "Invalid quantity"), db)
          else
            var updated := items[k := items[k].(quantity := n)];
            Outcome(Ok(200, updated), WithCart(db, user, updated))
  }

  /** DELETE an item of the caller's cart; the reply is the remaining cart. */
  function RemoveCartItem(db: Db, user: int, itemId: int): (r: Outcome<seq<CartItem>>)
    ensures IndexOfItem(CartOf(db, user), itemId).None? <==> r == Outcome(Refused(404, "Item not found"), db)
    ensures IndexOfItem(CartOf(db, user), itemId).Some? <==> r.reply.Ok?
    ensures r.reply.Ok? ==>
              && r.reply.status == 200
              && r.db == WithCart(db, user, r.reply.value)
              && (var items := CartOf(db, user);
                  var k := IndexOfItem(items, itemId).value;
                  && r.reply.value == items[..k] + items[k + 1..]
                  && multiset(r.reply.value) + multiset{items[k]} == multiset(items))
    ensures r.reply.Ok? || r.reply.Refused?
  {
    var items := CartOf(db, user);
    match IndexOfItem(items, itemId)
    case None => Outcome(Refused(404, "Item not found"), db)
    case Some(k) =>
      var remaining := items[..k] + items[k + 1..];
      assert items == items[..k] + [items[k]] + items[k + 1..];
      Outcome(Ok(200, remaining), WithCart(db, user, remaining))
  }

  /** Removing an item keeps every other item of the cart, in order, and no other cart changes. */
  lemma RemoveKeepsOthers(db: Db, user: int, itemId: int)
    requires IndexOfItem(CartOf(db, user), itemId).Some?
    ensures var r := RemoveCartItem(db, user, itemId);
            var items := CartOf(db, user);
            && |r.reply.value| == |items| - 1
            && (forall j :: 0 <= j < |items| && items[j].id != itemId ==> items[j] in r.reply.value)
            && (forall u :: u in db.carts && u != user ==> r.db.carts[u] == db.carts[u])
  {
    var items := CartOf(db, user);
    var k := IndexOfItem(items, itemId).value;
    var rest := items[..k] + items[k + 1..];
    forall j | 0 <= j < |items| && items[j].id != itemId
      ensures items[j] in rest
    {
      if j < k {
        assert rest[j] == items[j];
      } else {
        assert j != k;
        assert rest[j - 1] == items[j];
      }
    }
  }

  /** An item id outside the caller's cart is never touched, even if it is in another cart. */
  lemma ForeignItemsUntouched(db: Db, user: int, itemId: int, data: Data)
    requires forall j :: 0 <= j < |CartOf(db, user)| ==> CartOf(db, user)[j].id != itemId
    ensures UpdateCartItem(db, user, itemId, data) == Outcome(Refused(404, "Item not found"), db)
    ensures RemoveCartItem(db, user, itemId) == Outcome(Refused(404, "Item not found"), db)
  {
  }

  /** Every cart endpoint keeps each cart at one item per product. */
  predicate AllOnePerProduct(db: Db) {
    forall u :: u in db.carts ==> OnePerProduct(db.carts[u])
  }

  lemma GetKeepsOnePerProduct(db: Db, user: int)
    requires AllOnePerProduct(db)
    ensures AllOnePerProduct(GetCart(db, user).db)
  {
  }

  lemma AddKeepsOnePerProduct(db: Db, user: int, data: Data)
    requires AllOnePerProduct(db)
    ensures AllOnePerProduct(AddToCart(db, user, data).db)
  {
    assert OnePerProduct(CartOf(db, user));
  }

  /**
   * In carts kept at one item per product, adding `quantity` of an existing product
   * always succeeds with 201, and the cart then holds exactly `quantity` more of it.
   */
  lemma AddToKnownProductSucceeds(db: Db, user: int, product: int, quantity: int)
    requires AllOnePerProduct(db) && product in db.products && product != 0
    ensures var r := AddToCart(db, user, map["product_id" := Num(product), "quantity" := Num(quantity)]);
            && r.reply.Ok? && r.reply.status == 201
            && QuantityOf(CartOf(r.db, user), product) == QuantityOf(CartOf(db, user), product) + quantity
            && AllOnePerProduct(r.db)
  {
    var data := map["product_id" := Num(product), "quantity" := Num(quantity)];
    assert OnePerProduct(CartOf(db, user));
    NotDuplicated(CartOf(db, user), product);
    AddKeepsOnePerProduct(db, user, data);
  }

  lemma UpdateKeepsOnePerProduct(db: Db, user: int, itemId: int, data: Data)
    requires AllOnePerProduct(db)
    ensures AllOnePerProduct(UpdateCartItem(db, user, itemId, data).db)
  {
    var up := UpdateCartItem(db, user, itemId, data);
    if up.reply.Ok? {
      var items := CartOf(db, user);
      assert OnePerProduct(items);
      assert forall j :: 0 <= j < |items| ==> up.reply.value[j].product == items[j].product;
      assert OnePerProduct(up.reply.value);
    }
  }

  lemma RemoveKeepsOnePerProduct(db: Db, user: int, itemId: int)
    requires AllOnePerProduct(db)
    ensures AllOnePerProduct(RemoveCartItem(db, user, itemId).db)
  {
    var rm := RemoveCartItem(db, user, itemId);
    if rm.reply.Ok? {
      var items := CartOf(db, user);
      assert OnePerProduct(items);
      var k := IndexOfItem(items, itemId).value;
      forall i, j | 0 <= i < j < |rm.reply.value|
        ensures rm.reply.value[i].product != rm.reply.value[j].product
      {
        var i' := if i < k then i else i + 1;
        var j' := if j < k then j else j + 1;
        assert rm.reply.value[i] == items[i'] && rm.reply.value[j] == items[j'];
      }
    }
  }
}

=== FILE: checkout_page.dfy ===
/**
 * The checkout page: its form, what it shows for the loaded cart, the request body it
 * sends, and the alert and navigation that follow. The cart figures are the cart
 * page's; the request's outcome is an input.
 */
module CheckoutPage {

  import opened Wrappers
  import opened RequestData
  import opened CartPage
  import OrderModels
  import OrderViews
  import Store

  datatype Form = Form(shippingAddress: string, paymentMethod: string)

  /** The option values of the payment select, in order. */
  const PaymentOptions: seq<string> := ["COD", "MOCK"]

  /** The form starts with an empty address and cash on delivery. */
  function InitialForm(): (f: Form)
    ensures f.shippingAddress == "" && f.paymentMethod == PaymentOptions[0]
  {
    Form("", "COD")
  }

  /** Typing in the address box replaces the address and keeps the method. */
  function EditAddress(f: Form, text: string): (r: Form)
    ensures r.shippingAddress == text && r.paymentMethod == f.paymentMethod
  {
    f.(shippingAddress := text)
  }

  /** Picking option `i` of the select: the method becomes that option's value. */
  function SelectPayment(f: Form, i: nat): (r: Form)
    requires i < |PaymentOptions|
    ensures r.paymentMethod == PaymentOptions[i] && r.shippingAddress == f.shippingAddress
  {
    f.(paymentMethod := PaymentOptions[i])
  }

  predicate MethodOffered(f: Form) {
    f.paymentMethod in PaymentOptions
  }

  /** The method starts offered and every edit keeps it one of the two options. */
  lemma MethodAlwaysOffered(f: Form, text: string, i: nat)
    requires MethodOffered(f) && i < |PaymentOptions|
    ensures MethodOffered(InitialForm())
    ensures MethodOffered(EditAddress(f, text)) && MethodOffered(SelectPayment(f, i))
  {
  }

  /** What the page shows. */
  datatype Screen = Spinner | EmptyCart | CheckoutForm(total: int, itemCount: int)

  /** The cart loaded, the page offers the form only for a non-empty cart. */
  function ScreenFor(loading: bool, cart: seq<Line>): (s: Screen)
    ensures loading <==> s == Spinner
    ensures !loading && |cart| == 0 <==> s == EmptyCart
    ensures s.CheckoutForm? ==> |cart| > 0 && s.total == Total(cart) && s.itemCount == ItemCount(cart)
  {
    if loading then Spinner
    else if |cart| == 0 then EmptyCart
    else CheckoutForm(Total(cart), ItemCount(cart))
  }

  /** The checkout request body: the two form fields and nothing about the cart. */
  function Body(f: Form): (d: Data)
    ensures d.Keys == {"shipping_address", "payment_method"}
    ensures d["shipping_address"] == Str(f.shippingAddress) && d["payment_method"] == Str(f.paymentMethod)
  {
    map["shipping_address" := Str(f.shippingAddress), "payment_method" := Str(f.paymentMethod)]
  }

  /** The body carries both form fields unchanged: two forms that send the same body are the same form. */
  lemma BodyDeterminesForm(f: Form, g: Form)
    requires Body(f) == Body(g)
    ensures f == g
  {
    assert Body(f)["shipping_address"] == Body(g)["shipping_address"];
    assert Body(f)["payment_method"] == Body(g)["payment_method"];
  }

  /** A body this page builds always names a method the checkout endpoint accepts. */
  lemma BodyMethodAccepted(f: Form)
    requires MethodOffered(f)
    ensures OrderModels.ParsePaymentMethod(Field(Body(f), "payment_method")).Some?
  {
  }

  /** A rejected request: `response.data.error`, `response.data.detail`, and the error's message. */
  datatype Failure = Failure(error: Option<string>, detail: Option<string>, message: Option<string>)

  const DefaultFailure: string := "Failed to place order"

  /** A JavaScript `||` chain step: a missing or empty text falls through. */
  function OrElse(v: Option<string>, fallback: string): (r: string)
    ensures v.Some? && v.value != "" ==> r == v.value
    ensures !(v.Some? && v.value != "") ==> r == fallback
  {
    if v.Some? && v.value != "" then v.value else fallback
  }

  /** The message shown for a failure: the first of error, detail, message that is non-empty. */
  function FailureText(e: Failure): (t: string)
    ensures t != ""
    ensures e.error.Some? && e.error.value != "" ==> t == e.error.value
    ensures !(e.error.Some? && e.error.value != "") && e.detail.Some? && e.detail.value != "" ==> t == e.detail.value
    ensures t == DefaultFailure || Some(t) in {e.error, e.detail, e.message}
    ensures !(e.error.Some? && e.error.value != "") && !(e.detail.Some? && e.detail.value != "") && e.message.Some? && e.message.value != "" ==>
              t == e.message.value
    ensures !(e.error.Some? && e.error.value != "") && !(e.detail.Some? && e.detail.value != "") && !(e.message.Some? && e.message.value != "") ==>
              t == DefaultFailure
  {
    OrElse(e.error, OrElse(e.detail, OrElse(e.message, DefaultFailure)))
  }

  datatype Placed = Placed(alert: string, navigate: Option<string>, submitting: bool)

  const SuccessAlert: string := "✅ Order placed successfully!"

  /** `handleSubmit` once the request settles: `None` is success. */
  function Settle(failure: Option<Failure>): (p: Placed)
    ensures !p.submitting
    ensures p.navigate.Some? <==> failure.None?
    ensures failure.None? ==> p == Placed(SuccessAlert, Some("/orders"), false)
    ensures failure.Some? ==> p.alert == "❌ " + FailureText(failure.value)
  {
    match failure
    case None => Placed(SuccessAlert, Some("/orders"), false)
    case Some(e) => Placed("❌ " + FailureText(e), None, false)
  }

  /**
   * Across both sides: when checkout refuses the page's request, the page alerts the
   * server's own `error` text (every refusal has a non-empty one) and stays put.
   */
  lemma RefusalShownVerbatim(db: Store.Db, user: int, f: Form, faults: OrderViews.Faults, now: int, axiosMessage: Option<string>)
    requires OrderViews.Checkout(db, user, Body(f), faults, now).reply.Refused?
    ensures var m := OrderViews.Checkout(db, user, Body(f), faults, now).reply.error;
            Settle(Some(Failure(Some(m), None, axiosMessage))) == Placed("❌ " + m, None, false)
  {
    OrderViews.RefusalsCarryMessage(db, user, Body(f), faults, now);
  }
}

=== FILE: client_data.dfy ===
/**
 * The shapes a list endpoint's `response.data` takes as the client sees it, and the two
 * ways the pages turn it into an array.
 */
module ClientData {

  import opened Wrappers

  /** `response.data` for a list endpoint. */
  datatype Body<T> =
    | Nothing                       // null or undefined
    | Array(items: seq<T>)          // an unpaginated list
    | Paged(results: Option<seq<T>>) // an object; `results` is `None` unless it is an array
    | Scalar                        // any other value (text, a number)

  /** `data.results || data || []`, then kept only when `Array.isArray` (the product pages). */
  function ResultsOrData<T>(d: Body<T>): (r: seq<T>)
    ensures d.Array? ==> r == d.items
    ensures d.Paged? && d.results.Some? ==> r == d.results.value
    ensures d.Nothing? || d.Scalar? || (d.Paged? && d.results.None?) ==> r == []
  {
    match d
    case Nothing => []
    case Array(items) => items
    case Paged(results) => (match results case Some(xs) => xs case None => [])
    case Scalar => []
  }

  /**
   * `isArray(data.results) ? data.results : isArray(data) ? data : []` (the dashboard).
   * Reading `results` of a null body throws: `None`.
   */
  function ArrayOf<T>(d: Body<T>): (r: Option<seq<T>>)
    ensures r.None? <==> d.Nothing?
    ensures d.Paged? && d.results.Some? ==> r == Some(d.results.value)
    ensures d.Array? ==> r == Some(d.items)
    ensures d.Scalar? || (d.Paged? && d.results.None?) ==> r == Some([])
  {
    match d
    case Nothing => None
    case Array(items) => Some(items)
    case Paged(results) => Some(results.GetOr([]))
    case Scalar => Some([])
  }

  /**
   * Both normalisations give the same list for every body; where the dashboard's throws,
   * the product page's catch block shows the same empty list.
   */
  lemma NormalisationsAgree<T>(d: Body<T>)
    ensures ResultsOrData(d) == ArrayOf(d).GetOr([])
  {
  }
}

=== FILE: dashboard.dfy ===
/**
 * The admin dashboard's figures: three lists fetched together, counted, and the
 * pending orders among them. The three replies are inputs (`None` for a failed request).
 */
module AdminDashboard {

  import opened Wrappers
  import opened ClientData
  import Seqs
  import Text
  import OrderModels

  /** An order as the dashboard reads it: only its status, which may be null or missing. */
  datatype ListedOrder = ListedOrder(status: Option<string>)

  datatype Stats = Stats(totalProducts: nat, totalOrders: nat, totalCategories: nat, pendingOrders: nat)

  const ZeroStats := Stats(0, 0, 0, 0)

  /** `(o.status || "").toLowerCase()` is "pending" or "processing". */
  predicate IsPending(o: ListedOrder) {
    var status := Text.Lower(o.status.GetOr(""));
    status == "pending" || status == "processing"
  }

  /** The orders counted as pending, in order. */
  function PendingOrders(orders: seq<ListedOrder>): (r: seq<ListedOrder>)
    ensures |r| <= |orders|
    ensures forall i :: 0 <= i < |r| ==> IsPending(r[i]) && r[i] in orders
    ensures forall i :: 0 <= i < |orders| && IsPending(orders[i]) ==> orders[i] in r
    ensures forall o :: multiset(r)[o] == (if IsPending(o) then multiset(orders)[o] else 0)
  {
    Seqs.Filter(orders, IsPending)
  }

  /** A missing status is never pending. */
  lemma MissingStatusNeverPending()
    ensures !IsPending(ListedOrder(None))
    ensures !IsPending(ListedOrder(Some("")))
  {
    assert |Text.Lower("")| == 0;
  }

  /**
   * `loadStats`. A failed request, or a null body (reading its `results` throws), resets
   * every figure to zero; otherwise each total is its list's length.
   */
  function LoadStats<P, C>(products: Option<Body<P>>, orders: Option<Body<ListedOrder>>, categories: Option<Body<C>>): (s: Stats)
    ensures s.pendingOrders <= s.totalOrders
    ensures (products.None? || orders.None? || categories.None?) ==> s == ZeroStats
    ensures (products.Some? && orders.Some? && categories.Some?) ==>
              var (ps, os, cs) := (ArrayOf(products.value), ArrayOf(orders.value), ArrayOf(categories.value));
              if ps.None? || os.None? || cs.None? then s == ZeroStats
              else s == Stats(|ps.value|, |os.value|, |cs.value|, |PendingOrders(os.value)|)
  {
    if products.None? || orders.None? || categories.None? then ZeroStats
    else
      match (ArrayOf(products.value), ArrayOf(orders.value), ArrayOf(categories.value))
      case (Some(ps), Some(os), Some(cs)) => Stats(|ps|, |os|, |cs|, |PendingOrders(os)|)
      case _ => ZeroStats
  }

  /** The status text as the order endpoint serialises it. */
  function Serialised(s: OrderModels.OrderStatus): ListedOrder {
    ListedOrder(Some(OrderModels.StatusCode(s)))
  }

  lemma LowerPendingCode()
    ensures Text.Lower("PENDING") == "pending"
  {
    var low := Text.Lower("PENDING");
    assert forall i :: 0 <= i < 7 ==> low[i] == "pending"[i];
  }

  lemma LowerShippedCode()
    ensures Text.Lower("SHIPPED")[0] == 's'
  {
  }

  /** Among the backend's codes only PENDING is counted ("processing" never occurs). */
  lemma PendingMeansBackendPending(s: OrderModels.OrderStatus)
    ensures IsPending(Serialised(s)) <==> s == OrderModels.Pending
  {
    match s
    case Pending => LowerPendingCode();
    case Shipped => LowerShippedCode();
    case _ =>
      assert |Text.Lower(OrderModels.StatusCode(s))| == |OrderModels.StatusCode(s)|;
  }

  function SerialisedAll(ss: seq<OrderModels.OrderStatus>): (r: seq<ListedOrder>)
    ensures |r| == |ss| && forall i :: 0 <= i < |ss| ==> r[i] == Serialised(ss[i])
  {
    if |ss| == 0 then [] else [Serialised(ss[0])] + SerialisedAll(ss[1..])
  }

  /** For orders the backend lists, the pending figure counts exactly the PENDING orders. */
  lemma {:induction false} PendingCountOfBackend(ss: seq<OrderModels.OrderStatus>)
    ensures |PendingOrders(SerialisedAll(ss))| == |Seqs.Filter(ss, (s: OrderModels.OrderStatus) => s == OrderModels.Pending)|
  {
    if |ss| > 0 {
      PendingCountOfBackend(ss[1..]);
      PendingMeansBackendPending(ss[0]);
      var os := SerialisedAll(ss);
      assert os[1..] == SerialisedAll(ss[1..]);
    }
  }
}

=== FILE: decimal.dfy ===
/**
 * Decimal text of integers, as JavaScript's `String(n)` / template literals and
 * Python's f-strings render them: an optional `-`, then digits with no leading zero.
 * Used for ids in request paths, in error messages and in the stored user's JSON.
 */
module Decimal {

  import opened Wrappers

  predicate IsDigit(c: char) {
    '0' <= c <= '9'
  }

  function DigitChar(d: nat): (c: char)
    requires d < 10
    ensures IsDigit(c)
  {
    ['0', '1', '2', '3', '4', '5', '6', '7', '8', '9'][d]
  }

  function DigitValue(c: char): (d: nat)
    requires IsDigit(c)
    ensures d < 10
  {
    c as int - '0' as int
  }

  lemma DigitRoundTrip(d: nat)
    requires d < 10
    ensures DigitValue(DigitChar(d)) == d
  {
  }

  predicate AllDigits(s: string) {
    forall i :: 0 <= i < |s| ==> IsDigit(s[i])
  }

  /** Decimal digits of a natural number, most significant first. */
  function NatText(n: nat): (s: string)
    ensures |s| > 0 && AllDigits(s)
    decreases n
  {
    if n < 10 then [DigitChar(n)] else NatText(n / 10) + [DigitChar(n % 10)]
  }

  /** The decimal text of any integer: `-` in front of negative values. */
  function IntText(i: int): string {
    if i < 0 then "-" + NatText(-i) else NatText(i)
  }

  /** The number a run of digits denotes (last digit least significant). */
  function DigitsValue(s: string): nat
    requires AllDigits(s)
  {
    if |s| == 0 then 0 else DigitsValue(s[..|s| - 1]) * 10 + DigitValue(s[|s| - 1])
  }

  /** The longest prefix of `t` made of digits. */
  function TakeDigits(t: string): (ds: string)
    ensures ds <= t && AllDigits(ds)
  {
    if |t| > 0 && IsDigit(t[0]) then [t[0]] + TakeDigits(t[1..]) else []
  }

  /** Reads a run of digits at the front of `t`; `None` when `t` does not start with a digit. */
  function ReadNat(t: string): Option<(nat, string)> {
    var ds := TakeDigits(t);
    if |ds| == 0 then None else Some((DigitsValue(ds), t[|ds|..]))
  }

  /** Reads an optionally negative decimal integer at the front of `t`. */
  function ReadInt(t: string): Option<(int, string)> {
    if |t| > 0 && t[0] == '-' then
      match ReadNat(t[1..])
      case None => None
      case Some((n, rest)) => Some((0 - n, rest))
    else
      match ReadNat(t)
      case None => None
      case Some((n, rest)) => Some((n as int, rest))
  }

  /** Text that cannot extend a number: empty, or starting with something other than a digit. */
  predicate StopsNumber(rest: string) {
    |rest| == 0 || !IsDigit(rest[0])
  }

  lemma {:induction false} NatTextValue(n: nat)
    ensures DigitsValue(NatText(n)) == n
    decreases n
  {
    DigitRoundTrip(n % 10);
    if n >= 10 {
      var s := NatText(n);
      assert s[..|s| - 1] == NatText(n / 10);
      NatTextValue(n / 10);
    }
  }

  lemma {:induction false} TakeDigitsOfRun(ds: string, rest: string)
    requires AllDigits(ds) && StopsNumber(rest)
    ensures TakeDigits(ds + rest) == ds
  {
    if |ds| == 0 {
      assert ds + rest == rest;
    } else {
      assert (ds + rest)[0] == ds[0];
      assert (ds + rest)[1..] == ds[1..] + rest;
      TakeDigitsOfRun(ds[1..], rest);
    }
  }

  lemma NatTextRoundTrip(n: nat, rest: string)
    requires StopsNumber(rest)
    ensures ReadNat(NatText(n) + rest) == Some((n, rest))
  {
    TakeDigitsOfRun(NatText(n), rest);
    NatTextValue(n);
    assert (NatText(n) + rest)[|NatText(n)|..] == rest;
  }

  /** Reading back the text of an integer yields the integer and leaves the rest untouched. */
  lemma IntTextRoundTrip(i: int, rest: string)
    requires StopsNumber(rest)
    ensures ReadInt(IntText(i) + rest) == Some((i, rest))
  {
    if i < 0 {
      NegativeRoundTrip(i, rest);
    } else {
      NonNegativeRoundTrip(i, rest);
    }
  }

  lemma NegativeRoundTrip(i: int, rest: string)
    requires i < 0 && StopsNumber(rest)
    ensures ReadInt(IntText(i) + rest) == Some((i, rest))
  {
    var n: nat := -i;
    var t := IntText(i) + rest;
    assert IntText(i) == "-" + NatText(n);
    assert t == "-" + (NatText(n) + rest);
    assert t[0] == '-' && t[1..] == NatText(n) + rest;
    NatTextRoundTrip(n, rest);
  }

  lemma NonNegativeRoundTrip(i: int, rest: string)
    requires i >= 0 && StopsNumber(rest)
    ensures ReadInt(IntText(i) + rest) == Some((i, rest))
  {
    var t := IntText(i) + rest;
    assert IntText(i) == NatText(i);
    assert t[0] == NatText(i)[0] && IsDigit(t[0]);
    NatTextRoundTrip(i, rest);
  }

  /** Different integers have different texts, so a path or message built from an id determines the id. */
  lemma IntTextInjective(i: int, j: int)
    requires IntText(i) == IntText(j)
    ensures i == j
  {
    IntTextRoundTrip(i, "");
    IntTextRoundTrip(j, "");
    assert IntText(i) + "" == IntText(i);
    assert IntText(j) + "" == IntText(j);
  }
}

=== FILE: gateway.dfy ===
/**
 * The request gateway (the shared HTTP client): a request interceptor that attaches
 * the stored access token, and a response interceptor that answers a first 401 by
 * renewing the access token once and re-sending the request through the gateway.
 *
 * The backend is two function parameters: `answer` gives the reply to a dispatched
 * request, `renew` the reply of the token-refresh endpoint to a refresh token.
 */
module Gateway {

  import opened Wrappers
  import opened Session

  const AuthorizationHeader: string := "Authorization"

  datatype Request = Request(verb: string, url: string, headers: map<string, string>, body: string, retry: bool)

  datatype Response = Response(status: int, data: string)

  /** An axios error: `status` is absent when no response arrived (transport failure). */
  datatype HttpError = HttpError(status: Option<int>, message: string)

  datatype Reply = Answered(response: Response) | Failed(error: HttpError)

  /** The refresh endpoint's reply; `access` is absent when the body carries no `access` field. */
  datatype RenewReply = Renewed(access: Option<string>) | RenewFailed(error: HttpError)

  /** A call the gateway makes on the network, in order. */
  datatype Call = Dispatch(request: Request) | Refresh(token: string)

  datatype Outcome = Resolved(response: Response) | Rejected(error: HttpError)

  /** Everything one `send` leaves behind. */
  datatype Exchange = Exchange(storage: Storage, navigate: Option<string>, outcome: Outcome, calls: seq<Call>)

  function BearerValue(token: string): string {
    "Bearer " + token
  }

  /** The request interceptor. */
  function AttachBearer(st: Storage, req: Request): (r: Request)
    ensures HasValue(st, AccessKey) ==> r == req.(headers := req.headers[AuthorizationHeader := BearerValue(st[AccessKey])])
    ensures !HasValue(st, AccessKey) ==> r == req
  {
    if HasValue(st, AccessKey) then
      req.(headers := req.headers[AuthorizationHeader := BearerValue(st[AccessKey])])
    else req
  }

  function Refreshes(calls: seq<Call>): nat {
    if |calls| == 0 then 0 else (if calls[0].Refresh? then 1 else 0) + Refreshes(calls[1..])
  }

  function Dispatches(calls: seq<Call>): nat {
    if |calls| == 0 then 0 else (if calls[0].Dispatch? then 1 else 0) + Dispatches(calls[1..])
  }

  lemma {:induction false} CountsOfConcat(a: seq<Call>, b: seq<Call>)
    ensures Refreshes(a + b) == Refreshes(a) + Refreshes(b)
    ensures Dispatches(a + b) == Dispatches(a) + Dispatches(b)
  {
    if |a| > 0 {
      assert (a + b)[1..] == a[1..] + b;
      CountsOfConcat(a[1..], b);
    } else {
      assert a + b == b;
    }
  }

  /** A first 401 on a request not yet marked `_retry` is the only error the gateway handles. */
  predicate Renewable(e: HttpError, sent: Request) {
    e.status == Some(401) && !sent.retry
  }

  /**
   * One request through both interceptors. A renewed request is sent through the
   * gateway again, marked `_retry`, so it can be renewed at most once.
   */
  function Send(answer: Request -> Reply, renew: string -> RenewReply, st: Storage, req: Request): (x: Exchange)
    ensures |x.calls| > 0 && x.calls[0] == Dispatch(AttachBearer(st, req))
    ensures Refreshes(x.calls) <= (if req.retry then 0 else 1)
    ensures Dispatches(x.calls) <= (if req.retry then 1 else 2)
    ensures req.retry ==> x.storage == st && x.navigate.None?
    ensures x.navigate.Some? ==> x.navigate == Some(LoginPath) && x.outcome.Rejected?
    decreases if req.retry then 0 else 1
  {
    var sent := AttachBearer(st, req);
    var first := [Dispatch(sent)];
    match answer(sent)
    case Answered(resp) => Exchange(st, None, Resolved(resp), first)
    case Failed(e) =>
      if Renewable(e, sent) && HasValue(st, RefreshKey) then
        var token := st[RefreshKey];
        var marked := sent.(retry := true);
        match renew(token)
        case RenewFailed(re) =>
          CountsOfConcat(first, [Refresh(token)]);
          Exchange(ClearSession(st), Some(LoginPath), Rejected(re), first + [Refresh(token)])
        case Renewed(access) =>
          var renewed := StoredText(access);
          var again := Send(answer, renew, st[AccessKey := renewed],
                            marked.(headers := marked.headers[AuthorizationHeader := BearerValue(renewed)]));
          CountsOfConcat(first + [Refresh(token)], again.calls);
          again.(calls := first + [Refresh(token)] + again.calls)
      else
        Exchange(st, None, Rejected(e), first)
  }

  /** The request the gateway re-sends after renewing to `access`: marked `_retry`, new bearer header. */
  function Retried(sent: Request, access: string): Request {
    sent.(retry := true, headers := sent.headers[AuthorizationHeader := BearerValue(access)])
  }

  function AsOutcome(reply: Reply): Outcome {
    match reply
    case Answered(resp) => Resolved(resp)
    case Failed(e) => Rejected(e)
  }

  /** A successful response is returned unchanged; nothing is renewed or stored. */
  lemma SuccessPassesThrough(answer: Request -> Reply, renew: string -> RenewReply, st: Storage, req: Request)
    requires answer(AttachBearer(st, req)).Answered?
    ensures Send(answer, renew, st, req)
      == Exchange(st, None, Resolved(answer(AttachBearer(st, req)).response), [Dispatch(AttachBearer(st, req))])
  {
  }

  /**
   * Any error other than a first 401, and a first 401 with no stored refresh token,
   * is rejected with the original error: one dispatch, no refresh, storage untouched.
   */
  lemma UnhandledErrorRejected(answer: Request -> Reply, renew: string -> RenewReply, st: Storage, req: Request)
    requires answer(AttachBearer(st, req)).Failed?
    requires !Renewable(answer(AttachBearer(st, req)).error, AttachBearer(st, req)) || !HasValue(st, RefreshKey)
    ensures Send(answer, renew, st, req)
      == Exchange(st, None, Rejected(answer(AttachBearer(st, req)).error), [Dispatch(AttachBearer(st, req))])
  {
  }

  /**
   * A first 401 with a refresh token that renews: the new access token is stored (refresh
   * token and user untouched), and the request is re-sent once, marked `_retry`, with the
   * new bearer header; the caller receives that second reply, whatever it is.
   */
  lemma RenewalRetriesOnce(answer: Request -> Reply, renew: string -> RenewReply, st: Storage, req: Request)
    requires answer(AttachBearer(st, req)).Failed?
    requires Renewable(answer(AttachBearer(st, req)).error, AttachBearer(st, req)) && HasValue(st, RefreshKey)
    requires renew(st[RefreshKey]).Renewed?
    ensures var sent := AttachBearer(st, req);
            var access := StoredText(renew(st[RefreshKey]).access);
            var x := Send(answer, renew, st, req);
            && x.storage == st[AccessKey := access]
            && x.navigate.None?
            && x.calls == [Dispatch(sent), Refresh(st[RefreshKey]), Dispatch(Retried(sent, access))]
            && x.outcome == AsOutcome(answer(Retried(sent, access)))
  {
    var sent := AttachBearer(st, req);
    var access := StoredText(renew(st[RefreshKey]).access);
    var st2 := st[AccessKey := access];
    var retried := Retried(sent, access);
    assert AttachBearer(st2, retried) == retried by {
      if HasValue(st2, AccessKey) {
        assert retried.headers[AuthorizationHeader := BearerValue(access)] == retried.headers;
      }
    }
  }

  /**
   * A first 401 whose renewal fails: all three session keys are removed, the page goes
   * to the sign-in view, and the caller receives the renewal's error.
   */
  lemma RenewalFailureSignsOut(answer: Request -> Reply, renew: string -> RenewReply, st: Storage, req: Request)
    requires answer(AttachBearer(st, req)).Failed?
    requires Renewable(answer(AttachBearer(st, req)).error, AttachBearer(st, req)) && HasValue(st, RefreshKey)
    requires renew(st[RefreshKey]).RenewFailed?
    ensures Send(answer, renew, st, req)
      == Exchange(ClearSession(st), Some(LoginPath), Rejected(renew(st[RefreshKey]).error),
                  [Dispatch(AttachBearer(st, req)), Refresh(st[RefreshKey])])
  {
  }

  /** The gateway never leaves the session partly stored: it only replaces the access token or clears all. */
  lemma SendKeepsSessionWhole(answer: Request -> Reply, renew: string -> RenewReply, st: Storage, req: Request)
    requires Whole(st)
    ensures Whole(Send(answer, renew, st, req).storage)
  {
    var sent := AttachBearer(st, req);
    if answer(sent).Failed? && Renewable(answer(sent).error, sent) && HasValue(st, RefreshKey)
       && renew(st[RefreshKey]).Renewed? {
      RenewalRetriesOnce(answer, renew, st, req);
    }
  }

  /** The backend of the worked scenario: only the bearer "A2" is accepted. */
  function ScenarioServer(r: Request): Reply {
    if AuthorizationHeader in r.headers && r.headers[AuthorizationHeader] == "Bearer A2"
    then Answered(Response(200, "[]")) else Failed(HttpError(Some(401), "Unauthorized"))
  }

  /** The refresh endpoint of the worked scenario: "R1" renews to "A2". */
  function ScenarioRenew(t: string): RenewReply {
    if t == "R1" then Renewed(Some("A2")) else RenewFailed(HttpError(Some(401), "Token is invalid"))
  }

  /**
   * The worked scenario: a user (alice, say) signs in with tokens A1/R1, a call fails
   * with 401, the refresh with R1 returns A2, and the call is retried once carrying A2.
   */
  lemma AliceScenario(a: Auth, alice: JsonIdentity.Identity)
    ensures var st := Login(a, alice, "A1", "R1").storage;
            var req := Request("GET", "orders/", map[], "", false);
            var x := Send(ScenarioServer, ScenarioRenew, st, req);
            && x.storage[AccessKey] == "A2"
            && x.storage[RefreshKey] == "R1"
            && x.outcome == Resolved(Response(200, "[]"))
            && x.calls == [Dispatch(req.(headers := map[AuthorizationHeader := "Bearer A1"])),
                           Refresh("R1"),
                           Dispatch(req.(retry := true, headers := map[AuthorizationHeader := "Bearer A2"]))]
  {
    var st := Login(a, alice, "A1", "R1").storage;
    var req := Request("GET", "orders/", map[], "", false);
    var sent := AttachBearer(st, req);
    assert HasValue(st, AccessKey) && st[AccessKey] == "A1";
    assert BearerValue("A1") == "Bearer A1" && BearerValue("A2") == "Bearer A2";
    assert map[][AuthorizationHeader := "Bearer A1"] == map[AuthorizationHeader := "Bearer A1"];
    assert sent == req.(headers := map[AuthorizationHeader := "Bearer A1"]);
    assert ScenarioServer(sent) == Failed(HttpError(Some(401), "Unauthorized"));
    assert HasValue(st, RefreshKey) && st[RefreshKey] == "R1";
    RenewalRetriesOnce(ScenarioServer, ScenarioRenew, st, req);
    assert Retried(sent, "A2") == req.(retry := true, headers := map[AuthorizationHeader := "Bearer A2"]);
  }
}

=== FILE: json_identity.dfy ===
/**
 * The text the client keeps under the storage key "user": `JSON.stringify` of the
 * identity object `{id, username, email, is_admin}` that the login page builds,
 * and the inverse `JSON.parse` applied when the page is loaded again.
 *
 * Only the text `JSON.stringify` produces for such an object is decoded; any other
 * stored text is reported as not recognised (see the README for what that covers).
 */
module JsonIdentity {

  import opened Wrappers
  import Decimal

  /** The signed-in user as the client keeps it. */
  datatype Identity = Identity(id: int, username: string, email: string, isAdmin: bool)

  // ---------------------------------------------------------------------------
  // String literals: JSON.stringify's QuoteJSONString, and the reading side.
  // ---------------------------------------------------------------------------

  predicate IsHex(c: char) {
    '0' <= c <= '9' || 'a' <= c <= 'f'
  }

  function HexChar(d: nat): (c: char)
    requires d < 16
    ensures IsHex(c)
  {
    "0123456789abcdef"[d]
  }

  function HexValue(c: char): (d: nat)
    requires IsHex(c)
    ensures d < 16
  {
    if c <= '9' then c as int - '0' as int else c as int - 'a' as int + 10
  }

  lemma HexRoundTrip(d: nat)
    requires d < 16
    ensures HexValue(HexChar(d)) == d
  {
  }

  /** The named short escapes of JSON: backspace, form feed, newline, carriage return, tab. */
  function ShortEscape(c: char): Option<char> {
    if c == 8 as char then Some('b')
    else if c == 12 as char then Some('f')
    else if c == '\n' then Some('n')
    else if c == '\r' then Some('r')
    else if c == '\t' then Some('t')
    else None
  }

  /** How `JSON.stringify` writes one character inside a string literal. */
  function EscapeChar(c: char): (e: string)
    ensures |e| > 0 && e[0] != '"'
  {
    if c == '"' then "\\\""
    else if c == '\\' then "\\\\"
    else if ShortEscape(c).Some? then ['\\', ShortEscape(c).value]
    else if c < ' ' then "\\u00" + [HexChar(c as int / 16), HexChar(c as int % 16)]
    else [c]
  }

  function Escape(s: string): string {
    if |s| == 0 then "" else EscapeChar(s[0]) + Escape(s[1..])
  }

  /** Inverse of `ShortEscape`: the character a letter after a backslash stands for. */
  function ShortUnescape(c: char): Option<char> {
    if c == 'b' then Some(8 as char)
    else if c == 'f' then Some(12 as char)
    else if c == 'n' then Some('\n')
    else if c == 'r' then Some('\r')
    else if c == 't' then Some('\t')
    else None
  }

  /** Reads one character of a string literal body (not the closing quote). */
  function ReadChar(t: string): (r: Option<(char, string)>)
    ensures r.Some? ==> |r.value.1| < |t| && r.value.1 == t[|t| - |r.value.1|..]
  {
    if |t| == 0 || t[0] == '"' then None
    else if t[0] == '\\' then
      if |t| < 2 then None
      else if t[1] == '"' || t[1] == '\\' || t[1] == '/' then Some((t[1], t[2..]))
      else if ShortUnescape(t[1]).Some? then Some((ShortUnescape(t[1]).value, t[2..]))
      else if |t| >= 6 && t[1] == 'u' && t[2] == '0' && t[3] == '0' && IsHex(t[4]) && IsHex(t[5]) then
        Some(((HexValue(t[4]) * 16 + HexValue(t[5])) as char, t[6..]))
      else None
    else if t[0] < ' ' then None
    else Some((t[0], t[1..]))
  }

  /** Reads a string literal body up to and including its closing quote. */
  function ReadString(t: string): Option<(string, string)>
    decreases |t|
  {
    if |t| > 0 && t[0] == '"' then Some(("", t[1..]))
    else
      match ReadChar(t)
      case None => None
      case Some((c, rest)) =>
        match ReadString(rest)
        case None => None
        case Some((s, after)) => Some(([c] + s, after))
  }

  lemma ReadEscapedChar(c: char, more: string)
    ensures ReadChar(EscapeChar(c) + more) == Some((c, more))
  {
    var t := EscapeChar(c) + more;
    if c == '"' || c == '\\' {
      assert t[2..] == more;
    } else if ShortEscape(c).Some? {
      assert t[2..] == more;
    } else if c < ' ' {
      var v := c as int;
      HexRoundTrip(v / 16);
      HexRoundTrip(v % 16);
      assert t[6..] == more;
      assert t[1] == 'u';
      assert (HexValue(t[4]) * 16 + HexValue(t[5])) as char == c;
    } else {
      assert t[1..] == more;
    }
  }

  lemma {:induction false} ReadEscaped(s: string, rest: string)
    ensures ReadString(Escape(s) + ("\"" + rest)) == Some((s, rest))
    decreases |s|
  {
    var t := Escape(s) + ("\"" + rest);
    if |s| == 0 {
      assert t == "\"" + rest;
      assert t[1..] == rest;
    } else {
      var more := Escape(s[1..]) + ("\"" + rest);
      assert t == EscapeChar(s[0]) + more;
      ReadEscapedChar(s[0], more);
      ReadEscaped(s[1..], rest);
      assert [s[0]] + s[1..] == s;
    }
  }

  // ---------------------------------------------------------------------------
  // The identity object.
  // ---------------------------------------------------------------------------

  function BoolText(b: bool): string {
    if b then "true" else "false"
  }

  const IdKey: string := "{\"id\":"
  const UsernameKey: string := ",\"username\":\""
  const EmailKey: string := ",\"email\":\""
  const AdminKey: string := ",\"is_admin\":"

  function AdminTail(u: Identity): string {
    AdminKey + (BoolText(u.isAdmin) + "}")
  }

  function EmailTail(u: Identity): string {
    EmailKey + (Escape(u.email) + ("\"" + AdminTail(u)))
  }

  function UsernameTail(u: Identity): string {
    UsernameKey + (Escape(u.username) + ("\"" + EmailTail(u)))
  }

  /** `JSON.stringify(userData)`: keys in the order the login page writes them. */
  function Encode(u: Identity): string {
    IdKey + (Decimal.IntText(u.id) + UsernameTail(u))
  }

  /** Strips a literal prefix. */
  function Expect(lit: string, t: string): (r: Option<string>)
    ensures r.Some? ==> t == lit + r.value
  {
    if lit <= t then Some(t[|lit|..]) else None
  }

  lemma ExpectLiteral(lit: string, rest: string)
    ensures Expect(lit, lit + rest) == Some(rest)
  {
    assert lit <= lit + rest;
    assert (lit + rest)[|lit|..] == rest;
  }

  /** Reads the fields back in the order `Encode` writes them. */
  function Parse(t: string): Option<Identity> {
    match Expect(IdKey, t)
    case None => None
    case Some(t1) =>
      match Decimal.ReadInt(t1)
      case None => None
      case Some((id, t2)) => ParseUsername(id, t2)
  }

  function ParseUsername(id: int, t: string): Option<Identity> {
    match Expect(UsernameKey, t)
    case None => None
    case Some(t1) =>
      match ReadString(t1)
      case None => None
      case Some((username, t2)) => ParseEmail(id, username, t2)
  }

  function ParseEmail(id: int, username: string, t: string): Option<Identity> {
    match Expect(EmailKey, t)
    case None => None
    case Some(t1) =>
      match ReadString(t1)
      case None => None
      case Some((email, t2)) => ParseAdmin(id, username, email, t2)
  }

  function ParseAdmin(id: int, username: string, email: string, t: string): Option<Identity> {
    match Expect(AdminKey, t)
    case None => None
    case Some(t1) =>
      if t1 == "true}" then Some(Identity(id, username, email, true))
      else if t1 == "false}" then Some(Identity(id, username, email, false))
      else None
  }

  /**
   * `JSON.parse` of stored text, for the texts `Encode` produces: the decoded identity
   * is the one whose encoding is exactly the stored text.
   */
  function Decode(t: string): (r: Option<Identity>)
    ensures r.Some? ==> Encode(r.value) == t
  {
    match Parse(t)
    case None => None
    case Some(u) => if Encode(u) == t then Some(u) else None
  }

  lemma ParseAdminEncoded(u: Identity)
    ensures ParseAdmin(u.id, u.username, u.email, AdminTail(u)) == Some(u)
  {
    ExpectLiteral(AdminKey, BoolText(u.isAdmin) + "}");
  }

  lemma ParseEmailEncoded(u: Identity)
    ensures ParseEmail(u.id, u.username, EmailTail(u)) == Some(u)
  {
    ExpectLiteral(EmailKey, Escape(u.email) + ("\"" + AdminTail(u)));
    ReadEscaped(u.email, AdminTail(u));
    ParseAdminEncoded(u);
  }

  lemma ParseUsernameEncoded(u: Identity)
    ensures ParseUsername(u.id, UsernameTail(u)) == Some(u)
  {
    ExpectLiteral(UsernameKey, Escape(u.username) + ("\"" + EmailTail(u)));
    ReadEscaped(u.username, EmailTail(u));
    ParseEmailEncoded(u);
  }

  lemma ParseEncoded(u: Identity)
    ensures Parse(Encode(u)) == Some(u)
  {
    ExpectLiteral(IdKey, Decimal.IntText(u.id) + UsernameTail(u));
    assert UsernameTail(u)[0] == ',';
    Decimal.IntTextRoundTrip(u.id, UsernameTail(u));
    ParseUsernameEncoded(u);
  }

  /** A reload restores exactly the identity that was stored. */
  lemma DecodeEncode(u: Identity)
    ensures Decode(Encode(u)) == Some(u)
  {
    ParseEncoded(u);
  }

  /** Decoding recognises precisely the encodings: both directions. */
  lemma DecodeIffEncode(t: string, u: Identity)
    ensures Decode(t) == Some(u) <==> Encode(u) == t
  {
    if Encode(u) == t {
      DecodeEncode(u);
    }
  }

  /** Two identities never share a stored text. */
  lemma EncodeInjective(u: Identity, v: Identity)
    requires Encode(u) == Encode(v)
    ensures u == v
  {
    DecodeEncode(u);
    DecodeEncode(v);
  }
}

=== FILE: login_page.dfy ===
/**
 * The sign-in page's submit handler: the sign-in reply is normalised to the four
 * identity fields, handed to the session store, and the browser is sent to the admin
 * dashboard or the home page. `Submit` reads an awaited reply (`LoginReply`);
 * `SubmitVia` sends the sign-in request through the gateway first.
 */
module LoginPage {

  import opened Wrappers
  import opened JsonIdentity
  import opened Session
  import UserSerializers
  import Store
  import Gateway

  /** The `user` object of a sign-in reply; `isAdmin` is `None` when null or undefined. */
  datatype ReplyUser = ReplyUser(id: int, username: string, email: string, isAdmin: Option<bool>)

  /** `res.data`: `user`, `access` and `refresh` may each be missing. */
  datatype LoginBody = LoginBody(user: Option<ReplyUser>, access: Option<string>, refresh: Option<string>)

  /** The awaited `loginUser(form)`: a body, or a thrown request error. */
  datatype LoginReply = Replied(body: LoginBody) | Threw

  const FailureMessage: string := "Invalid username or password. Please try again."

  /** What one submit leaves behind: the session, the shown error and where the page goes. */
  datatype Submitted = Submitted(auth: Auth, error: string, navigate: Option<string>, loading: bool)

  /** The identity kept for the session: the four fields, with `is_admin ?? false`. */
  function Normalise(u: ReplyUser): (id: Identity)
    ensures id.id == u.id && id.username == u.username && id.email == u.email
    ensures id.isAdmin <==> u.isAdmin == Some(true)
  {
    Identity(u.id, u.username, u.email, u.isAdmin.GetOr(false))
  }

  /** The page a signed-in identity is sent to. */
  function LandingPath(id: Identity): (p: string)
    ensures p == "/admin" <==> id.isAdmin
    ensures !id.isAdmin ==> p == "/"
  {
    if id.isAdmin then "/admin" else "/"
  }

  /**
   * `handleSubmit`. The error is cleared first; a thrown request or a body without a
   * `user` ends with the generic message, the session untouched and no navigation.
   */
  function Submit(a: Auth, reply: LoginReply): (s: Submitted)
    ensures !s.loading
    ensures s.error == "" <==> s.navigate.Some?
    ensures s.error != "" ==> s.error == FailureMessage && s.auth == a
    ensures s.navigate.Some? <==> reply.Replied? && reply.body.user.Some?
    ensures s.navigate.Some? ==>
              var id := Normalise(reply.body.user.value);
              && s.auth == Login(a, id, StoredText(reply.body.access), StoredText(reply.body.refresh))
              && s.navigate == Some(LandingPath(id))
  {
    match reply
    case Threw => Submitted(a, FailureMessage, None, false)
    case Replied(body) =>
      match body.user
      case None => Submitted(a, FailureMessage, None, false)
      case Some(u) =>
        var id := Normalise(u);
        Submitted(Login(a, id, StoredText(body.access), StoredText(body.refresh)), "", Some(LandingPath(id)), false)
  }

  /** A successful submit followed by the page load it triggers restores the normalised identity. */
  lemma SubmitThenReload(a: Auth, reply: LoginReply)
    requires Submit(a, reply).navigate.Some?
    ensures var s := Submit(a, reply);
            && Mount(s.auth.storage) == Some(s.auth)
            && s.auth.user == Some(Normalise(reply.body.user.value))
            && s.auth.storage[AccessKey] == StoredText(reply.body.access)
  {
    var u := Normalise(reply.body.user.value);
    LoginThenReload(a, u, StoredText(reply.body.access), StoredText(reply.body.refresh));
  }

  /** The body the sign-in endpoint returns, as the page receives it. */
  function Received(r: UserSerializers.SignIn): (b: LoginBody)
    ensures b.user.Some? && b.access == Some(r.access) && b.refresh == Some(r.refresh)
  {
    LoginBody(Some(ReplyUser(r.user.id, r.user.username, r.user.email, Some(r.user.isAdmin))),
              Some(r.access), Some(r.refresh))
  }

  /**
   * Across both sides: accepted credentials store the account's four identity fields
   * and the issued token pair, and send an admin account to "/admin". Where that page
   * load ends is stated in `PageLoad`.
   */
  lemma SignInEndToEnd(a: Auth, account: Store.User, refresh: string, access: string)
    ensures var r := UserSerializers.Validate(Some(account), refresh, access);
            var s := Submit(a, Replied(Received(r.value)));
            && s.auth.user == Some(Identity(account.id, account.username, account.email, account.isAdmin))
            && s.auth.storage[AccessKey] == access && s.auth.storage[RefreshKey] == refresh
            && s.navigate == Some(if account.isAdmin then "/admin" else "/")
  {
  }

  /**
   * `handleSubmit` with `loginUser` sent through the gateway, which treats a 401 on the
   * sign-in request like any other: with a refresh token stored it renews and re-sends
   * once, or clears the session and sends the browser to the sign-in page. `bodyOf`
   * reads a response's `data`.
   */
  function SubmitVia(answer: Gateway.Request -> Gateway.Reply, renew: string -> Gateway.RenewReply,
                     bodyOf: Gateway.Response -> LoginBody, a: Auth, post: Gateway.Request): (s: Submitted)
    ensures var x := Gateway.Send(answer, renew, a.storage, post);
            x.outcome.Resolved? ==> s == Submit(Auth(a.user, x.storage), Replied(bodyOf(x.outcome.response)))
    ensures var x := Gateway.Send(answer, renew, a.storage, post);
            x.outcome.Rejected? ==> s == Submitted(Auth(a.user, x.storage), FailureMessage, x.navigate, false)
  {
    var x := Gateway.Send(answer, renew, a.storage, post);
    match x.outcome
    case Resolved(resp) => Submit(Auth(a.user, x.storage), Replied(bodyOf(resp)))
    case Rejected(_) => Submitted(Auth(a.user, x.storage), FailureMessage, x.navigate, false)
  }

  /** A sign-in the server answers is read by the page exactly as `Submit` reads it. */
  lemma SignInThroughGateway(answer: Gateway.Request -> Gateway.Reply, renew: string -> Gateway.RenewReply,
                             bodyOf: Gateway.Response -> LoginBody, a: Auth, post: Gateway.Request)
    requires answer(Gateway.AttachBearer(a.storage, post)).Answered?
    ensures SubmitVia(answer, renew, bodyOf, a, post)
              == Submit(a, Replied(bodyOf(answer(Gateway.AttachBearer(a.storage, post)).response)))
  {
    Gateway.SuccessPassesThrough(answer, renew, a.storage, post);
  }

  /**
   * Refused credentials, when the gateway does not renew (no refresh token stored, or
   * an error other than a first 401), leave the session as it was and show the generic
   * message; so does a thrown request or a body without `user`.
   */
  lemma RefusedSignIn(answer: Gateway.Request -> Gateway.Reply, renew: string -> Gateway.RenewReply,
                      bodyOf: Gateway.Response -> LoginBody, a: Auth, post: Gateway.Request)
    requires answer(Gateway.AttachBearer(a.storage, post)).Failed?
    requires !HasValue(a.storage, RefreshKey)
             || !Gateway.Renewable(answer(Gateway.AttachBearer(a.storage, post)).error, Gateway.AttachBearer(a.storage, post))
    ensures SubmitVia(answer, renew, bodyOf, a, post) == Submitted(a, FailureMessage, None, false)
    ensures Submit(a, Threw) == Submitted(a, FailureMessage, None, false)
    ensures Submit(a, Replied(LoginBody(None, None, None))).auth == a
  {
    Gateway.UnhandledErrorRejected(answer, renew, a.storage, post);
  }

  /**
   * A refused sign-in with a refresh token stored that renews: the new access token is
   * stored, the sign-in is re-sent once, and when it is refused again the generic
   * message is shown with everything else of the session kept.
   */
  lemma RefusedSignInRenews(answer: Gateway.Request -> Gateway.Reply, renew: string -> Gateway.RenewReply,
                            bodyOf: Gateway.Response -> LoginBody, a: Auth, post: Gateway.Request)
    requires var sent := Gateway.AttachBearer(a.storage, post);
             answer(sent).Failed? && Gateway.Renewable(answer(sent).error, sent) && HasValue(a.storage, RefreshKey)
    requires renew(a.storage[RefreshKey]).Renewed?
    requires var access := StoredText(renew(a.storage[RefreshKey]).access);
             answer(Gateway.Retried(Gateway.AttachBearer(a.storage, post), access)).Failed?
    ensures var s := SubmitVia(answer, renew, bodyOf, a, post);
            && s.auth == Auth(a.user, a.storage[AccessKey := StoredText(renew(a.storage[RefreshKey]).access)])
            && s.error == FailureMessage && s.navigate.None?
  {
    Gateway.RenewalRetriesOnce(answer, renew, a.storage, post);
  }

  /**
   * A refused sign-in with a refresh token stored whose renewal fails: all three session
   * keys are removed and the browser is sent to the sign-in page.
   */
  lemma RefusedSignInSignsOut(answer: Gateway.Request -> Gateway.Reply, renew: string -> Gateway.RenewReply,
                              bodyOf: Gateway.Response -> LoginBody, a: Auth, post: Gateway.Request)
    requires var sent := Gateway.AttachBearer(a.storage, post);
             answer(sent).Failed? && Gateway.Renewable(answer(sent).error, sent) && HasValue(a.storage, RefreshKey)
    requires renew(a.storage[RefreshKey]).RenewFailed?
    ensures var s := SubmitVia(answer, renew, bodyOf, a, post);
            && s.auth == Auth(a.user, ClearSession(a.storage))
            && s.error == FailureMessage && s.navigate == Some(LoginPath)
  {
    Gateway.RenewalFailureSignsOut(answer, renew, a.storage, post);
  }
}

=== FILE: manage_products.dfy ===
/**
 * The admin product manager: filling the form from a product, the request a save
 * sends, the state after a save, the active toggle and the guarded delete.
 */
module ManageProducts {

  import opened Wrappers
  import opened ProductPayload
  import Decimal

  /** The nested `category` of a listed product, as the page may receive it. */
  datatype CategoryRef = CategoryObject(id: int) | CategoryId(n: int) | NoCategory

  /** A listed product; `price` is the serialised price text, `isActive` `None` when undefined. */
  datatype Listed = Listed(id: int, title: string, description: string, price: string,
                           image: Option<string>, category: CategoryRef, isActive: Option<bool>)

  /** The form; `image` is the listed image's URL, a chosen file, or null. */
  datatype Form = Form(title: string, description: string, price: string, image: FieldValue,
                       category: FieldValue, isActive: bool)

  const EmptyForm := Form("", "", "", NullValue, Text(""), true)

  /** `product.category?.id || product.category || ""`. */
  function CategoryField(c: CategoryRef): (v: FieldValue)
    ensures c.CategoryObject? && c.id != 0 ==> v == Number(c.id)
    ensures c.CategoryObject? && c.id == 0 ==> v == ObjectValue
    ensures c.CategoryId? && c.n != 0 ==> v == Number(c.n)
    ensures (c.CategoryId? && c.n == 0) || c.NoCategory? ==> v == Text("")
  {
    match c
    case CategoryObject(id) => if id != 0 then Number(id) else ObjectValue
    case CategoryId(n) => if n != 0 then Number(n) else Text("")
    case NoCategory => Text("")
  }

  /** `handleEdit`: the form takes the product's fields; `is_active` defaults to true. */
  function EditForm(p: Listed): (f: Form)
    ensures f.title == p.title && f.description == p.description && f.price == p.price
    ensures f.category == CategoryField(p.category)
    ensures f.isActive == p.isActive.GetOr(true)
    ensures p.image.Some? ==> f.image == Text(p.image.value)
    ensures p.image.None? ==> f.image == NullValue
  {
    Form(p.title, p.description, p.price, match p.image case Some(url) => Text(url) case None => NullValue,
         CategoryField(p.category), p.isActive.GetOr(true))
  }

  /** Choosing a file in the image input. */
  function ChooseImage(f: Form, fileName: string): (r: Form)
    ensures r.image == FileValue(fileName)
    ensures r.title == f.title && r.description == f.description && r.price == f.price
    ensures r.category == f.category && r.isActive == f.isActive
  {
    f.(image := FileValue(fileName))
  }

  /** The multipart parts of a save: the five fields, then the image only when it is a file. */
  function SaveParts(f: Form): (parts: seq<Part>)
    ensures |parts| >= 5 && Names(parts)[..5] == AlwaysSent
    ensures |parts| == 6 <==> f.image.FileValue?
    ensures |parts| == 5 <==> !f.image.FileValue?
    ensures parts[0].value == TextPart(f.title) && parts[1].value == TextPart(f.description)
    ensures parts[2].value == TextPart(f.price) && parts[3] == Append("category_id", f.category)
    ensures parts[4].value == TextPart(if f.isActive then "true" else "false")
    ensures f.image.FileValue? ==> parts[5] == Part("image", FilePart(f.image.fileName))
  {
    var always := [Append("title", Text(f.title)), Append("description", Text(f.description)),
                   Append("price", Text(f.price)), Append("category_id", f.category),
                   Append("is_active", Flag(f.isActive))];
    assert Names(always) == AlwaysSent;
    var parts := if f.image.FileValue? then always + [Append("image", f.image)] else always;
    assert Names(parts)[..5] == Names(always);
    parts
  }

  /** The page's editing state. */
  datatype Editor = Editor(form: Form, editing: Option<int>, showForm: bool)

  /** `handleEdit` for product `p`. */
  function StartEdit(p: Listed): (e: Editor)
    ensures e.showForm && e.editing == Some(p.id)
    ensures e.form.title == p.title && e.form.price == p.price && e.form.isActive == p.isActive.GetOr(true)
    ensures !e.form.image.FileValue? && e.form.category == CategoryField(p.category)
  {
    Editor(EditForm(p), Some(p.id), true)
  }

  /** The call `handleSubmit` makes. */
  function SubmitCall(e: Editor): (c: ApiCall)
    ensures c.body == Multipart(SaveParts(e.form))
    ensures e.editing.Some? <==> c.verb == "PATCH"
    ensures e.editing.Some? ==> c.url == DetailUrl(e.editing.value)
    ensures e.editing.None? ==> c.verb == "POST" && c.url == ListUrl
  {
    SaveCall(e.editing, SaveParts(e.form))
  }

  /** After the save settles: success resets to the empty form and clears editing; failure keeps all. */
  function AfterSave(e: Editor, succeeded: bool): (r: Editor)
    ensures succeeded ==> r == Editor(EmptyForm, None, false)
    ensures !succeeded ==> r == e
  {
    if succeeded then Editor(EmptyForm, None, false) else e
  }

  /**
   * Editing a product and saving without changes PATCHes that product with its own
   * title, description, price and flag, and sends no image, so the stored one stays.
   */
  lemma UnchangedEditResends(p: Listed)
    ensures var c := SubmitCall(StartEdit(p));
            && c.verb == "PATCH" && c.url == DetailUrl(p.id)
            && |c.body.parts| == 5
            && c.body.parts[0].value == TextPart(p.title)
            && c.body.parts[2].value == TextPart(p.price)
            && c.body.parts[4].value == TextPart(if p.isActive.GetOr(true) then "true" else "false")
  {
  }

  /** A category given as a nested object is sent as its id's text. */
  lemma NestedCategorySendsId(p: Listed)
    requires p.category.CategoryObject? && p.category.id != 0
    ensures SubmitCall(StartEdit(p)).body.parts[3].value == TextPart(Decimal.IntText(p.category.id))
  {
  }

  /** A save after the form was reset creates a new product. */
  lemma SaveAfterResetCreates(e: Editor)
    ensures SubmitCall(AfterSave(e, true)).verb == "POST"
    ensures SubmitCall(AfterSave(e, true)).url == ListUrl
  {
  }

  /** `handleToggleActive`: a JSON PATCH whose only field is the negated flag. */
  function ToggleCall(p: Listed): (c: ApiCall)
    ensures c.verb == "PATCH" && c.url == DetailUrl(p.id)
    ensures c.body.Json? && c.body.fields.Keys == {"is_active"}
    ensures c.body.fields["is_active"] == Flag(!p.isActive.GetOr(false))
  {
    ApiCall("PATCH", DetailUrl(p.id), Json(map["is_active" := Flag(!p.isActive.GetOr(false))]))
  }

  /** Toggling twice, with the list reloaded between, sends the original flag back. */
  lemma ToggleTwiceRestores(p: Listed)
    requires p.isActive.Some?
    ensures ToggleCall(p.(isActive := Some(!p.isActive.value))).body.fields["is_active"] == Flag(p.isActive.value)
  {
  }

  /**
   * The text a failed save reports: `detail`, else `message`, else the whole error body
   * as JSON when there is one or the error's own message, else a default.
   */
  function SaveFailureText(detail: Option<string>, message: Option<string>, bodyJson: Option<string>, errMessage: string): (t: string)
    ensures detail.Some? && detail.value != "" ==> t == detail.value
    ensures !(detail.Some? && detail.value != "") && message.Some? && message.value != "" ==> t == message.value
    ensures !(detail.Some? && detail.value != "") && !(message.Some? && message.value != "") ==>
              t == (var fallback := bodyJson.GetOr(errMessage); if fallback != "" then fallback else "Failed to save product")
    ensures t != ""
  {
    if detail.Some? && detail.value != "" then detail.value
    else if message.Some? && message.value != "" then message.value
    else
      var fallback := bodyJson.GetOr(errMessage);
      if fallback != "" then fallback else "Failed to save product"
  }

  /** `handleDelete`: a DELETE of the product only when the dialog is confirmed. */
  function DeleteCall(confirmed: bool, id: int): (c: Option<ApiCall>)
    ensures c.Some? <==> confirmed
    ensures c.Some? ==> c.value == ApiCall("DELETE", DetailUrl(id), NoBody)
  {
    if confirmed then Some(ApiCall("DELETE", DetailUrl(id), NoBody)) else None
  }
}

=== FILE: my_products.dfy ===
/**
 * The "my products" page: which listing it asks for (from the stored user), how the
 * reply becomes the shown list, the local edits after a save or delete, and the
 * search and category filter over the list.
 */
module MyProductsPage {

  import opened Wrappers
  import opened JsonIdentity
  import opened Session
  import opened ClientData
  import Seqs
  import Text
  import Decimal

  /** A listed product as the page uses it; `category` is the nested category's id. */
  datatype Listed = Listed(id: int, title: string, description: string, category: int, isActive: bool)

  /**
   * The id the listing is asked for: the stored user's, when the stored text is the one
   * sign-in writes and its id is truthy (not 0). A missing, empty or unreadable text
   * yields `None`, as does a user without a usable id.
   */
  function FetchTarget(st: Storage): (r: Option<int>)
    ensures r.Some? ==> HasValue(st, UserKey) && r.value != 0
    ensures r.Some? ==> exists u :: Encode(u) == st[UserKey] && u.id == r.value
    ensures !HasValue(st, UserKey) ==> r.None?
  {
    if !HasValue(st, UserKey) then None
    else
      match Decode(st[UserKey])
      case None => None
      case Some(u) => if u.id != 0 then Some(u.id) else None
  }

  /** The listing request for one creator. */
  function ListUrl(id: int): string {
    "products/?created_by=" + Decimal.IntText(id)
  }

  datatype Fetch = Fetch(url: Option<string>, products: seq<Listed>)

  /**
   * `fetchProducts`. `reply` is what the listing request yields (`None` when it throws);
   * it is only consulted when a request is made.
   */
  function FetchProducts(st: Storage, reply: Option<Body<Listed>>): (r: Fetch)
    ensures FetchTarget(st).None? ==> r == Fetch(None, [])
    ensures FetchTarget(st).Some? ==> r.url == Some(ListUrl(FetchTarget(st).value))
    ensures FetchTarget(st).Some? && reply.None? ==> r.products == []
    ensures FetchTarget(st).Some? && reply.Some? ==> r.products == ResultsOrData(reply.value)
  {
    match FetchTarget(st)
    case None => Fetch(None, [])
    case Some(id) =>
      Fetch(Some(ListUrl(id)), match reply case None => [] case Some(body) => ResultsOrData(body))
  }

  /** A session `login` wrote asks for exactly the signed-in user's products (when the id is not 0). */
  lemma SignedInUserAsksForOwn(a: Auth, u: Identity, access: string, refresh: string)
    requires u.id != 0
    ensures FetchProducts(Login(a, u, access, refresh).storage, None).url == Some(ListUrl(u.id))
  {
    LoginThenReload(a, u, access, refresh);
  }

  /** After a logout nothing is requested and the list is empty. */
  lemma SignedOutAsksNothing(a: Auth, reply: Option<Body<Listed>>)
    ensures FetchProducts(Logout(a).auth.storage, reply) == Fetch(None, [])
  {
  }

  /** `handleAddProduct`: the new product goes first, the rest follow in order. */
  function AddProduct(ps: seq<Listed>, p: Listed): (r: seq<Listed>)
    ensures |r| == |ps| + 1 && r[0] == p && r[1..] == ps
  {
    [p] + ps
  }

  /** `handleUpdateProduct`: every product with the saved one's id is replaced by it. */
  function ReplaceById(ps: seq<Listed>, u: Listed): (r: seq<Listed>)
    ensures |r| == |ps|
    ensures forall i :: 0 <= i < |ps| && ps[i].id == u.id ==> r[i] == u
    ensures forall i :: 0 <= i < |ps| && ps[i].id != u.id ==> r[i] == ps[i]
  {
    if |ps| == 0 then []
    else [if ps[0].id == u.id then u else ps[0]] + ReplaceById(ps[1..], u)
  }

  /** Replacing with a product whose id is not listed changes nothing. */
  lemma ReplaceUnlistedIsNoOp(ps: seq<Listed>, u: Listed)
    requires forall i :: 0 <= i < |ps| ==> ps[i].id != u.id
    ensures ReplaceById(ps, u) == ps
  {
  }

  /** The products not having `id`, in order. */
  function WithoutId(ps: seq<Listed>, id: int): (r: seq<Listed>)
    ensures Seqs.IsSubsequence(r, ps)
    ensures forall i :: 0 <= i < |r| ==> r[i].id != id && r[i] in ps
    ensures forall i :: 0 <= i < |ps| && ps[i].id != id ==> ps[i] in r
  {
    Seqs.Filter(ps, (p: Listed) => p.id != id)
  }

  /** The delete dialog is shown while `deleteConfirm` holds a truthy id. */
  predicate DialogShown(deleteConfirm: Option<int>) {
    deleteConfirm.Some? && deleteConfirm.value != 0
  }

  datatype Listing = Listing(products: seq<Listed>, deleteConfirm: Option<int>)

  /**
   * `handleConfirmDelete` once the DELETE settles: on success the products with that id
   * leave the list and the dialog closes; on failure nothing changes.
   */
  function ConfirmDelete(l: Listing, succeeded: bool): (r: Listing)
    requires DialogShown(l.deleteConfirm)
    ensures !succeeded ==> r == l
    ensures succeeded ==> r == Listing(WithoutId(l.products, l.deleteConfirm.value), None)
  {
    if succeeded then Listing(WithoutId(l.products, l.deleteConfirm.value), None) else l
  }

  /** The DELETE goes to the product the dialog was opened for. */
  function DeleteUrl(l: Listing): string
    requires DialogShown(l.deleteConfirm)
  {
    "products/" + Decimal.IntText(l.deleteConfirm.value) + "/"
  }

  /** `parseInt` on the category select's value: the leading integer, `None` for NaN. */
  function ParseIntPrefix(s: string): (r: Option<int>)
    ensures r.Some? <==> Decimal.ReadInt(s).Some?
    ensures r.Some? ==> r.value == Decimal.ReadInt(s).value.0
  {
    match Decimal.ReadInt(s)
    case None => None
    case Some((n, _)) => Some(n)
  }

  /** The value of a category option, `String(id)`, parses back to the id. */
  lemma ParseIntPrefixOfText(n: int)
    ensures ParseIntPrefix(Decimal.IntText(n)) == Some(n)
  {
    Decimal.IntTextRoundTrip(n, "");
    assert Decimal.IntText(n) + "" == Decimal.IntText(n);
  }

  /** The search test: title or description includes the term, ignoring letter case. */
  predicate MatchesSearch(p: Listed, term: string) {
    Text.Contains(Text.Lower(p.title), Text.Lower(term)) || Text.Contains(Text.Lower(p.description), Text.Lower(term))
  }

  /** The category test: no filter, or the product's category id equals the parsed filter. */
  predicate MatchesCategory(p: Listed, filter: string) {
    filter == "" || ParseIntPrefix(filter) == Some(p.category)
  }

  predicate Shown(p: Listed, term: string, filter: string) {
    MatchesSearch(p, term) && MatchesCategory(p, filter)
  }

  /** `filteredProducts`. */
  function Filtered(ps: seq<Listed>, term: string, filter: string): (r: seq<Listed>)
    ensures Seqs.IsSubsequence(r, ps)
    ensures forall i :: 0 <= i < |r| ==> Shown(r[i], term, filter) && r[i] in ps
    ensures forall i :: 0 <= i < |ps| && Shown(ps[i], term, filter) ==> ps[i] in r
  {
    Seqs.Filter(ps, (p: Listed) => Shown(p, term, filter))
  }

  /** With an empty search and no category filter every product is shown, in order. */
  lemma EmptyFilterShowsAll(ps: seq<Listed>)
    ensures Filtered(ps, "", "") == ps
  {
    forall i | 0 <= i < |ps|
      ensures Shown(ps[i], "", "")
    {
      Text.ContainsEmpty(Text.Lower(ps[i].title));
    }
  }

  /** Choosing category `c` in the select shows only products of category `c`. */
  lemma CategoryFilterIsExact(ps: seq<Listed>, term: string, c: int)
    ensures forall i :: 0 <= i < |Filtered(ps, term, Decimal.IntText(c))| ==>
              Filtered(ps, term, Decimal.IntText(c))[i].category == c
    ensures forall i :: 0 <= i < |ps| && ps[i].category == c && MatchesSearch(ps[i], term) ==>
              ps[i] in Filtered(ps, term, Decimal.IntText(c))
  {
    var f := Decimal.IntText(c);
    ParseIntPrefixOfText(c);
    assert f != "" by {
      assert |Decimal.IntText(c)| > 0;
    }
  }

  /** Filtering is a view: deleting after filtering equals filtering after deleting. */
  lemma FilterCommutesWithDelete(ps: seq<Listed>, term: string, filter: string, id: int)
    ensures WithoutId(Filtered(ps, term, filter), id) == Filtered(WithoutId(ps, id), term, filter)
  {
    Seqs.FilterCommutes(ps, (p: Listed) => Shown(p, term, filter), (p: Listed) => p.id != id);
  }
}

=== FILE: navbar.dfy ===
/**
 * The navigation bar: the desktop and mobile link lists derived from the signed-in
 * user, which link is highlighted, the account controls, and the mobile menu's
 * open/closed state.
 */
module Navbar {

  import opened Wrappers
  import opened JsonIdentity
  import Routes

  datatype NavLink = NavLink(path: string, caption: string)

  const HomeLink := NavLink("/", "Home")
  const CartLink := NavLink("/cart", "Cart")
  const MyProductsLink := NavLink("/my-products", "My Products")
  const AdminLink := NavLink("/admin", "Admin Panel")

  /** The admin link, for a user flagged admin only. */
  function AdminLinks(u: Identity): (r: seq<NavLink>)
    ensures r == [AdminLink] <==> u.isAdmin
    ensures r == [] <==> !u.isAdmin
  {
    if u.isAdmin then [AdminLink] else []
  }

  /** The desktop list: Home, then the account links for a signed-in user. */
  function DesktopLinks(user: Option<Identity>): (r: seq<NavLink>)
    ensures user.None? ==> r == [HomeLink]
    ensures user.Some? ==> |r| >= 4
    ensures user.Some? ==> r[..4] == [HomeLink, NavLink("/orders", "Orders"), CartLink, MyProductsLink]
    ensures user.Some? ==> r[4..] == AdminLinks(user.value)
  {
    [HomeLink] + (match user
                  case None => []
                  case Some(u) => [NavLink("/orders", "Orders"), CartLink, MyProductsLink] + AdminLinks(u))
  }

  /** The mobile list: Home and Cart always, then the account links for a signed-in user. */
  function MobileLinks(user: Option<Identity>): (r: seq<NavLink>)
    ensures |r| >= 2 && r[..2] == [HomeLink, CartLink]
    ensures user.None? ==> |r| == 2
    ensures user.Some? ==> |r| >= 4
    ensures user.Some? ==> r[2..4] == [NavLink("/orders", "My Orders"), MyProductsLink]
    ensures user.Some? ==> r[4..] == AdminLinks(user.value)
  {
    [HomeLink, CartLink] + (match user
                            case None => []
                            case Some(u) => [NavLink("/orders", "My Orders"), MyProductsLink] + AdminLinks(u))
  }

  /** No two links share a path (the path is the list key). */
  predicate DistinctPaths(links: seq<NavLink>) {
    forall i, j :: 0 <= i < j < |links| ==> links[i].path != links[j].path
  }

  /** The paths of the links a list can hold, none equal to another. */
  lemma KnownPathsDiffer()
    ensures HomeLink.path != CartLink.path && HomeLink.path != MyProductsLink.path && HomeLink.path != AdminLink.path
    ensures CartLink.path != MyProductsLink.path && CartLink.path != AdminLink.path && MyProductsLink.path != AdminLink.path
    ensures "/orders" !in {HomeLink.path, CartLink.path, MyProductsLink.path, AdminLink.path}
  {
  }

  lemma LinkPathsDistinct(user: Option<Identity>)
    ensures DistinctPaths(DesktopLinks(user)) && DistinctPaths(MobileLinks(user))
  {
    KnownPathsDiffer();
    if user.Some? {
      var tail := AdminLinks(user.value);
      assert DesktopLinks(user) == [HomeLink, NavLink("/orders", "Orders"), CartLink, MyProductsLink] + tail;
      assert MobileLinks(user) == [HomeLink, CartLink, NavLink("/orders", "My Orders"), MyProductsLink] + tail;
    }
  }

  /** The admin link is offered, in either list, exactly to a user flagged admin. */
  lemma AdminLinkOnlyForAdmins(user: Option<Identity>)
    ensures AdminLink in DesktopLinks(user) <==> user.Some? && user.value.isAdmin
    ensures AdminLink in MobileLinks(user) <==> user.Some? && user.value.isAdmin
  {
    if user.Some? {
      var d := DesktopLinks(user);
      var m := MobileLinks(user);
      assert d == [HomeLink, NavLink("/orders", "Orders"), CartLink, MyProductsLink] + AdminLinks(user.value);
      assert m == [HomeLink, CartLink, NavLink("/orders", "My Orders"), MyProductsLink] + AdminLinks(user.value);
    }
  }

  /** `isActive`: exact equality with the current pathname (no prefix match). */
  predicate IsActive(pathname: string, path: string) {
    pathname == path
  }

  /** The links highlighted at `pathname`. */
  function ActiveLinks(links: seq<NavLink>, pathname: string): (r: seq<NavLink>)
    ensures forall i :: 0 <= i < |r| ==> r[i] in links && r[i].path == pathname
    ensures forall i :: 0 <= i < |links| && links[i].path == pathname ==> links[i] in r
    ensures (forall i :: 0 <= i < |links| ==> links[i].path != pathname) ==> r == []
  {
    if |links| == 0 then []
    else (if IsActive(pathname, links[0].path) then [links[0]] else []) + ActiveLinks(links[1..], pathname)
  }

  /** With distinct paths, at most one link is highlighted. */
  lemma {:induction false} AtMostOneActive(links: seq<NavLink>, pathname: string)
    requires DistinctPaths(links)
    ensures |ActiveLinks(links, pathname)| <= 1
  {
    if |links| > 0 {
      AtMostOneActive(links[1..], pathname);
      if links[0].path == pathname {
        var rest := links[1..];
        assert forall j :: 0 <= j < |rest| ==> rest[j].path != pathname by {
          assert forall j :: 0 <= j < |rest| ==> rest[j] == links[j + 1];
        }
        assert |ActiveLinks(rest, pathname)| == 0;
      }
    }
  }

  /** The account controls at the right of the bar (and at the foot of the mobile menu). */
  datatype Control = Greeting(username: string) | LogoutButton | LoginLink | SignUpLink

  function AccountControls(user: Option<Identity>): (r: seq<Control>)
    ensures LogoutButton in r <==> user.Some?
    ensures LoginLink in r <==> user.None?
    ensures SignUpLink in r <==> user.None?
    ensures user.Some? ==> Greeting(user.value.username) in r
  {
    match user
    case Some(u) => [Greeting(u.username), LogoutButton]
    case None => [LoginLink, SignUpLink]
  }

  /** The bar's own state: the mobile menu flag and the current pathname. */
  datatype Bar = Bar(menuOpen: bool, pathname: string)

  /** The first render: the menu is closed. */
  function Initial(pathname: string): (b: Bar)
    ensures !b.menuOpen && b.pathname == pathname
  {
    Bar(false, pathname)
  }

  /** The menu button. */
  function Toggle(b: Bar): (r: Bar)
    ensures r.menuOpen == !b.menuOpen && r.pathname == b.pathname
  {
    b.(menuOpen := !b.menuOpen)
  }

  /** A navigation: the location effect closes the menu, even when the path is the same. */
  function Navigate(b: Bar, pathname: string): (r: Bar)
    ensures !r.menuOpen && r.pathname == pathname
  {
    Bar(false, pathname)
  }

  /** The mobile links are shown only while the menu is open. */
  function VisibleMobileLinks(b: Bar, user: Option<Identity>): (r: seq<NavLink>)
    ensures b.menuOpen ==> r == MobileLinks(user)
    ensures !b.menuOpen ==> r == []
  {
    if b.menuOpen then MobileLinks(user) else []
  }

  lemma ToggleTwice(b: Bar)
    ensures Toggle(Toggle(b)) == b
  {
  }

  /** Following a mobile link hides the mobile list again. */
  lemma FollowingLinkClosesMenu(b: Bar, user: Option<Identity>, i: nat)
    requires b.menuOpen && i < |MobileLinks(user)|
    ensures VisibleMobileLinks(Navigate(b, MobileLinks(user)[i].path), user) == []
  {
  }

  /** The router location each link path names. */
  const LinkTargets: map<string, Routes.Location> := map[
    "/" := [], "/orders" := ["orders"], "/cart" := ["cart"],
    "/my-products" := ["my-products"], "/admin" := ["admin"]
  ]

  /** Every desktop link leads to a page the router renders for the same user. */
  lemma DesktopLinksRender(user: Option<Identity>, i: nat)
    requires i < |DesktopLinks(user)|
    ensures DesktopLinks(user)[i].path in LinkTargets
    ensures Routes.Resolve(LinkTargets[DesktopLinks(user)[i].path], user).Render?
  {
    var links := DesktopLinks(user);
    if i == 0 {
      assert links[0] == HomeLink;
      Routes.PublicRoutesOpen([], user);
    } else {
      var u := user.value;
      assert links == [HomeLink, NavLink("/orders", "Orders"), CartLink, MyProductsLink] + AdminLinks(u);
      if i == 1 {
        assert LinkTargets[links[1].path] == ["orders"];
        Routes.PrivateRoutesGuarded(["orders"], user);
      } else if i == 2 {
        assert LinkTargets[links[2].path] == ["cart"];
        Routes.PrivateRoutesGuarded(["cart"], user);
      } else if i == 3 {
        assert LinkTargets[links[3].path] == ["my-products"];
        Routes.PrivateRoutesGuarded(["my-products"], user);
      } else {
        assert links[4] == AdminLink && u.isAdmin;
        assert LinkTargets[links[4].path] == ["admin"];
        Routes.AdminRoutesGuarded(["admin"], user);
      }
    }
  }

  /** The mobile list offers Cart to a signed-out visitor, and following it lands on the sign-in view. */
  lemma SignedOutCartLinkRedirects()
    ensures CartLink in MobileLinks(None)
    ensures Routes.Resolve(LinkTargets[CartLink.path], None) == Routes.Redirect("/login")
  {
    assert MobileLinks(None)[1] == CartLink;
    Routes.PrivateRoutesGuarded(["cart"], None);
  }
}

=== FILE: order_models.dfy ===
/**
 * The order records: the three choice fields with their stored codes and defaults,
 * the order line and its subtotal. Amounts are integers in minor currency units.
 */
module OrderModels {

  import opened Wrappers
  import opened RequestData

  datatype OrderStatus = Pending | Approved | Paid | Shipped | Delivered | Cancelled

  /** `STATUS_CHOICES`, in declaration order. */
  const StatusChoices: seq<OrderStatus> := [Pending, Approved, Paid, Shipped, Delivered, Cancelled]

  /** The field's default. */
  const DefaultStatus: OrderStatus := Pending

  /** The code stored in the database for each status. */
  function StatusCode(s: OrderStatus): string {
    match s
    case Pending => "PENDING"
    case Approved => "APPROVED"
    case Paid => "PAID"
    case Shipped => "SHIPPED"
    case Delivered => "DELIVERED"
    case Cancelled => "CANCELLED"
  }

  /** The status a stored code stands for; `None` for text outside the choices. */
  function ParseStatus(t: string): (r: Option<OrderStatus>)
    ensures r.Some? ==> StatusCode(r.value) == t
  {
    if t == "PENDING" then Some(Pending)
    else if t == "APPROVED" then Some(Approved)
    else if t == "PAID" then Some(Paid)
    else if t == "SHIPPED" then Some(Shipped)
    else if t == "DELIVERED" then Some(Delivered)
    else if t == "CANCELLED" then Some(Cancelled)
    else None
  }

  /** Every status is among the choices, and the codes are read back exactly. */
  lemma StatusDomain(s: OrderStatus)
    ensures s in StatusChoices
    ensures ParseStatus(StatusCode(s)) == Some(s)
  {
  }

  /** A text is accepted exactly when it is the code of one of the choices. */
  lemma ParseStatusIffCode(t: string)
    ensures ParseStatus(t).Some? <==> exists i :: 0 <= i < |StatusChoices| && StatusCode(StatusChoices[i]) == t
  {
    if ParseStatus(t).Some? {
      var s := ParseStatus(t).value;
      var i := if s == Pending then 0 else if s == Approved then 1 else if s == Paid then 2
        else if s == Shipped then 3 else if s == Delivered then 4 else 5;
      assert StatusCode(StatusChoices[i]) == t;
    }
  }

  datatype PaymentMethod = Cod | Mock

  function PaymentMethodCode(m: PaymentMethod): string {
    match m
    case Cod => "COD"
    case Mock => "MOCK"
  }

  /**
   * The payment method a request value names: only the exact strings "COD" and "MOCK"
   * (the check `payment_method not in ["COD", "MOCK"]`).
   */
  function ParsePaymentMethod(v: Value): (r: Option<PaymentMethod>)
    ensures r.Some? <==> v == Str("COD") || v == Str("MOCK")
    ensures r.Some? ==> v == Str(PaymentMethodCode(r.value))
  {
    if v == Str("COD") then Some(Cod) else if v == Str("MOCK") then Some(Mock) else None
  }

  datatype PaymentStatus = Unpaid | Success | Failed

  /** `PAYMENT_STATUS_CHOICES`, in declaration order. */
  const PaymentStatusChoices: seq<PaymentStatus> := [Unpaid, Success, Failed]

  const DefaultPaymentStatus: PaymentStatus := Unpaid

  function PaymentStatusCode(p: PaymentStatus): string {
    match p
    case Unpaid => "UNPAID"
    case Success => "SUCCESS"
    case Failed => "FAILED"
  }

  /** Both defaults are among their field's choices: "PENDING" and "UNPAID". */
  lemma DefaultsAmongChoices()
    ensures DefaultStatus in StatusChoices && StatusCode(DefaultStatus) == "PENDING"
    ensures DefaultPaymentStatus in PaymentStatusChoices && PaymentStatusCode(DefaultPaymentStatus) == "UNPAID"
  {
  }

  /** One line of an order: the product, how many, and the unit price at checkout. */
  datatype OrderItem = OrderItem(product: int, quantity: nat, price: int)

  /** `OrderItem.subtotal`. */
  function Subtotal(item: OrderItem): (r: int)
    ensures item.quantity == 0 ==> r == 0
    ensures item.price >= 0 ==> r >= 0
  {
    item.price * item.quantity
  }

  /** The sum of the subtotals of a list of lines. */
  function SubtotalSum(items: seq<OrderItem>): int {
    if |items| == 0 then 0 else Subtotal(items[0]) + SubtotalSum(items[1..])
  }

  lemma {:induction false} SubtotalSumConcat(a: seq<OrderItem>, b: seq<OrderItem>)
    ensures SubtotalSum(a + b) == SubtotalSum(a) + SubtotalSum(b)
  {
    if |a| == 0 {
      assert a + b == b;
    } else {
      assert (a + b)[1..] == a[1..] + b;
      SubtotalSumConcat(a[1..], b);
    }
  }

  /**
   * An order. `shippingAddress` is the request value as given (the text field is
   * nullable); `createdAt` is the creation time the database assigns.
   */
  datatype Order = Order(
    id: int,
    user: int,
    totalPrice: int,
    shippingAddress: Value,
    paymentMethod: PaymentMethod,
    paymentStatus: PaymentStatus,
    status: OrderStatus,
    createdAt: int,
    items: seq<OrderItem>)
}

=== FILE: order_views.dfy ===
/**
 * The order endpoints: checkout (cart to order), the caller's orders, all orders for
 * an admin, and an admin's status update. The caller is always signed in.
 *
 * Database failures the views catch are inputs (`Faults`); the creation time of a new
 * order is the input `now`.
 */
module OrderViews {

  import opened Wrappers
  import opened RequestData
  import opened OrderModels
  import opened Store
  import Decimal
  import Text
  import Seqs

  datatype Outcome<T> = Outcome(reply: Reply<T>, db: Db)

  /**
   * What the database does at checkout: the error text of a failed order insert, the
   * error text of a failed item insert, the text of a violated non-negative check on an
   * item's quantity, and whether emptying the cart fails.
   */
  datatype Faults = Faults(orderInsert: Option<string>, itemInsert: Option<string>, quantityCheck: string, clearFails: bool)

  // ---------------------------------------------------------------------------
  // Checkout.
  // ---------------------------------------------------------------------------

  /** What is wrong with one cart item, checked in this order; `None` when nothing is. */
  function ItemProblem(item: CartItem, products: map<int, Product>): (r: Option<string>)
    ensures r.None? <==> item.product in products && products[item.product].isActive
    ensures r.Some? ==> r.value != ""
  {
    if item.product !in products then
      Some("Product not found for cart item " + Decimal.IntText(item.id))
    else if !products[item.product].isActive then
      Some("Product '" + products[item.product].title + "' is not available")
    else None
  }

  /** Every item of `items` refers to an existing product. */
  predicate AllPriced(items: seq<CartItem>, products: map<int, Product>) {
    forall i :: 0 <= i < |items| ==> items[i].product in products
  }

  /** Σ price × quantity over the items, at the products' current prices. */
  function CartAmount(items: seq<CartItem>, products: map<int, Product>): int
    requires AllPriced(items, products)
  {
    if |items| == 0 then 0
    else products[items[0].product].price * items[0].quantity + CartAmount(items[1..], products)
  }

  datatype Check = Valid(total: int) | Invalid(message: string)

  /**
   * The validation loop: the first item with a problem stops it with that item's
   * message; otherwise it yields the total.
   */
  function Validate(items: seq<CartItem>, products: map<int, Product>): (r: Check)
    ensures r.Valid? <==> forall i :: 0 <= i < |items| ==> ItemProblem(items[i], products).None?
    ensures r.Valid? ==> AllPriced(items, products) && r.total == CartAmount(items, products)
    ensures r.Invalid? ==> exists k :: 0 <= k < |items| && ItemProblem(items[k], products) == Some(r.message)
                                  && forall i :: 0 <= i < k ==> ItemProblem(items[i], products).None?
  {
    if |items| == 0 then Valid(0)
    else
      match ItemProblem(items[0], products)
      case Some(m) => Invalid(m)
      case None =>
        match Validate(items[1..], products)
        case Invalid(m) =>
          ghost var k :| 0 <= k < |items[1..]| && ItemProblem(items[1..][k], products) == Some(m)
                         && forall i :: 0 <= i < k ==> ItemProblem(items[1..][i], products).None?;
          assert ItemProblem(items[k + 1], products) == Some(m);
          assert forall i :: 0 <= i < k + 1 ==> ItemProblem(items[i], products).None? by {
            forall i | 0 <= i < k + 1 ensures ItemProblem(items[i], products).None? {
              if i > 0 {
                assert items[i] == items[1..][i - 1];
              }
            }
          }
          Invalid(m)
        case Valid(t) =>
          assert forall i :: 1 <= i < |items| ==> items[i] == items[1..][i - 1];
          Valid(products[items[0].product].price * items[0].quantity + t)
  }

  predicate NonNegativeQuantities(items: seq<CartItem>) {
    forall i :: 0 <= i < |items| ==> items[i].quantity >= 0
  }

  /** The order lines made from the cart: same product, same quantity, current price. */
  function OrderLines(items: seq<CartItem>, products: map<int, Product>): (r: seq<OrderItem>)
    requires AllPriced(items, products) && NonNegativeQuantities(items)
    ensures |r| == |items|
    ensures forall i :: 0 <= i < |items| ==>
              r[i] == OrderItem(items[i].product, items[i].quantity, products[items[i].product].price)
  {
    if |items| == 0 then []
    else [OrderItem(items[0].product, items[0].quantity, products[items[0].product].price)]
         + OrderLines(items[1..], products)
  }

  /** The order's lines add up, by `subtotal`, to the amount the cart was charged. */
  lemma {:induction false} LinesAddUp(items: seq<CartItem>, products: map<int, Product>)
    requires AllPriced(items, products) && NonNegativeQuantities(items)
    ensures SubtotalSum(OrderLines(items, products)) == CartAmount(items, products)
  {
    if |items| > 0 {
      var lines := OrderLines(items, products);
      assert lines[1..] == OrderLines(items[1..], products);
      LinesAddUp(items[1..], products);
    }
  }

  const MigrationMessage: string := "Database migration required. Please run: python manage.py migrate orders"

  /** The message for a failed order insert with error text `e`. */
  function OrderInsertMessage(e: string): (m: string)
    ensures Text.Contains(e, "shipping_address") ==> m == MigrationMessage
    ensures Text.Contains(e, "payment_method") ==> m == MigrationMessage
    ensures Text.Contains(Text.Lower(e), "no such column") ==> m == MigrationMessage
    ensures m != MigrationMessage ==> m == "Failed to create order: " + e
    ensures !Text.Contains(e, "shipping_address") && !Text.Contains(e, "payment_method") && !Text.Contains(Text.Lower(e), "no such column") ==>
              m == "Failed to create order: " + e
  {
    if Text.Contains(e, "shipping_address") || Text.Contains(e, "payment_method")
       || Text.Contains(Text.Lower(e), "no such column")
    then MigrationMessage
    else "Failed to create order: " + e
  }

  /** The payment status and order status a payment method starts an order with. */
  function InitialStatuses(m: PaymentMethod): (r: (PaymentStatus, OrderStatus))
    ensures m == Cod ==> r == (Unpaid, Pending)
    ensures m == Mock ==> r == (Success, Paid)
    ensures r.0 in PaymentStatusChoices && r.1 in StatusChoices
  {
    match m
    case Cod => (Unpaid, Pending)
    case Mock => (Success, Paid)
  }

  /** The error of the item inserts: a negative quantity violates the column's check. */
  function ItemInsertError(items: seq<CartItem>, faults: Faults): (r: Option<string>)
    ensures !NonNegativeQuantities(items) ==> r == Some(faults.quantityCheck)
    ensures NonNegativeQuantities(items) ==> r == faults.itemInsert
  {
    if !NonNegativeQuantities(items) then Some(faults.quantityCheck) else faults.itemInsert
  }

  /** The checks checkout makes before it inserts the order, all passed. */
  predicate ReadyToPlace(db: Db, user: int, data: Data) {
    && ParsePaymentMethod(Field(data, "payment_method")).Some?
    && user in db.carts && |db.carts[user]| > 0
    && Validate(db.carts[user], db.products).Valid?
    && Validate(db.carts[user], db.products).total > 0
  }

  /** A checkout that passes every check and whose inserts do not fail. */
  predicate CheckoutAccepted(db: Db, user: int, data: Data, faults: Faults) {
    ReadyToPlace(db, user, data) && faults.orderInsert.None? && ItemInsertError(db.carts[user], faults).None?
  }

  /** POST checkout. */
  function Checkout(db: Db, user: int, data: Data, faults: Faults, now: int): (r: Outcome<Order>)
    ensures ParsePaymentMethod(Field(data, "payment_method")).None? ==> r == Outcome(Refused(400, "Invalid payment method"), db)
    ensures r.reply.Ok? <==> CheckoutAccepted(db, user, data, faults)
    ensures r.reply.Ok? ==> r.reply.status == 201
    ensures ReadyToPlace(db, user, data) && faults.orderInsert.Some? ==>
              r == Outcome(Refused(500, OrderInsertMessage(faults.orderInsert.value)), db)
    ensures !r.reply.Ok? ==> r.db.orders == db.orders && r.db.carts == db.carts && r.db.products == db.products
    ensures r.reply.Refused? && r.reply.status == 400 ==> r.db == db
  {
    match ParsePaymentMethod(Field(data, "payment_method"))
    case None => Outcome(Refused(400, "Invalid payment method"), db)
    case Some(pay) =>
      if user !in db.carts then Outcome(Refused(400, "Cart is empty"), db)
      else
        var items := db.carts[user];
        if |items| == 0 then Outcome(Refused(400, "Cart has no items"), db)
        else
          var (paymentStatus, status) := InitialStatuses(pay);
          var shipping := FieldOr(data, "shipping_address", Str(""));
          match Validate(items, db.products)
          case Invalid(m) => Outcome(Refused(400, m), db)
          case Valid(total) =>
            if total <= 0 then Outcome(Refused(400, "Order total must be greater than zero"), db)
            else
              match faults.orderInsert
              case Some(e) => Outcome(Refused(500, OrderInsertMessage(e)), db)
              case None =>
                match ItemInsertError(items, faults)
                case Some(e) =>
                  // the inserted order is deleted again; its id is not reused
                  Outcome(Refused(500, "Failed to create order items: " + e), db.(nextId := db.nextId + 1))
                case None =>
                  var order := Order(db.nextId, user, total, shipping, pay, paymentStatus, status, now,
                                     OrderLines(items, db.products));
                  var carts := if faults.clearFails then db.carts else db.carts[user := []];
                  Outcome(Ok(201, order), db.(orders := db.orders + [order], carts := carts, nextId := db.nextId + 1))
  }

  /** Every refusal of checkout carries a non-empty `error` text. */
  lemma RefusalsCarryMessage(db: Db, user: int, data: Data, faults: Faults, now: int)
    ensures var r := Checkout(db, user, data, faults, now).reply;
            r.Refused? ==> r.error != ""
  {
    var r := Checkout(db, user, data, faults, now).reply;
    if r.Refused? && ParsePaymentMethod(Field(data, "payment_method")).Some?
       && user in db.carts && |db.carts[user]| > 0 {
      var check := Validate(db.carts[user], db.products);
      if check.Invalid? {
        var k :| 0 <= k < |db.carts[user]| && ItemProblem(db.carts[user][k], db.products) == Some(check.message);
      }
    }
  }

  /** No cart, or an empty one, is refused with 400 and creates nothing. */
  lemma CheckoutNeedsItems(db: Db, user: int, data: Data, faults: Faults, now: int)
    requires ParsePaymentMethod(Field(data, "payment_method")).Some?
    requires user !in db.carts || |db.carts[user]| == 0
    ensures Checkout(db, user, data, faults, now)
      == Outcome(Refused(400, if user !in db.carts then "Cart is empty" else "Cart has no items"), db)
  {
  }

  /** The first cart item with a missing or inactive product stops checkout with its message. */
  lemma CheckoutRejectsBadItem(db: Db, user: int, data: Data, faults: Faults, now: int, k: nat)
    requires ParsePaymentMethod(Field(data, "payment_method")).Some?
    requires user in db.carts && k < |db.carts[user]|
    requires ItemProblem(db.carts[user][k], db.products).Some?
    requires forall i :: 0 <= i < k ==> ItemProblem(db.carts[user][i], db.products).None?
    ensures Checkout(db, user, data, faults, now)
      == Outcome(Refused(400, ItemProblem(db.carts[user][k], db.products).value), db)
  {
    var items := db.carts[user];
    FirstProblem(items, db.products, k);
  }

  lemma {:induction false} FirstProblem(items: seq<CartItem>, products: map<int, Product>, k: nat)
    requires k < |items| && ItemProblem(items[k], products).Some?
    requires forall i :: 0 <= i < k ==> ItemProblem(items[i], products).None?
    ensures Validate(items, products) == Invalid(ItemProblem(items[k], products).value)
  {
    if k > 0 {
      assert forall i :: 0 <= i < k - 1 ==> items[1..][i] == items[i + 1];
      FirstProblem(items[1..], products, k - 1);
    }
  }

  /** A total that is not positive is refused and creates nothing. */
  lemma CheckoutNeedsPositiveTotal(db: Db, user: int, data: Data, faults: Faults, now: int)
    requires ParsePaymentMethod(Field(data, "payment_method")).Some?
    requires user in db.carts && |db.carts[user]| > 0
    requires forall i :: 0 <= i < |db.carts[user]| ==> ItemProblem(db.carts[user][i], db.products).None?
    requires AllPriced(db.carts[user], db.products) && CartAmount(db.carts[user], db.products) <= 0
    ensures Checkout(db, user, data, faults, now) == Outcome(Refused(400, "Order total must be greater than zero"), db)
  {
  }

  /**
   * A checkout that passes every check and whose inserts do not fail succeeds: 201 with
   * the new order, appended to the orders. The order has one line per cart item with the
   * same product and quantity at the current price, its total is both Σ price × quantity
   * and Σ subtotal, its statuses follow the payment method, and the cart is emptied
   * unless emptying it fails.
   */
  lemma CheckoutSucceeds(db: Db, user: int, data: Data, faults: Faults, now: int)
    requires CheckoutAccepted(db, user, data, faults)
    ensures var r := Checkout(db, user, data, faults, now);
            && r.reply.Ok?
            && var order := r.reply.value;
            var items := db.carts[user];
            && r.reply.status == 201
            && user in db.carts && |items| > 0
            && AllPriced(items, db.products) && NonNegativeQuantities(items)
            && (forall i :: 0 <= i < |items| ==> db.products[items[i].product].isActive)
            && r.db.orders == db.orders + [order] && r.db.products == db.products
            && order.id == db.nextId && order.user == user && order.createdAt == now
            && |order.items| == |items|
            && (forall i :: 0 <= i < |items| ==>
                  order.items[i] == OrderItem(items[i].product, items[i].quantity, db.products[items[i].product].price))
            && order.totalPrice == CartAmount(items, db.products) == SubtotalSum(order.items)
            && order.totalPrice > 0
            && Field(data, "payment_method") == Str(PaymentMethodCode(order.paymentMethod))
            && (order.paymentStatus, order.status) == InitialStatuses(order.paymentMethod)
            && order.status in StatusChoices
            && order.shippingAddress == FieldOr(data, "shipping_address", Str(""))
            && r.db.carts == (if faults.clearFails then db.carts else db.carts[user := []])
            && faults.orderInsert.None? && faults.itemInsert.None?
  {
    var items := db.carts[user];
    LinesAddUp(items, db.products);
  }

  /** A failed item insert deletes the order again: 500, and no order, cart or product changes. */
  lemma ItemFailureRollsBack(db: Db, user: int, data: Data, faults: Faults, now: int)
    requires ParsePaymentMethod(Field(data, "payment_method")).Some?
    requires user in db.carts && |db.carts[user]| > 0
    requires Validate(db.carts[user], db.products).Valid? && Validate(db.carts[user], db.products).total > 0
    requires faults.orderInsert.None? && ItemInsertError(db.carts[user], faults).Some?
    ensures var r := Checkout(db, user, data, faults, now);
            && r.reply == Refused(500, "Failed to create order items: " + ItemInsertError(db.carts[user], faults).value)
            && r.db.orders == db.orders && r.db.carts == db.carts
  {
  }

  // ---------------------------------------------------------------------------
  // Listing and status updates.
  // ---------------------------------------------------------------------------

  /** GET the caller's orders: exactly the orders placed by the caller, in stored order. */
  function UserOrders(db: Db, user: int): (r: Reply<seq<Order>>)
    ensures r.Ok? && r.status == 200
    ensures forall o :: o in r.value ==> o.user == user
    ensures forall o :: o in db.orders && o.user == user ==> o in r.value
    ensures Seqs.IsSubsequence(r.value, db.orders)
  {
    var mine := Seqs.Filter(db.orders, (o: Order) => o.user == user);
    assert forall o :: o in mine ==> o.user == user by {
      forall o | o in mine ensures o.user == user {
        var i :| 0 <= i < |mine| && mine[i] == o;
      }
    }
    assert forall o :: o in db.orders && o.user == user ==> o in mine by {
      forall o | o in db.orders && o.user == user ensures o in mine {
        var i :| 0 <= i < |db.orders| && db.orders[i] == o;
      }
    }
    Ok(200, mine)
  }

  /** Newest first: non-increasing creation time. */
  predicate NewestFirstOrder(s: seq<Order>) {
    forall i, j :: 0 <= i < j < |s| ==> s[i].createdAt >= s[j].createdAt
  }

  function InsertByTime(o: Order, sorted: seq<Order>): (r: seq<Order>)
    requires NewestFirstOrder(sorted)
    ensures NewestFirstOrder(r)
    ensures multiset(r) == multiset(sorted) + multiset{o}
  {
    if |sorted| == 0 then [o]
    else if o.createdAt >= sorted[0].createdAt then [o] + sorted
    else
      var rest := InsertByTime(o, sorted[1..]);
      InsertBehind(o, sorted, rest);
      [sorted[0]] + rest
  }

  lemma InsertBehind(o: Order, sorted: seq<Order>, rest: seq<Order>)
    requires NewestFirstOrder(sorted) && |sorted| > 0 && o.createdAt < sorted[0].createdAt
    requires NewestFirstOrder(rest) && multiset(rest) == multiset(sorted[1..]) + multiset{o}
    ensures NewestFirstOrder([sorted[0]] + rest)
    ensures multiset([sorted[0]] + rest) == multiset(sorted) + multiset{o}
  {
    assert sorted == [sorted[0]] + sorted[1..];
    forall j | 0 <= j < |rest|
      ensures rest[j].createdAt <= sorted[0].createdAt
    {
      assert rest[j] in multiset(rest);
      if rest[j] != o {
        assert rest[j] in multiset(sorted[1..]);
        var i :| 0 <= i < |sorted[1..]| && sorted[1..][i] == rest[j];
        assert sorted[i + 1] == rest[j];
      }
    }
    var r := [sorted[0]] + rest;
    forall i, j | 0 <= i < j < |r|
      ensures r[i].createdAt >= r[j].createdAt
    {
      assert r[j] == rest[j - 1];
      if i > 0 {
        assert r[i] == rest[i - 1];
      }
    }
  }

  /** `order_by("-created_at")`: the same orders, newest first. */
  function NewestFirst(orders: seq<Order>): (r: seq<Order>)
    ensures NewestFirstOrder(r)
    ensures multiset(r) == multiset(orders)
  {
    if |orders| == 0 then []
    else
      assert orders == [orders[0]] + orders[1..];
      InsertByTime(orders[0], NewestFirst(orders[1..]))
  }

  /** GET all orders: admins only. */
  function AdminOrders(db: Db, caller: User): (r: Reply<seq<Order>>)
    ensures !caller.isAdmin <==> r == Refused(403, "Admin only")
    ensures caller.isAdmin ==> r.Ok? && r.status == 200
    ensures r.Ok? ==> NewestFirstOrder(r.value) && multiset(r.value) == multiset(db.orders)
  {
    if !caller.isAdmin then Refused(403, "Admin only") else Ok(200, NewestFirst(db.orders))
  }

  /** The position of the order with id `id`, if any. */
  function IndexOfOrder(orders: seq<Order>, id: int): (r: Option<nat>)
    ensures r.Some? ==> r.value < |orders| && orders[r.value].id == id
    ensures r.None? <==> forall j :: 0 <= j < |orders| ==> orders[j].id != id
  {
    Seqs.IndexWhere(orders, (o: Order) => o.id == id)
  }

  /**
   * The refusal for a status outside the choices: the view joins the codes of
   * `StatusChoices` with ", " in declaration order.
   */
  const InvalidStatusMessage: string :=
    "Invalid status. Valid statuses are: PENDING, APPROVED, PAID, SHIPPED, DELIVERED, CANCELLED"

  /** PATCH an order's status: admins only; a known order; a truthy status among the choices. */
  function UpdateOrderStatus(db: Db, caller: User, orderId: int, data: Data): (r: Outcome<Order>)
    ensures !caller.isAdmin ==> r == Outcome(Refused(403, "Admin only"), db)
    ensures (caller.isAdmin && IndexOfOrder(db.orders, orderId).None?) ==> r == Outcome(Refused(404, "Order not found"), db)
    ensures (caller.isAdmin && IndexOfOrder(db.orders, orderId).Some? && !Truthy(Field(data, "status")))
              ==> r == Outcome(Refused(400, "Status is required"), db)
    ensures (caller.isAdmin && IndexOfOrder(db.orders, orderId).Some? && Truthy(Field(data, "status"))
             && !(Field(data, "status").Str? && ParseStatus(Field(data, "status").s).Some?))
              ==> r == Outcome(Refused(400, InvalidStatusMessage), db)
    ensures (caller.isAdmin && IndexOfOrder(db.orders, orderId).Some?
             && Field(data, "status").Str? && ParseStatus(Field(data, "status").s).Some?)
              ==> r.reply.Ok? && r.reply.status == 200 && r.reply.value.status == ParseStatus(Field(data, "status").s).value
    ensures !r.reply.Ok? ==> r.db == db
    ensures (r.reply.Refused? && r.reply.status == 400 && r.reply.error != "Status is required")
              ==> r.reply.error == InvalidStatusMessage
    ensures r.reply.Ok? ==>
              && caller.isAdmin && IndexOfOrder(db.orders, orderId).Some?
              && (var k := IndexOfOrder(db.orders, orderId).value;
                  && Field(data, "status") == Str(StatusCode(r.reply.value.status))
                  && r.reply.value == db.orders[k].(status := r.reply.value.status)
                  && r.db == db.(orders := db.orders[k := r.reply.value]))
  {
    if !caller.isAdmin then Outcome(Refused(403, "Admin only"), db)
    else
      match IndexOfOrder(db.orders, orderId)
      case None => Outcome(Refused(404, "Order not found"), db)
      case Some(k) =>
        var value := Field(data, "status");
        if !Truthy(value) then Outcome(Refused(400, "Status is required"), db)
        else
          var parsed := if value.Str? then ParseStatus(value.s) else None;
          match parsed
          case None => Outcome(Refused(400, InvalidStatusMessage), db)
          case Some(s) =>
            var updated := db.orders[k].(status := s);
            Outcome(Ok(200, updated), db.(orders := db.orders[k := updated]))
  }

  /**
   * An admin's update of a known order whose body's `status` is the code of any of the
   * choices is applied, whatever else the body holds: that order alone takes that status.
   */
  lemma EveryChoiceAccepted(db: Db, caller: User, orderId: int, data: Data, s: OrderStatus)
    requires caller.isAdmin && IndexOfOrder(db.orders, orderId).Some?
    requires Field(data, "status") == Str(StatusCode(s))
    ensures var r := UpdateOrderStatus(db, caller, orderId, data);
            && r.reply.Ok? && r.reply.value.status == s
            && (var k := IndexOfOrder(db.orders, orderId).value;
                r.db.orders == db.orders[k := db.orders[k].(status := s)])
  {
    StatusDomain(s);
  }
}

=== FILE: page_load.dfy ===
/**
 * A full page load (the browser opening a location, as after `window.location.href = ...`):
 * the route element shown first, any redirect its guard takes, and the session the
 * mount effect restores. The app as written renders once with no user before the
 * stored one is restored; `LoadIntended` is the load the guards are evidently meant to
 * see, with the stored user read before the first render.
 */
module PageLoad {

  import opened Wrappers
  import opened JsonIdentity
  import opened Session
  import Routes
  import LoginPage
  import UserSerializers
  import Store

  /** Where a page load ends: the location shown, the element rendered there, and the session. */
  datatype Landed = Landed(at: Routes.Location, shown: Routes.Element, auth: Auth)

  /** The guards and the catch-all redirect only to "/" and "/login". */
  lemma RedirectTargets(loc: Routes.Location, user: Option<Identity>)
    ensures Routes.Resolve(loc, user).Redirect? ==> Routes.Resolve(loc, user).to in {"/", "/login"}
  {
  }

  /** The location a redirect names ("/login" is ["login"], "/" is []). */
  function TargetOf(path: string): (loc: Routes.Location)
    ensures path == "/login" ==> loc == ["login"]
    ensures path == "/" ==> loc == []
  {
    if path == "/login" then ["login"] else []
  }

  /**
   * Following a redirect, if the element is one, with `user`: the target is an open page,
   * so one step ends the chain.
   */
  function Follow(loc: Routes.Location, first: Routes.Element, auth: Auth): (r: Landed)
    ensures first.Render? ==> r == Landed(loc, Routes.Resolve(loc, auth.user), auth)
    ensures first.Redirect? ==> r == Landed(TargetOf(first.to), Routes.Resolve(TargetOf(first.to), auth.user), auth)
  {
    match first
    case Render(_) => Landed(loc, Routes.Resolve(loc, auth.user), auth)
    case Redirect(to) => Landed(TargetOf(to), Routes.Resolve(TargetOf(to), auth.user), auth)
  }

  /**
   * The page load as written. The provider's state starts null, so the first render
   * resolves `loc` with no user. A guard's `<Navigate>` is a child of the provider, and
   * its effect runs before the provider's mount effect, so its redirect is taken; the
   * next render shows the target with the restored user. `None` when the stored text
   * makes the mount effect throw.
   */
  function LoadAsWritten(loc: Routes.Location, st: Storage): (r: Option<Landed>)
    ensures r.None? <==> Mount(st).None?
    ensures r.Some? ==> r.value.auth == Mount(st).value
    ensures r.Some? && Routes.Resolve(loc, None).Render? ==> r.value.at == loc
    ensures r.Some? && Routes.Resolve(loc, None).Redirect? ==> r.value.at == TargetOf(Routes.Resolve(loc, None).to)
  {
    match Mount(st)
    case None => None
    case Some(auth) => Some(Follow(loc, Routes.Resolve(loc, None), auth))
  }

  /**
   * The intended page load: the provider's state is read from storage before the first
   * render (a lazy initial state), so the guards decide with the restored user.
   */
  function LoadIntended(loc: Routes.Location, st: Storage): (r: Option<Landed>)
    ensures r.None? <==> Mount(st).None?
    ensures r.Some? ==> r.value.auth == Mount(st).value
    ensures r.Some? && Routes.Resolve(loc, r.value.auth.user).Render? ==> r.value.at == loc
    ensures r.Some? && Routes.Resolve(loc, r.value.auth.user).Redirect? ==>
              r.value.at == TargetOf(Routes.Resolve(loc, r.value.auth.user).to)
  {
    match Mount(st)
    case None => None
    case Some(auth) => Some(Follow(loc, Routes.Resolve(loc, auth.user), auth))
  }

  /** For a visitor with no stored user both loads are the same. */
  lemma SameWhenSignedOut(loc: Routes.Location, st: Storage)
    requires !HasValue(st, UserKey)
    ensures LoadAsWritten(loc, st) == LoadIntended(loc, st)
  {
  }

  /** The home page renders for everyone. */
  lemma HomeRenders(loc: Routes.Location, user: Option<Identity>)
    requires loc == []
    ensures Routes.Resolve(loc, user) == Routes.Render(Routes.Home)
  {
    assert loc == Routes.Spellings[0];
    Routes.PicksSpelling(0, user);
    assert Routes.Table[0].guard == Routes.Open;
  }

  /** The sign-in page renders for everyone. */
  lemma LoginRenders(loc: Routes.Location, user: Option<Identity>)
    requires loc == ["login"]
    ensures Routes.Resolve(loc, user) == Routes.Render(Routes.LoginPage)
  {
    assert loc == Routes.Spellings[2];
    Routes.PicksSpelling(2, user);
    assert Routes.Table[2].guard == Routes.Open;
  }

  /** The dashboard renders for an admin. */
  lemma DashboardRendersForAdmins(loc: Routes.Location, user: Option<Identity>)
    requires loc == ["admin"] && user.Some? && user.value.isAdmin
    ensures Routes.Resolve(loc, user) == Routes.Render(Routes.Dashboard)
  {
    assert loc == Routes.Spellings[9];
    Routes.PicksSpelling(9, user);
    assert Routes.Table[9].guard == Routes.AdminOnly;
  }

  /** An admin's accepted sign-in: it navigates to "/admin", and a page load restores the admin. */
  lemma AdminSignIn(a: Auth, account: Store.User, refresh: string, access: string)
    requires account.isAdmin
    ensures var reply := LoginPage.Replied(LoginPage.Received(UserSerializers.Validate(Some(account), refresh, access).value));
            var s := LoginPage.Submit(a, reply);
            && s.navigate == Some("/admin")
            && Mount(s.auth.storage) == Some(s.auth)
            && s.auth.user == Some(Identity(account.id, account.username, account.email, true))
  {
    var reply := LoginPage.Replied(LoginPage.Received(UserSerializers.Validate(Some(account), refresh, access).value));
    LoginPage.SignInEndToEnd(a, account, refresh, access);
    LoginPage.SubmitThenReload(a, reply);
  }

  /**
   * As written: an admin's sign-in sends the browser to "/admin", but that page load
   * ends on the home page, because the first render's admin guard sees no user.
   */
  lemma AdminSignInEndsHomeAsWritten(a: Auth, account: Store.User, refresh: string, access: string)
    requires account.isAdmin
    ensures var reply := LoginPage.Replied(LoginPage.Received(UserSerializers.Validate(Some(account), refresh, access).value));
            var s := LoginPage.Submit(a, reply);
            && s.navigate == Some("/admin")
            && LoadAsWritten(["admin"], s.auth.storage) == Some(Landed([], Routes.Render(Routes.Home), s.auth))
  {
    var reply := LoginPage.Replied(LoginPage.Received(UserSerializers.Validate(Some(account), refresh, access).value));
    var s := LoginPage.Submit(a, reply);
    AdminSignIn(a, account, refresh, access);
    Routes.AdminRoutesGuarded(["admin"], None);
    HomeRenders([], s.auth.user);
    assert LoadAsWritten(["admin"], s.auth.storage) == Some(Follow(["admin"], Routes.Redirect("/"), s.auth));
  }

  /**
   * Intended: the same sign-in lands on the dashboard, with the signed-in admin restored.
   */
  lemma AdminSignInLandsOnDashboard(a: Auth, account: Store.User, refresh: string, access: string)
    requires account.isAdmin
    ensures var reply := LoginPage.Replied(LoginPage.Received(UserSerializers.Validate(Some(account), refresh, access).value));
            var s := LoginPage.Submit(a, reply);
            && s.navigate == Some("/admin")
            && LoadIntended(["admin"], s.auth.storage) == Some(Landed(["admin"], Routes.Render(Routes.Dashboard), s.auth))
            && s.auth.user == Some(Identity(account.id, account.username, account.email, true))
  {
    var reply := LoginPage.Replied(LoginPage.Received(UserSerializers.Validate(Some(account), refresh, access).value));
    var s := LoginPage.Submit(a, reply);
    AdminSignIn(a, account, refresh, access);
    DashboardRendersForAdmins(["admin"], s.auth.user);
    assert LoadIntended(["admin"], s.auth.storage) == Some(Follow(["admin"], Routes.Render(Routes.Dashboard), s.auth));
  }

  /**
   * As written: reloading a user page while signed in ends on the sign-in page, with
   * the user restored there.
   */
  lemma SignedInReloadEndsOnLoginAsWritten(loc: Routes.Location, st: Storage)
    requires loc in Routes.PrivateSpellings
    requires Mount(st).Some? && Mount(st).value.user.Some?
    ensures LoadAsWritten(loc, st) == Some(Landed(["login"], Routes.Render(Routes.LoginPage), Mount(st).value))
  {
    var auth := Mount(st).value;
    Routes.PrivateRoutesGuarded(loc, None);
    LoginRenders(["login"], auth.user);
    assert LoadAsWritten(loc, st) == Some(Follow(loc, Routes.Redirect("/login"), auth));
  }

  /**
   * As written: reloading any admin page ends on the home page, whoever is signed in.
   */
  lemma AdminReloadEndsHomeAsWritten(loc: Routes.Location, st: Storage)
    requires loc in Routes.AdminSpellings
    requires Mount(st).Some?
    ensures var r := LoadAsWritten(loc, st);
            r.Some? && r.value.at == [] && r.value.shown == Routes.Render(Routes.Home)
  {
    var auth := Mount(st).value;
    Routes.AdminRoutesGuarded(loc, None);
    HomeRenders([], auth.user);
    assert LoadAsWritten(loc, st) == Some(Follow(loc, Routes.Redirect("/"), auth));
  }

  /**
   * Intended: reloading a user page while signed in stays on it.
   */
  lemma SignedInReloadStays(loc: Routes.Location, st: Storage)
    requires loc in Routes.PrivateSpellings
    requires Mount(st).Some? && Mount(st).value.user.Some?
    ensures var r := LoadIntended(loc, st);
            r.Some? && r.value.at == loc && r.value.shown.Render?
  {
    var auth := Mount(st).value;
    Routes.PrivateRoutesGuarded(loc, auth.user);
    assert LoadIntended(loc, st) == Some(Follow(loc, Routes.Resolve(loc, auth.user), auth));
  }

  /**
   * Intended: reloading an admin page while signed in stays on it exactly when the
   * restored user is an admin; anyone else lands on the home page.
   */
  lemma AdminReloadStaysForAdmins(loc: Routes.Location, st: Storage)
    requires loc in Routes.AdminSpellings
    requires Mount(st).Some? && Mount(st).value.user.Some?
    ensures var r := LoadIntended(loc, st);
            && r.Some?
            && (r.value.at == loc <==> Mount(st).value.user.value.isAdmin)
            && (!Mount(st).value.user.value.isAdmin ==> r.value.at == [])
  {
    var auth := Mount(st).value;
    Routes.AdminRoutesGuarded(loc, auth.user);
    var first := Routes.Resolve(loc, auth.user);
    assert LoadIntended(loc, st) == Some(Follow(loc, first, auth));
    if !first.Render? {
      assert Follow(loc, first, auth).at == [];
      assert loc != [];
    }
  }
}

=== FILE: permissions.dfy ===
/**
 * The catalogue's permission rules: the two custom classes, and the framework's
 * `IsAuthenticatedOrReadOnly` they are combined with. A caller is anonymous or a
 * signed-in account; HTTP methods are the upper-case names the framework uses.
 */
module Permissions {

  /** `SAFE_METHODS`. */
  const SafeMethods: set<string> := {"GET", "HEAD", "OPTIONS"}

  datatype Caller = Anonymous | Member(id: int, isAdmin: bool)

  predicate Authenticated(c: Caller) {
    c.Member?
  }

  predicate AuthenticatedAdmin(c: Caller) {
    c.Member? && c.isAdmin
  }

  /** `IsAdminOrReadOnly.has_permission`. */
  predicate AdminOrReadOnly(verb: string, caller: Caller) {
    verb in SafeMethods || AuthenticatedAdmin(caller)
  }

  /**
   * `IsAdminOrCreator.has_object_permission` on a product created by `createdBy`.
   * The class does not override `has_permission`, which therefore grants everything.
   */
  predicate AdminOrCreator(verb: string, caller: Caller, createdBy: int) {
    verb in SafeMethods || (caller.Member? && (caller.isAdmin || createdBy == caller.id))
  }

  /** The framework's `IsAuthenticatedOrReadOnly` (it has no object-level rule). */
  predicate AuthenticatedOrReadOnly(verb: string, caller: Caller) {
    verb in SafeMethods || Authenticated(caller)
  }

  /** Reading is open to everyone, anonymous callers included, under every class. */
  lemma ReadsAreOpen(verb: string, caller: Caller, createdBy: int)
    requires verb in SafeMethods
    ensures AdminOrReadOnly(verb, caller) && AdminOrCreator(verb, caller, createdBy)
    ensures AuthenticatedOrReadOnly(verb, caller)
  {
  }

  /** A non-safe method passes `IsAdminOrReadOnly` exactly for a signed-in admin. */
  lemma WritesNeedAdmin(verb: string, caller: Caller)
    requires verb !in SafeMethods
    ensures AdminOrReadOnly(verb, caller) <==> caller.Member? && caller.isAdmin
  {
  }

  /** A non-safe method on a product passes exactly for a signed-in admin or its creator. */
  lemma WritesNeedAdminOrCreator(verb: string, caller: Caller, createdBy: int)
    requires verb !in SafeMethods
    ensures AdminOrCreator(verb, caller, createdBy) <==> caller.Member? && (caller.isAdmin || caller.id == createdBy)
  {
  }

  /** Neither custom class lets an anonymous caller use a non-safe method. */
  lemma AnonymousNeverWrites(verb: string, createdBy: int)
    requires verb !in SafeMethods
    ensures !AdminOrReadOnly(verb, Anonymous) && !AdminOrCreator(verb, Anonymous, createdBy)
    ensures !AuthenticatedOrReadOnly(verb, Anonymous)
  {
  }

  /** A signed-in admin passes both custom classes with every method on every product. */
  lemma AdminsPassEverything(verb: string, id: int, createdBy: int)
    ensures AdminOrReadOnly(verb, Member(id, true)) && AdminOrCreator(verb, Member(id, true), createdBy)
  {
  }

  /** Whatever `IsAdminOrReadOnly` grants, `IsAdminOrCreator` grants too, on any product. */
  lemma AdminOrReadOnlyIsStricter(verb: string, caller: Caller, createdBy: int)
    ensures AdminOrReadOnly(verb, caller) ==> AdminOrCreator(verb, caller, createdBy)
  {
  }
}

=== FILE: product_form.dfy ===
/**
 * The product form component: its field map, the edit pre-fill, input changes, the
 * request a submit sends, and what the caller and the error area see afterwards.
 */
module ProductForm {

  import opened Wrappers
  import opened ProductPayload
  import Decimal

  /** The form state: field name to value. */
  type Fields = map<string, FieldValue>

  /** The six fields the form always holds. */
  const FieldNames: set<string> := {"title", "description", "price", "category_id", "image", "is_active"}

  const BlankFields: Fields := map[
    "title" := Text(""), "description" := Text(""), "price" := Text(""),
    "category_id" := Text(""), "image" := NullValue, "is_active" := Flag(true)
  ]

  /** The product being edited, as the list hands it over (`category` nested, with its id). */
  datatype Editable = Editable(id: int, title: string, description: string, price: string,
                               categoryId: int, isActive: bool, image: Option<string>)

  /** The edit effect: the product's own values, the nested category's id, and no file. */
  function Prefill(p: Editable): (f: Fields)
    ensures f.Keys == FieldNames
    ensures f["title"] == Text(p.title) && f["description"] == Text(p.description) && f["price"] == Text(p.price)
    ensures f["category_id"] == Number(p.categoryId) && f["is_active"] == Flag(p.isActive)
    ensures f["image"] == NullValue
  {
    map["title" := Text(p.title), "description" := Text(p.description), "price" := Text(p.price),
        "category_id" := Number(p.categoryId), "is_active" := Flag(p.isActive), "image" := NullValue]
  }

  /** The form's starting state: blank, or pre-filled when a product is given. */
  function Start(product: Option<Editable>): (f: Fields)
    ensures f.Keys == FieldNames
    ensures product.None? ==> f == BlankFields
    ensures product.Some? ==> f == Prefill(product.value)
  {
    match product
    case None => BlankFields
    case Some(p) => Prefill(p)
  }

  /** An input's change event: its name, its type, and its `value` and `checked`. */
  datatype Change = Change(name: string, inputType: string, value: string, checked: bool)

  /** `handleChange`: a checkbox stores `checked`, any other input `value`, under the input's name. */
  function HandleChange(f: Fields, e: Change): (r: Fields)
    ensures r.Keys == f.Keys + {e.name}
    ensures e.inputType == "checkbox" ==> r[e.name] == Flag(e.checked)
    ensures e.inputType != "checkbox" ==> r[e.name] == Text(e.value)
    ensures forall k :: k in f && k != e.name ==> r[k] == f[k]
  {
    f[e.name := if e.inputType == "checkbox" then Flag(e.checked) else Text(e.value)]
  }

  /** Changes to the form's own inputs keep exactly the six fields. */
  lemma ChangesKeepFields(f: Fields, e: Change)
    requires f.Keys == FieldNames && e.name in FieldNames
    ensures HandleChange(f, e).Keys == FieldNames
  {
  }

  /** `handleImageChange` with a chosen file. */
  function ChooseImage(f: Fields, fileName: string): (r: Fields)
    ensures r.Keys == f.Keys + {"image"} && r["image"] == FileValue(fileName)
    ensures forall k :: k in f && k != "image" ==> r[k] == f[k]
  {
    f["image" := FileValue(fileName)]
  }

  /** A field's value as read from the state (`undefined` when absent). */
  function Value(f: Fields, name: string): (v: FieldValue)
    ensures name in f ==> v == f[name]
    ensures name !in f ==> v == Undefined
  {
    if name in f then f[name] else Undefined
  }

  /** `formData.image && typeof formData.image !== "string"`. */
  predicate SendsImage(f: Fields) {
    Truthy(Value(f, "image")) && !Value(f, "image").Text?
  }

  /** The multipart parts of a submit: the five fields, then the image when `SendsImage`. */
  function SubmitParts(f: Fields): (parts: seq<Part>)
    ensures |parts| >= 5 && Names(parts)[..5] == AlwaysSent
    ensures |parts| == 6 <==> SendsImage(f)
    ensures |parts| == 5 <==> !SendsImage(f)
    ensures forall i :: 0 <= i < 5 ==> parts[i] == Append(AlwaysSent[i], Value(f, AlwaysSent[i]))
    ensures SendsImage(f) ==> parts[5] == Append("image", Value(f, "image"))
  {
    var always := [Append("title", Value(f, "title")), Append("description", Value(f, "description")),
                   Append("price", Value(f, "price")), Append("category_id", Value(f, "category_id")),
                   Append("is_active", Value(f, "is_active"))];
    assert Names(always) == AlwaysSent;
    var parts := if SendsImage(f) then always + [Append("image", Value(f, "image"))] else always;
    assert Names(parts)[..5] == Names(always);
    parts
  }

  /** A chosen file is always sent; the pre-filled null never is. */
  lemma ImageOnlyWhenChosen(f: Fields, fileName: string, p: Editable)
    ensures SendsImage(ChooseImage(f, fileName))
    ensures !SendsImage(Prefill(p)) && !SendsImage(BlankFields)
  {
  }

  /** The call a submit makes: PATCH the given product, or POST a new one. */
  function SubmitCall(product: Option<Editable>, f: Fields): (c: ApiCall)
    ensures c.body == Multipart(SubmitParts(f))
    ensures product.Some? <==> c.verb == "PATCH"
    ensures product.Some? ==> c.url == DetailUrl(product.value.id)
    ensures product.None? ==> c.verb == "POST" && c.url == ListUrl
  {
    SaveCall(match product case Some(p) => Some(p.id) case None => None, SubmitParts(f))
  }

  /**
   * Editing a product and submitting without changes PATCHes it with its own values:
   * the category as its id's text, the flag as "true"/"false", and no image part.
   */
  lemma UnchangedEditResends(p: Editable)
    ensures var c := SubmitCall(Some(p), Start(Some(p)));
            && c == ApiCall("PATCH", DetailUrl(p.id), c.body)
            && c.body.parts == [Part("title", TextPart(p.title)), Part("description", TextPart(p.description)),
                                Part("price", TextPart(p.price)), Part("category_id", TextPart(Decimal.IntText(p.categoryId))),
                                Part("is_active", TextPart(if p.isActive then "true" else "false"))]
  {
    var f := Start(Some(p));
    var parts := SubmitParts(f);
    assert forall i :: 0 <= i < 5 ==> parts[i] == Append(AlwaysSent[i], Value(f, AlwaysSent[i]));
    assert parts[0] == Part("title", TextPart(p.title));
    assert parts[3] == Part("category_id", TextPart(Decimal.IntText(p.categoryId)));
  }

  /** An error body: field name to message. */
  type Errors = map<string, string>

  const SaveFailed: Errors := map["general" := "Error saving product"]

  /** What the server answered a submit: the saved product's data, or an error with an optional body. */
  datatype SaveReply<D> = Saved(data: D) | Failed(body: Option<Errors>)

  /** After the submit: the data handed to `onSubmit` (only on success) and the errors shown. */
  datatype Settled<D> = Settled(delivered: Option<D>, errors: Errors)

  /**
   * The errors are cleared when submitting; a success delivers the response data, a
   * failure shows the error body, or a general message when there is none.
   */
  function Settle<D>(reply: SaveReply<D>): (s: Settled<D>)
    ensures s.delivered.Some? <==> reply.Saved?
    ensures reply.Saved? ==> s == Settled(Some(reply.data), map[])
    ensures reply.Failed? && reply.body.Some? ==> s.errors == reply.body.value
    ensures reply.Failed? && reply.body.None? ==> s.errors == SaveFailed
  {
    match reply
    case Saved(data) => Settled(Some(data), map[])
    case Failed(body) => Settled(None, body.GetOr(SaveFailed))
  }
}

=== FILE: product_payload.dfy ===
/**
 * What the product forms send: JavaScript field values, how `FormData.append` turns
 * them into multipart parts, and the product API calls the admin pages make.
 */
module ProductPayload {

  import opened Wrappers
  import Decimal
  import Permissions
  import ProductViews
  import Store

  /** A form field's JavaScript value; a chosen file is known by its name. */
  datatype FieldValue =
    | Text(s: string)
    | Flag(b: bool)
    | Number(n: int)
    | FileValue(fileName: string)
    | ObjectValue
    | NullValue
    | Undefined

  /** JavaScript truthiness of a field value. */
  predicate Truthy(v: FieldValue) {
    match v
    case Text(s) => s != ""
    case Flag(b) => b
    case Number(n) => n != 0
    case FileValue(_) => true
    case ObjectValue => true
    case NullValue => false
    case Undefined => false
  }

  /** `String(v)` for a value that is not a file. */
  function FormText(v: FieldValue): (t: string)
    requires !v.FileValue?
    ensures v.Text? ==> t == v.s
    ensures v.Flag? ==> t == (if v.b then "true" else "false")
    ensures v.Number? ==> t == Decimal.IntText(v.n)
  {
    match v
    case Text(s) => s
    case Flag(b) => if b then "true" else "false"
    case Number(n) => Decimal.IntText(n)
    case ObjectValue => "[object Object]"
    case NullValue => "null"
    case Undefined => "undefined"
  }

  datatype PartValue = TextPart(text: string) | FilePart(fileName: string)

  datatype Part = Part(name: string, value: PartValue)

  /** `FormData.append(name, v)`: a file stays a file, anything else becomes its text. */
  function Append(name: string, v: FieldValue): (p: Part)
    ensures p.name == name
    ensures v.FileValue? <==> p.value.FilePart?
    ensures v.FileValue? ==> p.value.fileName == v.fileName
    ensures !v.FileValue? ==> p.value == TextPart(FormText(v))
  {
    match v
    case FileValue(f) => Part(name, FilePart(f))
    case _ => Part(name, TextPart(FormText(v)))
  }

  /** The five fields both product forms always send, in order. */
  const AlwaysSent: seq<string> := ["title", "description", "price", "category_id", "is_active"]

  /** The names of a part list, in order. */
  function Names(parts: seq<Part>): (r: seq<string>)
    ensures |r| == |parts| && forall i :: 0 <= i < |parts| ==> r[i] == parts[i].name
  {
    if |parts| == 0 then [] else [parts[0].name] + Names(parts[1..])
  }

  datatype Payload = Multipart(parts: seq<Part>) | Json(fields: map<string, FieldValue>) | NoBody

  datatype ApiCall = ApiCall(verb: string, url: string, body: Payload)

  function DetailUrl(id: int): string {
    "products/" + Decimal.IntText(id) + "/"
  }

  const ListUrl: string := "products/"

  /** Saving a product: PATCH its detail URL when editing one, POST the list URL otherwise. */
  function SaveCall(editing: Option<int>, parts: seq<Part>): (c: ApiCall)
    ensures c.body == Multipart(parts)
    ensures editing.Some? <==> c.verb == "PATCH"
    ensures editing.Some? ==> c.url == DetailUrl(editing.value)
    ensures editing.None? ==> c == ApiCall("POST", ListUrl, Multipart(parts))
  {
    match editing
    case Some(id) => ApiCall("PATCH", DetailUrl(id), Multipart(parts))
    case None => ApiCall("POST", ListUrl, Multipart(parts))
  }

  /** The view-set action a call names under the framework's default router. */
  function ActionOf(c: ApiCall): string {
    if c.url == ListUrl then (if c.verb == "POST" then "create" else "list")
    else if c.verb == "PATCH" then "partial_update"
    else if c.verb == "PUT" then "update"
    else if c.verb == "DELETE" then "destroy"
    else "retrieve"
  }

  /** A detail URL is never the list URL. */
  lemma DetailUrlIsNotList(id: int)
    ensures DetailUrl(id) != ListUrl
  {
    assert |DetailUrl(id)| > |ListUrl| by {
      assert |Decimal.IntText(id)| > 0;
    }
  }

  /**
   * Across both sides: a PATCH or DELETE an admin page sends for product `p` gets past
   * the endpoint's permission checks exactly when the caller is a signed-in admin or
   * the product's creator.
   */
  lemma ChangeCallsNeedAdminOrCreator(c: ApiCall, p: Store.Product, caller: Permissions.Caller)
    requires (c.verb == "PATCH" || c.verb == "DELETE") && c.url == DetailUrl(p.id)
    ensures ProductViews.ViewAllows(ActionOf(c), c.verb, caller) && ProductViews.ObjectAllows(ActionOf(c), c.verb, caller, p)
            <==> caller.Member? && (caller.isAdmin || caller.id == p.createdBy)
  {
    DetailUrlIsNotList(p.id);
    ProductViews.ChangesNeedAdminOrCreator(ActionOf(c), c.verb, caller, p);
  }
}

=== FILE: product_views.dfy ===
/**
 * The product endpoint's own rules: which products a listing starts from, which
 * permission class each action uses, and who is recorded as a new product's creator.
 * Query parameters are a string map; the product list is in the catalogue's order.
 */
module ProductViews {

  import opened Wrappers
  import opened RequestData
  import opened Store
  import opened Permissions
  import Seqs
  import Decimal

  type Params = map<string, string>

  /** `query_params.get(key)` as an `if` reads it: present and not empty. */
  function Param(params: Params, key: string): (r: Option<string>)
    ensures r.Some? <==> key in params && params[key] != ""
    ensures r.Some? ==> r.value == params[key]
  {
    if key in params && params[key] != "" then Some(params[key]) else None
  }

  /**
   * The listing before the category filter: one creator's products (inactive ones
   * included) when `created_by` is given, everything for a signed-in admin, otherwise
   * the active products. `None` where the lookup raises because the id is not a number.
   */
  function BaseQueryset(products: seq<Product>, caller: Caller, params: Params): Option<seq<Product>> {
    match Param(params, "created_by")
    case Some(text) =>
      (match ParseInt(text)
       case None => None
       case Some(creator) => Some(Seqs.Filter(products, (p: Product) => p.createdBy == creator)))
    case None =>
      if AuthenticatedAdmin(caller) then Some(products)
      else Some(Seqs.Filter(products, (p: Product) => p.isActive))
  }

  /** `get_queryset`: the base listing, narrowed to one category when `category_id` is given. */
  function Queryset(products: seq<Product>, caller: Caller, params: Params): (r: Option<seq<Product>>)
    ensures r.Some? ==> BaseQueryset(products, caller, params).Some?
    ensures r.Some? ==> Seqs.IsSubsequence(r.value, BaseQueryset(products, caller, params).value)
    ensures r.Some? && Param(params, "category_id").Some? ==>
              forall i :: 0 <= i < |r.value| ==> ParseInt(Param(params, "category_id").value) == Some(r.value[i].category)
    ensures r.Some? && Param(params, "category_id").Some? ==>
              forall i :: 0 <= i < |BaseQueryset(products, caller, params).value|
                && ParseInt(Param(params, "category_id").value) == Some(BaseQueryset(products, caller, params).value[i].category)
                ==> BaseQueryset(products, caller, params).value[i] in r.value
    ensures r.None? <==> BaseQueryset(products, caller, params).None?
                         || (Param(params, "category_id").Some? && ParseInt(Param(params, "category_id").value).None?)
    ensures Param(params, "category_id").None? ==> r == BaseQueryset(products, caller, params)
  {
    match BaseQueryset(products, caller, params)
    case None => None
    case Some(base) =>
      match Param(params, "category_id")
      case None =>
        Seqs.SubsequenceOfSelf(base);
        Some(base)
      case Some(text) =>
        match ParseInt(text)
        case None => None
        case Some(category) => Some(Seqs.Filter(base, (p: Product) => p.category == category))
  }

  /** With `created_by`, the listing is exactly that creator's products, whoever asks. */
  lemma CreatorListingIsExact(products: seq<Product>, caller: Caller, creator: int)
    ensures var r := Queryset(products, caller, map["created_by" := Decimal.IntText(creator)]);
            && r.Some?
            && (forall i :: 0 <= i < |r.value| ==> r.value[i].createdBy == creator && r.value[i] in products)
            && (forall i :: 0 <= i < |products| && products[i].createdBy == creator ==> products[i] in r.value)
  {
    ParseIntText(creator);
    assert Decimal.IntText(creator) != "" by {
      assert |Decimal.IntText(creator)| > 0;
    }
  }

  /** Without `created_by`, a signed-in admin lists every product, inactive ones included. */
  lemma AdminListsEverything(products: seq<Product>, id: int)
    ensures Queryset(products, Member(id, true), map[]) == Some(products)
  {
  }

  /** Without `created_by`, anyone but a signed-in admin lists exactly the active products. */
  lemma OthersListActive(products: seq<Product>, caller: Caller)
    requires !AuthenticatedAdmin(caller)
    ensures var r := Queryset(products, caller, map[]);
            && r.Some?
            && (forall i :: 0 <= i < |r.value| ==> r.value[i].isActive && r.value[i] in products)
            && (forall i :: 0 <= i < |products| && products[i].isActive ==> products[i] in r.value)
  {
  }

  datatype PermissionClass = AdminOrCreatorClass | AuthenticatedOrReadOnlyClass

  const WriteActions: set<string> := {"create", "update", "partial_update", "destroy"}

  /** `get_permissions`. */
  function PermissionFor(action: string): (c: PermissionClass)
    ensures action in WriteActions ==> c == AdminOrCreatorClass
    ensures action !in WriteActions ==> c == AuthenticatedOrReadOnlyClass
  {
    if action in WriteActions then AdminOrCreatorClass else AuthenticatedOrReadOnlyClass
  }

  /** The request-level check of the action's class. */
  predicate ViewAllows(action: string, verb: string, caller: Caller) {
    match PermissionFor(action)
    case AdminOrCreatorClass => true
    case AuthenticatedOrReadOnlyClass => AuthenticatedOrReadOnly(verb, caller)
  }

  /** The object-level check of the action's class, made when one product is fetched. */
  predicate ObjectAllows(action: string, verb: string, caller: Caller, product: Product) {
    match PermissionFor(action)
    case AdminOrCreatorClass => AdminOrCreator(verb, caller, product.createdBy)
    case AuthenticatedOrReadOnlyClass => true
  }

  /** Changing or deleting a product passes both checks exactly for a signed-in admin or its creator. */
  lemma ChangesNeedAdminOrCreator(action: string, verb: string, caller: Caller, product: Product)
    requires action in {"update", "partial_update", "destroy"} && verb !in SafeMethods
    ensures ViewAllows(action, verb, caller) && ObjectAllows(action, verb, caller, product)
            <==> caller.Member? && (caller.isAdmin || caller.id == product.createdBy)
  {
  }

  /** Listing and reading a product is open to everyone. */
  lemma ReadingIsOpen(action: string, caller: Caller, product: Product)
    requires action in {"list", "retrieve"}
    ensures ViewAllows(action, "GET", caller) && ObjectAllows(action, "GET", caller, product)
  {
  }

  /**
   * `create` uses `IsAdminOrCreator`, whose request-level check grants everything, so an
   * anonymous POST gets past the permission layer (and then fails in `perform_create`).
   */
  lemma CreatePassesPermissionLayer(caller: Caller)
    ensures ViewAllows("create", "POST", caller)
    ensures !AuthenticatedOrReadOnly("POST", Anonymous)
  {
  }

  /**
   * `perform_create`: the validated product is saved with the caller as its creator and
   * the next id. An anonymous caller cannot be stored as creator; the save raises (`None`).
   */
  function PerformCreate(caller: Caller, draft: Product, newId: int): (r: Option<Product>)
    ensures r.Some? <==> caller.Member?
    ensures r.Some? ==> r.value.createdBy == caller.id && r.value.id == newId
    ensures r.Some? ==> r.value.(id := draft.id, createdBy := draft.createdBy) == draft
  {
    match caller
    case Anonymous => None
    case Member(id, _) => Some(draft.(id := newId, createdBy := id))
  }
}

=== FILE: request_data.dfy ===
/**
 * The values the backend views read out of a request body (`request.data`) and the
 * replies they give. Python's truthiness, `dict.get` and `int()` are written out here.
 */
module RequestData {

  import opened Wrappers
  import Decimal

  /**
   * A JSON value as the views see it. `Num` is a number written without a fraction;
   * `Frac` one written with a fraction, `digits` × 10^-`scale` (2.5 is `Frac(25, 1)`),
   * which the parser turns into a float. `Composite` is a list or object of `size` entries.
   */
  datatype Value = Null | Bool(b: bool) | Num(n: int) | Frac(digits: int, scale: nat) | Str(s: string) | Composite(size: nat)

  type Data = map<string, Value>

  /** `request.data.get(key)`: a missing key reads as `None`, like an explicit null. */
  function Field(data: Data, key: string): (v: Value)
    ensures key !in data ==> v == Null
    ensures key in data ==> v == data[key]
  {
    if key in data then data[key] else Null
  }

  /** `request.data.get(key, default)`: the default only for a missing key, not for null. */
  function FieldOr(data: Data, key: string, default: Value): (v: Value)
    ensures key !in data ==> v == default
    ensures key in data ==> v == data[key]
  {
    if key in data then data[key] else default
  }

  /** Python truthiness: `None`, `False`, `0`, `""` and empty containers are false. */
  predicate Truthy(v: Value) {
    match v
    case Null => false
    case Bool(b) => b
    case Num(n) => n != 0
    case Frac(digits, _) => digits != 0
    case Str(s) => s != ""
    case Composite(size) => size > 0
  }

  /** `int(s)` of a string: an optional `-` followed by decimal digits, and nothing else. */
  function ParseInt(s: string): (r: Option<int>)
    ensures r.Some? ==> |s| > 0 && (s[0] == '-' || Decimal.IsDigit(s[0]))
  {
    match Decimal.ReadInt(s)
    case Some((n, rest)) => if rest == "" then Some(n) else None
    case None => None
  }

  /** `int(str(n)) == n`. */
  lemma ParseIntText(n: int)
    ensures ParseInt(Decimal.IntText(n)) == Some(n)
  {
    Decimal.IntTextRoundTrip(n, "");
    assert Decimal.IntText(n) + "" == Decimal.IntText(n);
  }

  function Pow10(k: nat): (p: nat)
    ensures p >= 1
  {
    if k == 0 then 1 else 10 * Pow10(k - 1)
  }

  /** `int(x)` of a float `digits` × 10^-`scale`: the fraction is cut off, toward zero. */
  function Truncate(digits: int, scale: nat): (r: int)
    ensures digits >= 0 ==> r >= 0 && r * Pow10(scale) <= digits < (r + 1) * Pow10(scale)
    ensures digits < 0 ==> r <= 0 && -r * Pow10(scale) <= -digits < (-r + 1) * Pow10(scale)
  {
    var p := Pow10(scale);
    var a := if digits >= 0 then digits else -digits;
    DivisionBounds(a, p);
    if digits >= 0 then a / p else -(a / p)
  }

  lemma DivisionBounds(a: nat, p: nat)
    requires p >= 1
    ensures a / p >= 0 && (a / p) * p <= a < (a / p + 1) * p
  {
    var q, m := a / p, a % p;
    assert q * p + m == a && 0 <= m < p;
    if q < 0 {
      NegativeTimes(q, p);
    }
    MultiplySuccessor(q, p);
  }

  lemma NegativeTimes(q: int, p: int)
    requires q < 0 && p >= 1
    ensures q * p <= -p
  {
  }

  lemma MultiplySuccessor(q: int, p: int)
    ensures (q + 1) * p == q * p + p
  {
  }

  /** Python's `int(v)`; `None` where it raises (`TypeError` or `ValueError`). */
  function IntOf(v: Value): (r: Option<int>)
    ensures v.Num? ==> r == Some(v.n)
    ensures v.Frac? ==> r == Some(Truncate(v.digits, v.scale))
    ensures v.Bool? ==> r == Some(if v.b then 1 else 0)
    ensures v.Null? || v.Composite? ==> r.None?
    ensures v.Str? ==> r == ParseInt(v.s)
  {
    match v
    case Null => None
    case Bool(b) => Some(if b then 1 else 0)
    case Num(n) => Some(n)
    case Frac(digits, scale) => Some(Truncate(digits, scale))
    case Str(s) => ParseInt(s)
    case Composite(_) => None
  }

  /**
   * What a view answers: a success body with its status, an error body `{"error": ...}`
   * with its status, or an exception the view does not catch (the framework's 500 page).
   */
  datatype Reply<T> = Ok(status: nat, value: T) | Refused(status: nat, error: string) | Raised {
    /** The HTTP status the client sees. */
    function Status(): (s: nat)
      ensures Ok? || Refused? ==> s == status
      ensures Raised? ==> s == 500
    {
      match this
      case Ok(s, _) => s
      case Refused(s, _) => s
      case Raised => 500
    }
  }
}

=== FILE: routes.dfy ===
/**
 * Route authorisation: the two guards and the application's route table.
 * A guard is a pure function of the in-memory user at navigation time.
 */
module Routes {

  import opened Wrappers
  import opened JsonIdentity

  datatype Page =
    | Home | ProductDetail | LoginPage | Register
    | CartPage | CheckoutPage | OrdersPage | MyProducts | ListProduct
    | Dashboard | ManageProducts | ManageCategories | ManageOrders

  datatype Element = Render(page: Page) | Redirect(to: string)

  datatype Guard = Open | Private | AdminOnly

  /** A pattern segment: literal text, or a `:name` parameter that matches any non-empty segment. */
  datatype Seg = Lit(text: string) | Param(name: string)

  /** A location is the list of its path's segments: "/" is [], "/admin/orders" is ["admin", "orders"]. */
  type Location = seq<string>

  datatype Route = Route(pattern: seq<Seg>, page: Page, guard: Guard)

  /** `PrivateRoute`: the child when a user is present, else a redirect to the sign-in view. */
  function PrivateRoute(user: Option<Identity>, child: Element): (e: Element)
    ensures user.Some? ==> e == child
    ensures user.None? ==> e == Redirect("/login")
  {
    if user.Some? then child else Redirect("/login")
  }

  /** `AdminRoute`: the child only for a user flagged admin, else a redirect to the landing view. */
  function AdminRoute(user: Option<Identity>, child: Element): (e: Element)
    ensures user.Some? && user.value.isAdmin ==> e == child
    ensures !(user.Some? && user.value.isAdmin) ==> e == Redirect("/")
  {
    if user.Some? && user.value.isAdmin then child else Redirect("/")
  }

  function Guarded(g: Guard, user: Option<Identity>, child: Element): Element {
    match g
    case Open => child
    case Private => PrivateRoute(user, child)
    case AdminOnly => AdminRoute(user, child)
  }

  /** Whatever the admin guard lets through, the private guard lets through as well. */
  lemma AdminAdmitsOnlyWhatPrivateAdmits(user: Option<Identity>, child: Element)
    requires child.Render?
    ensures AdminRoute(user, child) == child ==> PrivateRoute(user, child) == child
  {
  }

  /** The route table, in declaration order. */
  const Table: seq<Route> := [
    Route([], Home, Open),
    Route([Lit("product"), Param("id")], ProductDetail, Open),
    Route([Lit("login")], LoginPage, Open),
    Route([Lit("register")], Register, Open),
    Route([Lit("cart")], CartPage, Private),
    Route([Lit("checkout")], CheckoutPage, Private),
    Route([Lit("orders")], OrdersPage, Private),
    Route([Lit("my-products")], MyProducts, Private),
    Route([Lit("my-products"), Lit("list")], ListProduct, Private),
    Route([Lit("admin")], Dashboard, AdminOnly),
    Route([Lit("admin"), Lit("products")], ManageProducts, AdminOnly),
    Route([Lit("admin"), Lit("categories")], ManageCategories, AdminOnly),
    Route([Lit("admin"), Lit("orders")], ManageOrders, AdminOnly)
  ]

  predicate SegMatches(p: Seg, s: string) {
    match p
    case Lit(t) => t == s
    case Param(_) => s != ""
  }

  /** A pattern matches a location with the same number of segments, each matching. */
  predicate Matches(pattern: seq<Seg>, loc: Location) {
    |pattern| == |loc| && forall i :: 0 <= i < |loc| ==> SegMatches(pattern[i], loc[i])
  }

  /** A pattern of literal segments only, and the location it spells. */
  predicate IsLiteral(pattern: seq<Seg>) {
    forall i :: 0 <= i < |pattern| ==> pattern[i].Lit?
  }

  function Spelled(pattern: seq<Seg>): (loc: Location)
    requires IsLiteral(pattern)
    ensures |loc| == |pattern| && forall i :: 0 <= i < |loc| ==> loc[i] == pattern[i].text
  {
    if |pattern| == 0 then [] else [pattern[0].text] + Spelled(pattern[1..])
  }

  /** A literal pattern matches exactly the location it spells. */
  lemma LiteralMatchesItself(pattern: seq<Seg>, loc: Location)
    requires IsLiteral(pattern)
    ensures Matches(pattern, loc) <==> loc == Spelled(pattern)
  {
    if Matches(pattern, loc) {
      assert forall i :: 0 <= i < |loc| ==> loc[i] == Spelled(pattern)[i];
    }
  }

  /** The first route whose pattern matches. */
  function FindRoute(routes: seq<Route>, loc: Location): (r: Option<Route>)
    ensures r.Some? ==> r.value in routes && Matches(r.value.pattern, loc)
    ensures r.None? <==> forall i :: 0 <= i < |routes| ==> !Matches(routes[i].pattern, loc)
  {
    if |routes| == 0 then None
    else if Matches(routes[0].pattern, loc) then Some(routes[0])
    else FindRoute(routes[1..], loc)
  }

  lemma {:induction false} FirstMatch(routes: seq<Route>, loc: Location, k: nat)
    requires k < |routes| && Matches(routes[k].pattern, loc)
    requires forall i :: 0 <= i < k ==> !Matches(routes[i].pattern, loc)
    ensures FindRoute(routes, loc) == Some(routes[k])
    decreases k
  {
    if k > 0 {
      assert forall i :: 0 <= i < k - 1 ==> routes[1..][i] == routes[i + 1];
      FirstMatch(routes[1..], loc, k - 1);
    }
  }

  /**
   * What the router shows at `loc`. The table's patterns never overlap (`PatternsDisjoint`),
   * so the first match is the only one; a location nothing matches hits the `*` route.
   */
  function Resolve(loc: Location, user: Option<Identity>): Element {
    match FindRoute(Table, loc)
    case None => Redirect("/")
    case Some(r) => Guarded(r.guard, user, Render(r.page))
  }

  /** Every pattern of the table except the product one is literal. */
  lemma LiteralPatterns()
    ensures forall i :: 0 <= i < |Table| && i != 1 ==> IsLiteral(Table[i].pattern)
  {
  }

  /** The literal locations of the table, in table order (the product entry left as []). */
  const Spellings: seq<Location> := [
    [], [], ["login"], ["register"], ["cart"], ["checkout"], ["orders"], ["my-products"],
    ["my-products", "list"], ["admin"], ["admin", "products"], ["admin", "categories"], ["admin", "orders"]
  ]

  lemma SpellingsOfTable()
    ensures |Spellings| == |Table|
    ensures forall i :: 0 <= i < |Table| && i != 1 ==> IsLiteral(Table[i].pattern) && Spelled(Table[i].pattern) == Spellings[i]
  {
    forall i | 0 <= i < |Table| && i != 1
      ensures IsLiteral(Table[i].pattern) && Spelled(Table[i].pattern) == Spellings[i]
    {
      var loc := Spelled(Table[i].pattern);
      assert |loc| == |Spellings[i]|;
      assert forall j :: 0 <= j < |loc| ==> loc[j] == Spellings[i][j];
    }
  }

  /** Route `i` matches `loc` exactly when `loc` is its spelling (or a product location, for route 1). */
  lemma MatchAt(i: nat, loc: Location)
    requires i < |Table|
    ensures i != 1 ==> (Matches(Table[i].pattern, loc) <==> loc == Spellings[i])
    ensures i == 1 ==> (Matches(Table[i].pattern, loc) <==> |loc| == 2 && loc[0] == "product" && loc[1] != "")
  {
    SpellingsOfTable();
    if i != 1 {
      LiteralMatchesItself(Table[i].pattern, loc);
    }
  }

  /** No location is matched by two routes of the table, so declaration order does not matter. */
  lemma PatternsDisjoint(i: nat, j: nat, loc: Location)
    requires i < j < |Table|
    ensures !(Matches(Table[i].pattern, loc) && Matches(Table[j].pattern, loc))
  {
    MatchAt(i, loc);
    MatchAt(j, loc);
  }

  /** Route `k` is the one the router picks at every location it matches. */
  lemma Picks(k: nat, loc: Location)
    requires k < |Table| && Matches(Table[k].pattern, loc)
    ensures FindRoute(Table, loc) == Some(Table[k])
  {
    forall i | 0 <= i < k
      ensures !Matches(Table[i].pattern, loc)
    {
      PatternsDisjoint(i, k, loc);
    }
    FirstMatch(Table, loc, k);
  }

  const PublicSpellings: set<Location> := {[], ["login"], ["register"]}
  const PrivateSpellings: set<Location> := {["cart"], ["checkout"], ["orders"], ["my-products"], ["my-products", "list"]}
  const AdminSpellings: set<Location> := {["admin"], ["admin", "products"], ["admin", "categories"], ["admin", "orders"]}

  /** The router picks route `k` at the location route `k` spells. */
  lemma PicksSpelling(k: nat, user: Option<Identity>)
    requires k < |Table| && k != 1
    ensures Resolve(Spellings[k], user) == Guarded(Table[k].guard, user, Render(Table[k].page))
  {
    MatchAt(k, Spellings[k]);
    Picks(k, Spellings[k]);
  }

  /** "/", "/login" and "/register" render for everyone. */
  lemma PublicRoutesOpen(loc: Location, user: Option<Identity>)
    requires loc in PublicSpellings
    ensures Resolve(loc, user).Render?
  {
    var k := if loc == [] then 0 else if loc == ["login"] then 2 else 3;
    assert loc == Spellings[k];
    PicksSpelling(k, user);
    assert Table[k].guard == Open;
  }

  /** A product page renders for everyone. */
  lemma ProductRouteOpen(id: string, user: Option<Identity>)
    requires id != ""
    ensures Resolve(["product", id], user) == Render(ProductDetail)
  {
    MatchAt(1, ["product", id]);
    Picks(1, ["product", id]);
  }

  /** The user pages redirect a signed-out visitor to "/login" and render for any signed-in user. */
  lemma PrivateRoutesGuarded(loc: Location, user: Option<Identity>)
    requires loc in PrivateSpellings
    ensures user.None? ==> Resolve(loc, user) == Redirect("/login")
    ensures user.Some? ==> Resolve(loc, user).Render?
  {
    var k := if loc == ["cart"] then 4 else if loc == ["checkout"] then 5 else if loc == ["orders"] then 6
      else if loc == ["my-products"] then 7 else 8;
    assert loc == Spellings[k];
    PicksSpelling(k, user);
    assert Table[k].guard == Private;
  }

  /** The admin pages render exactly for a user flagged admin; anyone else goes to "/". */
  lemma AdminRoutesGuarded(loc: Location, user: Option<Identity>)
    requires loc in AdminSpellings
    ensures Resolve(loc, user).Render? <==> user.Some? && user.value.isAdmin
    ensures !Resolve(loc, user).Render? ==> Resolve(loc, user) == Redirect("/")
  {
    var k := if loc == ["admin"] then 9 else if loc == ["admin", "products"] then 10
      else if loc == ["admin", "categories"] then 11 else 12;
    assert loc == Spellings[k];
    PicksSpelling(k, user);
    assert Table[k].guard == AdminOnly;
  }

  /** Any other location redirects to "/". */
  lemma UnknownPathsGoHome(loc: Location, user: Option<Identity>)
    requires loc !in PublicSpellings && loc !in PrivateSpellings && loc !in AdminSpellings
    requires !(|loc| == 2 && loc[0] == "product" && loc[1] != "")
    ensures Resolve(loc, user) == Redirect("/")
  {
    forall i | 0 <= i < |Table|
      ensures !Matches(Table[i].pattern, loc)
    {
      MatchAt(i, loc);
    }
  }
}

=== FILE: seqs.dfy ===
/** Sequence helpers shared by the backend querysets and the client lists. */
module Seqs {

  import opened Wrappers

  /** `a` is `b` with some elements left out, the rest in the same order. */
  predicate IsSubsequence<T(==)>(a: seq<T>, b: seq<T>)
    decreases |b|
  {
    if |a| == 0 then true
    else if |b| == 0 then false
    else (a[0] == b[0] && IsSubsequence(a[1..], b[1..])) || IsSubsequence(a, b[1..])
  }

  lemma {:induction false} SubsequenceOfSelf<T>(s: seq<T>)
    ensures IsSubsequence(s, s)
  {
    if |s| > 0 {
      SubsequenceOfSelf(s[1..]);
    }
  }

  /** The position of the first element of `s` that `hit` accepts, if any (a lookup by key). */
  function IndexWhere<T>(s: seq<T>, hit: T -> bool): (r: Option<nat>)
    ensures r.Some? ==> r.value < |s| && hit(s[r.value])
    ensures r.Some? ==> forall j :: 0 <= j < r.value ==> !hit(s[j])
    ensures r.None? <==> forall j :: 0 <= j < |s| ==> !hit(s[j])
  {
    if |s| == 0 then None
    else if hit(s[0]) then Some(0)
    else match IndexWhere(s[1..], hit)
      case None => None
      case Some(k) => Some(k + 1)
  }

  /** The elements of `s` that `keep` accepts, in order (`queryset.filter`, `Array.filter`). */
  function Filter<T(==,!new)>(s: seq<T>, keep: T -> bool): (r: seq<T>)
    ensures |r| <= |s|
    ensures forall i :: 0 <= i < |r| ==> r[i] in s && keep(r[i])
    ensures forall i :: 0 <= i < |s| && keep(s[i]) ==> s[i] in r
    ensures IsSubsequence(r, s)
    ensures (forall i :: 0 <= i < |s| ==> keep(s[i])) ==> r == s
    ensures forall x :: multiset(r)[x] == (if keep(x) then multiset(s)[x] else 0)
  {
    if |s| == 0 then []
    else
      var rest := Filter(s[1..], keep);
      if keep(s[0]) then
        FilterKeptStep(s, rest, keep);
        [s[0]] + rest
      else
        FilterDroppedStep(s, rest, keep);
        rest
  }

  /** The step of `Filter` that keeps the head: what holds of the filtered tail holds of the whole. */
  lemma FilterKeptStep<T(!new)>(s: seq<T>, rest: seq<T>, keep: T -> bool)
    requires |s| > 0 && keep(s[0])
    requires |rest| <= |s[1..]|
    requires forall i :: 0 <= i < |rest| ==> rest[i] in s[1..] && keep(rest[i])
    requires forall i :: 0 <= i < |s[1..]| && keep(s[1..][i]) ==> s[1..][i] in rest
    requires IsSubsequence(rest, s[1..])
    requires (forall i :: 0 <= i < |s[1..]| ==> keep(s[1..][i])) ==> rest == s[1..]
    requires forall x :: multiset(rest)[x] == (if keep(x) then multiset(s[1..])[x] else 0)
    ensures |[s[0]] + rest| <= |s|
    ensures forall i :: 0 <= i < |[s[0]] + rest| ==> ([s[0]] + rest)[i] in s && keep(([s[0]] + rest)[i])
    ensures forall i :: 0 <= i < |s| && keep(s[i]) ==> s[i] in [s[0]] + rest
    ensures IsSubsequence([s[0]] + rest, s)
    ensures (forall i :: 0 <= i < |s| ==> keep(s[i])) ==> [s[0]] + rest == s
    ensures forall x :: multiset([s[0]] + rest)[x] == (if keep(x) then multiset(s)[x] else 0)
  {
    assert ([s[0]] + rest)[1..] == rest;
    assert forall i :: 1 <= i < |s| ==> s[i] == s[1..][i - 1];
    assert s == [s[0]] + s[1..];
  }

  /** The step of `Filter` that drops the head: what holds of the filtered tail holds of the whole. */
  lemma FilterDroppedStep<T(!new)>(s: seq<T>, rest: seq<T>, keep: T -> bool)
    requires |s| > 0 && !keep(s[0])
    requires |rest| <= |s[1..]|
    requires forall i :: 0 <= i < |rest| ==> rest[i] in s[1..] && keep(rest[i])
    requires forall i :: 0 <= i < |s[1..]| && keep(s[1..][i]) ==> s[1..][i] in rest
    requires IsSubsequence(rest, s[1..])
    requires forall x :: multiset(rest)[x] == (if keep(x) then multiset(s[1..])[x] else 0)
    ensures |rest| <= |s|
    ensures forall i :: 0 <= i < |rest| ==> rest[i] in s && keep(rest[i])
    ensures forall i :: 0 <= i < |s| && keep(s[i]) ==> s[i] in rest
    ensures IsSubsequence(rest, s)
    ensures forall x :: multiset(rest)[x] == (if keep(x) then multiset(s)[x] else 0)
  {
    assert forall i :: 1 <= i < |s| ==> s[i] == s[1..][i - 1];
    assert s == [s[0]] + s[1..];
  }

  /** Filtering twice keeps exactly what both tests accept. */
  lemma {:induction false} FilterTwice<T(!new)>(s: seq<T>, p: T -> bool, q: T -> bool)
    ensures Filter(Filter(s, p), q) == Filter(s, x => p(x) && q(x))
  {
    if |s| > 0 {
      FilterTwice(s[1..], p, q);
      var rest := Filter(s[1..], p);
      if p(s[0]) {
        assert Filter(s, p) == [s[0]] + rest;
        assert ([s[0]] + rest)[1..] == rest;
      }
    }
  }

  /** Two tests that agree on every element filter alike. */
  lemma {:induction false} FilterExtensional<T(!new)>(s: seq<T>, p: T -> bool, q: T -> bool)
    requires forall i :: 0 <= i < |s| ==> p(s[i]) == q(s[i])
    ensures Filter(s, p) == Filter(s, q)
  {
    if |s| > 0 {
      assert forall i :: 1 <= i < |s| ==> s[i] == s[1..][i - 1];
      FilterExtensional(s[1..], p, q);
    }
  }

  /** The order of two filters does not matter. */
  lemma FilterCommutes<T(!new)>(s: seq<T>, p: T -> bool, q: T -> bool)
    ensures Filter(Filter(s, p), q) == Filter(Filter(s, q), p)
  {
    FilterTwice(s, p, q);
    FilterTwice(s, q, p);
    FilterExtensional(s, x => p(x) && q(x), x => q(x) && p(x));
  }

  lemma {:induction false} SubsequenceTransitive<T>(a: seq<T>, b: seq<T>, c: seq<T>)
    requires IsSubsequence(a, b) && IsSubsequence(b, c)
    ensures IsSubsequence(a, c)
    decreases |c|
  {
    if |a| > 0 && |c| > 0 {
      if |b| > 0 && b[0] == c[0] && IsSubsequence(b[1..], c[1..]) {
        if a[0] == b[0] && IsSubsequence(a[1..], b[1..]) {
          SubsequenceTransitive(a[1..], b[1..], c[1..]);
        } else {
          SubsequenceTransitive(a, b[1..], c[1..]);
        }
      } else {
        SubsequenceTransitive(a, b, c[1..]);
      }
    }
  }
}

=== FILE: session.dfy ===
/**
 * The client's session store (the auth context): the signed-in user held in memory,
 * mirrored in browser storage under three keys. Storage is a string-keyed map.
 */
module Session {

  import opened Wrappers
  import opened JsonIdentity

  type Storage = map<string, string>

  const UserKey: string := "user"
  const AccessKey: string := "access"
  const RefreshKey: string := "refresh"
  const SessionKeys: set<string> := {UserKey, AccessKey, RefreshKey}

  const LoginPath: string := "/login"

  /** The in-memory user and the storage behind it. */
  datatype Auth = Auth(user: Option<Identity>, storage: Storage)

  /** What the stored "user" text amounts to when the page loads. */
  datatype Stored =
    | Nothing                     // key absent or empty text: the user stays null
    | Restored(user: Identity)    // the text `login` writes for this identity
    | Unrecognised(text: string)  // any other text; see the README

  /** A string is truthy in JavaScript exactly when it is not empty. */
  predicate Truthy(s: string) {
    s != ""
  }

  /** `localStorage.getItem(key)` used in an `if`: present and not empty. */
  predicate HasValue(st: Storage, key: string) {
    key in st && Truthy(st[key])
  }

  function ReadStored(st: Storage): (r: Stored)
    ensures r.Nothing? <==> !HasValue(st, UserKey)
    ensures r.Restored? ==> HasValue(st, UserKey) && st[UserKey] == Encode(r.user)
    ensures r.Unrecognised? ==> r.text == st[UserKey] && forall u :: Encode(u) != r.text
  {
    if !HasValue(st, UserKey) then Nothing
    else
      match Decode(st[UserKey])
      case Some(u) => Restored(u)
      case None =>
        assert forall u :: Encode(u) != st[UserKey] by {
          forall u | Encode(u) == st[UserKey] {
            DecodeEncode(u);
          }
        }
        Unrecognised(st[UserKey])
  }

  /**
   * The mount effect: the user starts null and becomes the parsed stored user when
   * one is stored. `None` when the stored text is not one `login` writes.
   */
  function Mount(st: Storage): (r: Option<Auth>)
    ensures r.Some? ==> r.value.storage == st
    ensures r.Some? && r.value.user.None? <==> !HasValue(st, UserKey)
    ensures r.Some? && r.value.user.Some? ==> st[UserKey] == Encode(r.value.user.value)
    ensures r.None? <==> ReadStored(st).Unrecognised?
  {
    match ReadStored(st)
    case Nothing => Some(Auth(None, st))
    case Restored(u) => Some(Auth(Some(u), st))
    case Unrecognised(_) => None
  }

  /** `localStorage.setItem(key, v)` turns an absent value into the text "undefined". */
  function StoredText(v: Option<string>): (t: string)
    ensures v.Some? ==> t == v.value
    ensures v.None? ==> t == "undefined"
  {
    v.GetOr("undefined")
  }

  /** `login(userData, access, refresh)`: sets the user and persists all three values. */
  function Login(a: Auth, u: Identity, access: string, refresh: string): (r: Auth)
    ensures r.user == Some(u)
    ensures r.storage.Keys == a.storage.Keys + SessionKeys
    ensures r.storage[UserKey] == Encode(u)
    ensures r.storage[AccessKey] == access && r.storage[RefreshKey] == refresh
    ensures forall k :: k in a.storage && k !in SessionKeys ==> r.storage[k] == a.storage[k]
  {
    Auth(Some(u), a.storage[UserKey := Encode(u)][AccessKey := access][RefreshKey := refresh])
  }

  /** Removes the three session keys and nothing else. */
  function ClearSession(st: Storage): (r: Storage)
    ensures r.Keys == st.Keys - SessionKeys
    ensures forall k :: k in r ==> r[k] == st[k]
  {
    st - SessionKeys
  }

  datatype Signout = Signout(auth: Auth, navigate: string)

  /** `logout()`: user becomes null, the three keys go, and the page goes to the sign-in view. */
  function Logout(a: Auth): (r: Signout)
    ensures r.auth.user.None?
    ensures forall k :: k in SessionKeys ==> k !in r.auth.storage
    ensures forall k :: k in a.storage && k !in SessionKeys ==> k in r.auth.storage && r.auth.storage[k] == a.storage[k]
    ensures r.navigate == LoginPath
  {
    Signout(Auth(None, ClearSession(a.storage)), LoginPath)
  }

  /** `isAuthenticated`: `!!user`. */
  predicate IsAuthenticated(a: Auth) {
    a.user.Some?
  }

  /** Storage holds either all three session keys or none of them. */
  predicate Whole(st: Storage) {
    (forall k :: k in SessionKeys ==> k in st) || (forall k :: k in SessionKeys ==> k !in st)
  }

  /** A login followed by a reload restores the same user, and the store is whole. */
  lemma LoginThenReload(a: Auth, u: Identity, access: string, refresh: string)
    ensures Mount(Login(a, u, access, refresh).storage) == Some(Login(a, u, access, refresh))
    ensures Whole(Login(a, u, access, refresh).storage)
  {
    var st := Login(a, u, access, refresh).storage;
    DecodeEncode(u);
    assert Truthy(st[UserKey]) by {
      assert Encode(u)[0] == '{';
    }
    assert ReadStored(st) == Restored(u);
  }

  /** A logout followed by a reload is anonymous, and the store is whole. */
  lemma LogoutThenReload(a: Auth)
    ensures Mount(Logout(a).auth.storage) == Some(Auth(None, Logout(a).auth.storage))
    ensures Whole(Logout(a).auth.storage)
    ensures !IsAuthenticated(Logout(a).auth)
  {
  }
}

=== FILE: store.dfy ===
/**
 * The backend's database as an immutable value: users' carts, the product catalogue
 * and the orders. Rows the views create take their id from `nextId`.
 */
module Store {

  import opened Wrappers
  import opened OrderModels
  import Seqs

  /** A registered account. `password` holds the stored (hashed) text. */
  datatype User = User(id: int, username: string, email: string, password: string, isAdmin: bool)

  /** A catalogue entry; `createdBy` is the creator's user id, `category` the category id. */
  datatype Product = Product(
    id: int,
    title: string,
    description: string,
    price: int,
    category: int,
    createdBy: int,
    isActive: bool)

  /** A cart line: the product it refers to and the requested quantity. */
  datatype CartItem = CartItem(id: int, product: int, quantity: int)

  /**
   * `carts` maps a user id to the items of that user's cart (a user with no entry has
   * no cart row yet); `products` maps product ids to products; `orders` is in insertion order.
   */
  datatype Db = Db(
    carts: map<int, seq<CartItem>>,
    products: map<int, Product>,
    orders: seq<Order>,
    nextId: int)

  /** The items of `user`'s cart; a user without a cart has none. */
  function CartOf(db: Db, user: int): (items: seq<CartItem>)
    ensures user !in db.carts ==> items == []
    ensures user in db.carts ==> items == db.carts[user]
  {
    if user in db.carts then db.carts[user] else []
  }

  /** The position of the item with id `itemId` in `items`, if any. */
  function IndexOfItem(items: seq<CartItem>, itemId: int): (r: Option<nat>)
    ensures r.Some? ==> r.value < |items| && items[r.value].id == itemId
    ensures r.Some? ==> forall j :: 0 <= j < r.value ==> items[j].id != itemId
    ensures r.None? <==> forall j :: 0 <= j < |items| ==> items[j].id != itemId
  {
    Seqs.IndexWhere(items, (c: CartItem) => c.id == itemId)
  }

  /** The position of the item for `product` in `items`, if any. */
  function IndexOfProduct(items: seq<CartItem>, product: int): (r: Option<nat>)
    ensures r.Some? ==> r.value < |items| && items[r.value].product == product
    ensures r.None? <==> forall j :: 0 <= j < |items| ==> items[j].product != product
  {
    Seqs.IndexWhere(items, (c: CartItem) => c.product == product)
  }

  /** No two items of a cart refer to the same product. */
  predicate OnePerProduct(items: seq<CartItem>) {
    forall i, j :: 0 <= i < j < |items| ==> items[i].product != items[j].product
  }

  /** The cart seen as a product-to-quantity table: the quantity held for `product`. */
  function QuantityOf(items: seq<CartItem>, product: int): int {
    if |items| == 0 then 0
    else (if items[0].product == product then items[0].quantity else 0) + QuantityOf(items[1..], product)
  }

  lemma {:induction false} QuantityOfAbsent(items: seq<CartItem>, product: int)
    requires forall j :: 0 <= j < |items| ==> items[j].product != product
    ensures QuantityOf(items, product) == 0
  {
    if |items| > 0 {
      QuantityOfAbsent(items[1..], product);
    }
  }

  lemma {:induction false} QuantityOfConcat(a: seq<CartItem>, b: seq<CartItem>, product: int)
    ensures QuantityOf(a + b, product) == QuantityOf(a, product) + QuantityOf(b, product)
  {
    if |a| == 0 {
      assert a + b == b;
    } else {
      assert (a + b)[1..] == a[1..] + b;
      QuantityOfConcat(a[1..], b, product);
    }
  }

  /** In a cart with one item per product, that item's quantity is the product's quantity. */
  lemma QuantityOfUnique(items: seq<CartItem>, k: nat, product: int)
    requires OnePerProduct(items) && k < |items| && items[k].product == product
    ensures QuantityOf(items, product) == items[k].quantity
  {
    assert items == items[..k] + [items[k]] + items[k + 1..];
    QuantityOfConcat(items[..k] + [items[k]], items[k + 1..], product);
    QuantityOfConcat(items[..k], [items[k]], product);
    QuantityOfAbsent(items[..k], product);
    QuantityOfAbsent(items[k + 1..], product);
    assert QuantityOf([items[k]], product) == items[k].quantity + QuantityOf([], product);
  }
}

=== FILE: text.dfy ===
/**
 * String helpers the client pages use: `toLowerCase` (for the letters A-Z) and
 * `includes` (substring search).
 */
module Text {

  function LowerChar(c: char): char {
    if 'A' <= c <= 'Z' then (c as int + 32) as char else c
  }

  /** `s.toLowerCase()` restricted to ASCII letters; every other character is kept. */
  function Lower(s: string): (r: string)
    ensures |r| == |s|
    ensures forall i :: 0 <= i < |s| ==> r[i] == LowerChar(s[i])
  {
    if |s| == 0 then [] else [LowerChar(s[0])] + Lower(s[1..])
  }

  /** `s.includes(sub)`: `sub` occurs somewhere in `s`. */
  function Contains(s: string, sub: string): bool
    decreases |s|
  {
    sub <= s || (|s| > 0 && Contains(s[1..], sub))
  }

  /** Reference meaning of `Contains`: there is a position where `sub` starts. */
  ghost predicate OccursAt(s: string, sub: string, k: int) {
    0 <= k && k + |sub| <= |s| && s[k..k + |sub|] == sub
  }

  lemma {:induction false} ContainsMeansOccurs(s: string, sub: string)
    ensures Contains(s, sub) <==> exists k :: OccursAt(s, sub, k)
    decreases |s|
  {
    if sub <= s {
      assert OccursAt(s, sub, 0);
    } else if |s| == 0 {
      assert forall k :: !OccursAt(s, sub, k);
    } else {
      ContainsMeansOccurs(s[1..], sub);
      if exists k :: OccursAt(s[1..], sub, k) {
        var k :| OccursAt(s[1..], sub, k);
        assert s[k + 1..k + 1 + |sub|] == s[1..][k..k + |sub|];
        assert OccursAt(s, sub, k + 1);
      }
      if exists k :: OccursAt(s, sub, k) {
        var k :| OccursAt(s, sub, k);
        assert k != 0;
        assert s[1..][k - 1..k - 1 + |sub|] == s[k..k + |sub|];
        assert OccursAt(s[1..], sub, k - 1);
      }
    }
  }

  /** Every string includes the empty string, so an empty search term filters nothing out. */
  lemma ContainsEmpty(s: string)
    ensures Contains(s, "")
  {
  }
}

=== FILE: user_serializers.dfy ===
/**
 * Account serializers: registration, the claims added to issued tokens, and the body
 * of a successful sign-in. Password hashing is the parameter `hash`; the token pair and
 * the credential check of the framework are inputs.
 */
module UserSerializers {

  import opened Wrappers
  import opened RequestData
  import opened Store

  /** The fields the registration serializer accepts; anything else in the request is dropped. */
  const RegisterFields: set<string> := {"username", "email", "password"}

  /** A registration request after field validation: the three declared fields, as text. */
  datatype Registration = Registration(username: string, email: string, password: string)

  /**
   * The validated data of a registration request: the three fields must be present
   * strings; `None` stands for the validation error. No other key is read.
   */
  function Validated(data: Data): (r: Option<Registration>)
    ensures r.Some? <==> (forall k :: k in RegisterFields ==> k in data && data[k].Str?)
    ensures r.Some? ==> r.value == Registration(data["username"].s, data["email"].s, data["password"].s)
  {
    if "username" in data && data["username"].Str? && "email" in data && data["email"].Str?
       && "password" in data && data["password"].Str?
    then Some(Registration(data["username"].s, data["email"].s, data["password"].s))
    else None
  }

  /** `RegisterSerializer.create`: username and email as given, the hashed password, never admin. */
  function Create(v: Registration, id: int, hash: string -> string): (u: User)
    ensures u.id == id && u.username == v.username && u.email == v.email
    ensures u.password == hash(v.password)
    ensures !u.isAdmin
  {
    User(id, v.username, v.email, hash(v.password), false)
  }

  /** The serialised new account: the password field is write-only. */
  function RegisterOutput(u: User): (out: map<string, string>)
    ensures out.Keys == {"username", "email"}
    ensures out["username"] == u.username && out["email"] == u.email
  {
    map["username" := u.username, "email" := u.email]
  }

  /** Whatever a registration request carries (an `is_admin` of true included), the account is not an admin. */
  lemma RegistrationNeverAdmin(data: Data, id: int, hash: string -> string)
    requires Validated(data).Some?
    ensures !Create(Validated(data).value, id, hash).isAdmin
    ensures Validated(data) == Validated(data["is_admin" := Bool(true)])
  {
    var flagged := data["is_admin" := Bool(true)];
    assert forall k :: k in RegisterFields ==> k in flagged && flagged[k] == data[k];
  }

  /** The stored password is the hash of the given one; it is not echoed back. */
  lemma PasswordNeverEchoed(data: Data, id: int, hash: string -> string)
    requires Validated(data).Some?
    ensures var u := Create(Validated(data).value, id, hash);
            && u.password == hash(data["password"].s)
            && "password" !in RegisterOutput(u)
  {
  }

  /** `get_token`: the framework's claims plus `username` and `is_admin`; other claims unchanged. */
  function TokenClaims(base: map<string, Value>, u: User): (claims: map<string, Value>)
    ensures claims.Keys == base.Keys + {"username", "is_admin"}
    ensures claims["username"] == Str(u.username) && claims["is_admin"] == Bool(u.isAdmin)
    ensures forall k :: k in base && k != "username" && k != "is_admin" ==> claims[k] == base[k]
  {
    base["username" := Str(u.username)]["is_admin" := Bool(u.isAdmin)]
  }

  /** The identity object added to a sign-in response. */
  datatype UserInfo = UserInfo(id: int, username: string, email: string, isAdmin: bool)

  /** The body of a successful sign-in. */
  datatype SignIn = SignIn(refresh: string, access: string, user: UserInfo)

  /**
   * `validate`: `authenticated` is the account the credentials name (`None` when the
   * framework's check refuses them, which answers 401). The response carries the token
   * pair and exactly the four identity fields of the account.
   */
  function Validate(authenticated: Option<User>, refresh: string, access: string): (r: Option<SignIn>)
    ensures r.Some? <==> authenticated.Some?
    ensures r.Some? ==> r.value.refresh == refresh && r.value.access == access
    ensures r.Some? ==> var u := authenticated.value;
                        r.value.user == UserInfo(u.id, u.username, u.email, u.isAdmin)
  {
    match authenticated
    case None => None
    case Some(u) => Some(SignIn(refresh, access, UserInfo(u.id, u.username, u.email, u.isAdmin)))
  }
}

=== FILE: wrappers.dfy ===
/** Small result and option wrappers shared by every module of the model. */
module Wrappers {

  /** A value that may be absent: JavaScript's `null`/`undefined`, Python's `None`, a missing key. */
  datatype Option<+T> = None | Some(value: T) {

    /** The wrapped value, or `default` when absent (the `x ?? d` of the client code). */
    function GetOr(default: T): (r: T)
      ensures Some? ==> r == value
      ensures None? ==> r == default
    {
      match this
      case Some(v) => v
      case None => default
    }
  }

  /** Looks a key up in a map, as `dict.get` and `localStorage.getItem` do. */
  function Get<K, V>(m: map<K, V>, k: K): (r: Option<V>)
    ensures r.Some? <==> k in m
    ensures r.Some? ==> r.value == m[k]
  {
    if k in m then Some(m[k]) else None
  }
}
